=== FILE: README.md ===
# Expert session booking, modelled in Dafny

The system is a small booking service. Clients browse experts, open one
expert's page, pick a free time slot and fill in a form to book it. A
`slotBooked` broadcast then marks that slot as taken on every open page.
Afterwards a user can list their bookings by e-mail.

- The server keeps two collections: experts, each with an embedded list of
  slots, and bookings.
- A unique index on (expertId, date, time) is the guard against double
  booking.

This project models that core as pure functions over immutable data, with
one module per source file:

| module | models |
|---|---|
| `ExpertModel` | `backend/models/Expert.js` |
| `BookingModel` | `backend/models/Booking.js` |
| `ExpertController` | `backend/controllers/expertController.js` |
| `BookingController` | `backend/controllers/bookingController.js` (pure transitions) |
| `BookingInterleaving` | the same requests, awaited step by step and interleaved |
| `ExpertListing` | `frontend/src/pages/ExpertListing.jsx` |
| `ExpertDetail` | `frontend/src/pages/ExpertDetail.jsx` |
| `BookingForm` | `frontend/src/pages/BookingForm.jsx` |
| `MyBookings` | `frontend/src/pages/MyBookings.jsx` |

Five shared modules support them:

- `Base`: `Option`, `Result`, first-match search, filtering and counting.
- `Sorting`: insertion sort over a caller-given total preorder.
- `Text`: JavaScript whitespace, `trim`, ASCII lower-casing, substring search and code-point order.
- `Schema`: what a mongoose `required` path accepts, and the text of a validation error.
- `QueryString`: how the server's query parser reads back a URL the pages build by unencoded interpolation: the cut at '#', the split at '&' and '=', '+' read as a space, and a repeated name.

How the model treats the environment:

- The database is a record `Store(experts, ledger)`.
- `createBooking` is a transition returning the new store, the response and the emitted events.
- The clock, the element the positional `$` update lands on, and infrastructure failures of each store call are an `Env` parameter.
- A broadcast is an event appended to the transition's output.

Three places where the code and its description differ. The model follows
the code:

- `updateBookingStatus` answers 200 with a `null` body for an unknown id, not 404.
- The availability probe tests date, time and "unbooked" independently across the slot array. It does not match one slot.
- The date selected when an expert page loads is the first slot's date, which need not be the first (smallest) date tab.

## Model

| member | source | states |
|---|---|---|
| ExpertModel.CreateExpert | backend/models/Expert.js:3-16 | creation succeeds iff name and category are non-empty and experience is given; on success `rating` defaults to 0 and an unspecified `isBooked` to false; on failure the message lists the missing paths |
| ExpertModel.OptionalFieldsNeverInvalidate | backend/models/Expert.js:8-9 | description and profileImage never decide whether an expert can be created |
| BookingModel.BookingErrors | backend/models/Booking.js:3-15 | a draft has no validation errors iff all six required paths are non-empty and the status, if given, is in the enumeration |
| BookingModel.NewBooking | backend/models/Booking.js:3-16 | creation succeeds exactly for valid drafts; the stored fields are the draft's, status defaults to "Confirmed", createdAt is the clock; a failure carries the validation message |
| BookingModel.NotesNeverInvalidate | backend/models/Booking.js:10 | notes are optional: they never change whether a booking can be created |
| BookingModel.Insert | backend/models/Booking.js:18-19 | the insert fails with code 11000 iff the (expertId, date, time) key is taken; otherwise it appends, and the unique index is preserved |
| BookingController.Probe | backend/controllers/bookingController.js:9-14 | the probe passes iff the request names an expert that exists and that expert's slots contain the date, the time and an unbooked flag, each possibly on a different slot |
| BookingController.ProbeSound | backend/controllers/bookingController.js:9-14 | an unbooked slot with exactly the requested date and time lets the probe pass (only this direction holds) |
| BookingController.UpdateSlot | backend/controllers/bookingController.js:25-28 | the positional update changes at most the one chosen slot of the named expert, only from unbooked to booked, and no other expert |
| BookingController.CreateBooking | backend/controllers/bookingController.js:4-42 | a failed probe answers 400 "Slot already booked or does not exist." with no change; 400 "This slot was just taken by another user." happens iff the key is taken, with no change and no event; 201 happens iff the probe passes, the draft validates, the key is free and no store call fails, and then it appends exactly one booking with the request's key and emits exactly one `slotBooked`; a probe or insert fault answers 500 with that error's message and a validation failure 500 with the `ValidationError` message, all with no change; every non-201 outcome emits nothing and leaves the experts unchanged |
| BookingController.CreateBookingLedger | backend/controllers/bookingController.js:20-28 | a request appends at most one booking and never rewrites the ledger; a 500 that leaves a new booking behind is the slot update's failure, after the insert |
| BookingController.CreateBookingUpdateFault | backend/controllers/bookingController.js:20-40 | when the probe and insert succeed but the slot update fails, the answer is 500 with the failure's message, the new booking stays at the end of the ledger, the experts are unchanged and nothing is broadcast |
| BookingController.CreateBookingExperts | backend/controllers/bookingController.js:24-28 | a request only sets slot flags from false to true, and only on the requested expert |
| BookingController.CreateBookingKeepsStoreValid | backend/controllers/bookingController.js:4-42 | unique expert ids, the unique index and ids by position survive every request |
| BookingController.GrowingKeepsIds | backend/controllers/bookingController.js:25-28 | setting slot flags never changes an expert's id, so `_id` stays unique |
| BookingController.ProbeAdmitsPhantomSlot | backend/controllers/bookingController.js:9-14 | a concrete expert where the requested (date, time) names no slot, yet the probe passes and the booking is created |
| BookingController.RunKeepsStoreValid | backend/controllers/bookingController.js:20-22 | after any sequence of requests the store is valid, so no two bookings share (expertId, date, time) |
| BookingController.AtMostOneSuccessPerSlot | backend/controllers/bookingController.js:20-22 | among any sequence of requests, two successful ones never carry the same (expertId, date, time) |
| BookingController.SuccessTakesKey | backend/controllers/bookingController.js:21-34 | a successful request found its key free and leaves it taken |
| BookingController.StepFoundKeyFree | backend/controllers/bookingController.js:20-22 | a request that succeeds within a sequence found its key free in the ledger it was served against |
| BookingController.StepTakesKey | backend/controllers/bookingController.js:20-22 | a request that succeeds within a sequence leaves its key taken |
| BookingController.SuccessKeyStaysTaken | backend/controllers/bookingController.js:20-22 | once a request has succeeded, its key is taken for every later request |
| BookingController.Resolve | backend/controllers/bookingController.js:48 | `populate` finds the referenced expert iff one has that id, and a dangling reference becomes null |
| BookingController.ResolveAll | backend/controllers/bookingController.js:48 | `populate` keeps the bookings and their order and resolves each one |
| BookingController.NewestBookingsOf | backend/controllers/bookingController.js:47-49 | the result is a permutation of the bookings with that e-mail: all of them and only them, newest first by createdAt |
| BookingController.GetBookingsByEmail | backend/controllers/bookingController.js:44-55 | the e-mail's bookings newest first, each with its expert resolved when it exists |
| BookingController.UpdateBookingStatus | backend/controllers/bookingController.js:57-64 | always 200; a null body iff no booking has the id, and then no change; otherwise the booking with that id, and only it, gets the new status and is returned; every other booking and every expert stay as they were |
| BookingController.UpdateBookingStatusKeepsStoreValid | backend/controllers/bookingController.js:59 | a status update keeps the store valid: the unique index and ids by position are unaffected |
| BookingController.StatusChangeKeepsStoreValid | backend/controllers/bookingController.js:59 | changing one booking's status leaves its key and id as they were, so the store stays valid |
| BookingController.StatusUpdateUnchecked | backend/controllers/bookingController.js:59 | a status outside the enumeration ("Cancelled") is stored as given |
| BookingInterleaving.Step | backend/controllers/bookingController.js:9-40 | one awaited step of one request keeps the requests and the number of phases, and the ledger only grows |
| BookingInterleaving.StepFrame | backend/controllers/bookingController.js:9-40 | a step changes only its own request's phase, adds at most one booking and one broadcast, and leaves an answered request alone |
| BookingInterleaving.StepKeepsInv | backend/controllers/bookingController.js:9-32 | each awaited step of any request (probe, insert, update and emit) keeps the store valid and each position a request holds owned by it alone |
| BookingInterleaving.FinishKeepsInv | backend/controllers/bookingController.js:24-32 | finishing a request past its insert (slot update and broadcast) keeps the invariant, whatever the update does to slot flags |
| BookingInterleaving.ExecuteKeepsInv | backend/controllers/bookingController.js:4-42 | the invariant holds after any interleaving of the requests' steps |
| BookingInterleaving.NoDoubleBooking | backend/controllers/bookingController.js:20-22 | under any interleaving, two requests that both still hold a ledger position carry different keys, and no two ledger entries ever share a key, including those of requests answered 500 after their insert |
| QueryString.BeforeFragment | backend/controllers/expertController.js:5 | what reaches the server of a URL is a prefix without '#', the whole URL iff it has none |
| QueryString.Split | backend/controllers/expertController.js:5 | the pieces between '&'s, none containing '&'; a piece free of '&' followed by '&' splits off first |
| QueryString.Read | backend/controllers/expertController.js:5 | a parameter is absent iff no piece names it, a single string iff exactly one does (that piece's value), an array otherwise |
| QueryString.ReadOne | backend/controllers/bookingController.js:46 | `name=value` with a plain name and a value free of '&' and '#' reads back as that one value with '+' as a space |
| QueryString.ReadFirst | backend/controllers/expertController.js:5 | the first parameter of a query is never absent, and read as one value it is the value written |
| QueryString.ReadThree | backend/controllers/expertController.js:5 | three parameters with distinct plain names and values free of '&' and '#' read back one value each, '+' read as a space |
| ExpertController.Matching | backend/controllers/expertController.js:6-9 | the filtered experts are exactly the ones with the category and a case-insensitive name match, each at most as often as in the collection |
| ExpertController.CeilDiv | backend/controllers/expertController.js:20 | the fewest pages of `limit` items that hold `count` items |
| ExpertController.Window | backend/controllers/expertController.js:11-14 | skip/limit: at most `limit` items, the slice from `skip`, empty past the end |
| ExpertController.GetExperts | backend/controllers/expertController.js:3-26 | fails with the negative-skip error iff page is 0 and limit is positive; otherwise every returned expert matches, the page is the window of the matching set, totalPages is the ceiling of count over limit, and limit 0 (on any page) returns every match with null totalPages |
| ExpertController.PageBeyondRangeIsEmpty | backend/controllers/expertController.js:11-20 | pages beyond totalPages are empty, and totalPages does not depend on the page requested |
| ExpertController.PagesAreAdjacent | backend/controllers/expertController.js:11-14 | consecutive pages are adjacent slices of the filtered list |
| ExpertController.GetExpertById | backend/controllers/expertController.js:28-36 | a 500 with the cast error's message iff the id is not 24 hexadecimal digits; 404 "Expert not found" iff it is but no expert's `_id` is its cast (lower-case) form; otherwise the expert with that `_id` |
| ExpertController.CastId | backend/controllers/expertController.js:30 | the cast reads hex digits in either case and yields the lower-case form, keeping digits and lower-case letters |
| ExpertController.FindsStoredExpert | backend/controllers/expertController.js:30-32 | with unique ids, any spelling of a stored expert's id, whatever the case of its hex digits, finds that expert |
| ExpertController.LookupIgnoresCase | backend/controllers/expertController.js:30 | two well-formed ids that differ only in the case of their hex digits get the same answer |
| ExpertListing.RequestOf | frontend/src/pages/ExpertListing.jsx:29 | the query the server parses out of the unencoded URL: the page, no limit, and, when search and category avoid '&', '#', '+' and '%', exactly the typed search and category |
| ExpertListing.ListingReadsBack | frontend/src/pages/ExpertListing.jsx:29 | for such search and category, the server reads page, search and category back as one value each, as written |
| ExpertListing.PageReadsBack | frontend/src/pages/ExpertListing.jsx:29 | whatever is typed, the page parameter is present, and when it comes back as one value it is the page |
| ExpertListing.HandleSearch | frontend/src/pages/ExpertListing.jsx:38-44 | submitting goes to page 1; the handler's own request is for the page it was rendered with, and the effect adds a request for page 1 iff the page changed, so the last request is for the new state |
| ExpertListing.SearchAsksPageOne | frontend/src/pages/ExpertListing.jsx:38-44 | with a search and category as typed, the last request asks for page 1 with both filters |
| ExpertListing.ClearFilters | frontend/src/pages/ExpertListing.jsx:38-51 | clearing empties search and category and goes to page 1; its own request carries the state from before the clear, and a second, cleared request follows iff page or category changed |
| ExpertListing.ClearedRequestMatchesAll | frontend/src/pages/ExpertListing.jsx:38-51 | when clearing moves the page or drops a category, the last request has empty filters and matches every expert |
| ExpertListing.ClearedRequest | frontend/src/pages/ExpertListing.jsx:29 | a state on page 1 with no filters asks for page 1 with empty filters |
| ExpertListing.ClearKeepsSearch | frontend/src/pages/ExpertListing.jsx:38-51 | clearing a search on page 1 with no category sends a single request, and it still filters by the old search |
| ExpertListing.ToggleCategory | frontend/src/pages/ExpertListing.jsx:138-141 | clicking the active category clears it, any other selects it, and both go to page 1 |
| ExpertListing.ToggleTwiceClears | frontend/src/pages/ExpertListing.jsx:138-141 | clicking the same category twice from none leaves none selected |
| ExpertListing.ToggleFetchesOnce | frontend/src/pages/ExpertListing.jsx:38 | a category click always changes the category, so the effect sends exactly one request, for the toggled state |
| ExpertListing.ShowPagination | frontend/src/pages/ExpertListing.jsx:255 | the bar is shown iff there is more than one page, nothing is loading and some expert is listed |
| ExpertListing.ShownBarHasBothEnds | frontend/src/pages/ExpertListing.jsx:255-293 | a shown bar has at least two items, the first a button for page 1 and the last a button for the last page |
| ExpertListing.PageBar | frontend/src/pages/ExpertListing.jsx:266-293 | one item per page: a button iff first, last or within one of the current page (marked iff current), an ellipsis iff exactly two away and not a button |
| ExpertListing.HiddenBehindEllipsis | frontend/src/pages/ExpertListing.jsx:266-293 | every page the bar hides lies beyond an ellipsis on its side of the current page |
| ExpertListing.Previous | frontend/src/pages/ExpertListing.jsx:258 | Previous goes one page down but never below 1 |
| ExpertListing.Next | frontend/src/pages/ExpertListing.jsx:298 | Next goes one page up but never past totalPages |
| ExpertListing.StepsStayInRange | frontend/src/pages/ExpertListing.jsx:255-300 | from an in-range page, Previous and Next stay in range and land on a visible button, and each is a no-op exactly when it is disabled |
| ExpertListing.LookIn | frontend/src/pages/ExpertListing.jsx:53-56 | over any category list whose icons differ from the wrench: the fallback iff no name matches case-insensitively, otherwise the first match's icon and colour |
| ExpertListing.CategoryDetails | frontend/src/pages/ExpertListing.jsx:53-56 | the fallback look iff no category name matches case-insensitively (always for an absent name); otherwise the icon and colour of the first matching category |
| ExpertListing.CategoryDetailsIgnoresCase | frontend/src/pages/ExpertListing.jsx:53-56 | a name and its lower-case form get the same look |
| ExpertDetail.MarkBooked | frontend/src/pages/ExpertDetail.jsx:54-58 | same slots in the same order, with a slot booked iff it was booked or matches both date and time |
| ExpertDetail.OnSlotBooked | frontend/src/pages/ExpertDetail.jsx:50-61 | a broadcast for another expert changes nothing; otherwise the slots only gain bookings, exactly where date and time match |
| ExpertDetail.OnSlotBookedIdempotent | frontend/src/pages/ExpertDetail.jsx:50-61 | hearing a broadcast twice is the same as hearing it once |
| ExpertDetail.OnSlotBookedCommutes | frontend/src/pages/ExpertDetail.jsx:50-61 | two broadcasts give the same view in either order |
| ExpertDetail.DuplicateSlotsBothMarked | frontend/src/pages/ExpertDetail.jsx:54-58 | one broadcast marks every slot sharing its date and time, unlike the server's single positional update |
| ExpertDetail.GetAvailabilityStatus | frontend/src/pages/ExpertDetail.jsx:79-84 | zeros before load; otherwise total is the number of slots and available plus booked equals total |
| ExpertDetail.AvailabilityAfterBroadcast | frontend/src/pages/ExpertDetail.jsx:50-84 | a broadcast keeps the total, never raises the available count, and lowers it when it hits an unbooked slot |
| ExpertDetail.MarkBookedCount | frontend/src/pages/ExpertDetail.jsx:54-58 | marking removes from the available count exactly the unbooked slots it hits |
| ExpertDetail.GroupByDate | frontend/src/pages/ExpertDetail.jsx:69-75 | the `reduce` over the slots from left to right, each slot joining its date's group or opening one at the end; its grouping is what GroupByDateCorrect states |
| ExpertDetail.GroupByDateCorrect | frontend/src/pages/ExpertDetail.jsx:69-75 | the reduce gives one group per distinct date, each the in-order slots of that date, sizes adding up to all slots, with the first slot's date first |
| ExpertDetail.AddSlotKeepsGroups | frontend/src/pages/ExpertDetail.jsx:70-73 | one reduce step keeps the grouping correct for the longer prefix |
| ExpertDetail.KeysAreDates | frontend/src/pages/ExpertDetail.jsx:69-77 | the group keys are exactly the slot dates |
| ExpertDetail.AvailableDates | frontend/src/pages/ExpertDetail.jsx:77 | the date tabs are sorted, distinct, and exactly the slot dates (none before load) |
| ExpertDetail.DefaultSelectedDate | frontend/src/pages/ExpertDetail.jsx:36-40 | nothing is selected iff there are no slots; otherwise the first slot's date |
| ExpertDetail.FirstTabIsSmallest | frontend/src/pages/ExpertDetail.jsx:77 | the first tab is a slot date no greater than any slot date |
| ExpertDetail.DefaultDateNotFirstTab | frontend/src/pages/ExpertDetail.jsx:36-40 | concrete slots where the date selected on load differs from the first tab |
| ExpertDetail.DefaultDateMissesFirstTab | frontend/src/pages/ExpertDetail.jsx:36-40 | whenever a later slot's date sorts before the first slot's, the date selected on load is not the first tab |
| BookingForm.IsEmail | frontend/src/pages/BookingForm.jsx:65 | a value passes the e-mail pattern iff it splits as local@domain.tld with the three parts non-empty and free of whitespace and '@' |
| BookingForm.IsPhone | frontend/src/pages/BookingForm.jsx:67 | a phone number is ten or more characters, each a digit, whitespace, '+', '-', '(' or ')' |
| BookingForm.ValidateField | frontend/src/pages/BookingForm.jsx:60-71 | the name error appears exactly when the trimmed name is shorter than two UTF-16 code units; the e-mail and phone errors exactly when their rules fail and are empty otherwise; any other field never has an error |
| BookingForm.NameRule | frontend/src/pages/BookingForm.jsx:63 | a name passes iff it has two non-whitespace characters or a character outside the Basic Multilingual Plane, since `length` counts UTF-16 code units |
| BookingForm.EmojiNamePasses | frontend/src/pages/BookingForm.jsx:63 | a name made of one emoji passes |
| BookingForm.HandleChange | frontend/src/pages/BookingForm.jsx:73-82 | the value is stored; the field's error is recomputed iff the field has been touched, and no other error changes |
| BookingForm.HandleBlur | frontend/src/pages/BookingForm.jsx:84-89 | leaving a field marks only it touched and sets only its error |
| BookingForm.BlurThenChangeRevalidates | frontend/src/pages/BookingForm.jsx:73-89 | once a field has been left, each edit updates its error at once; before that, edits leave the errors alone |
| BookingForm.ValidateForm | frontend/src/pages/BookingForm.jsx:91-101 | the errors are exactly the non-empty errors of the fields other than notes, and the form passes iff there are none |
| BookingForm.FormRule | frontend/src/pages/BookingForm.jsx:91-101 | the form passes iff name, e-mail and phone pass |
| BookingForm.NotesNeverMatter | frontend/src/pages/BookingForm.jsx:94 | the notes never affect validation |
| BookingForm.Payload | frontend/src/pages/BookingForm.jsx:123-129 | the request body keeps the form fields and carries the expert's id and the chosen slot's date and time |
| BookingForm.HandleSubmit | frontend/src/pages/BookingForm.jsx:103-129 | every field becomes touched and the errors are the form's; an invalid form sends nothing and shows the fix-errors message; a valid one sends the payload |
| BookingForm.BlankFormRejected | frontend/src/pages/BookingForm.jsx:23-28 | submitting the untouched initial form sends nothing and flags the name |
| BookingForm.FailureMessage | frontend/src/pages/BookingForm.jsx:141 | the server's message when present and non-empty, otherwise "Booking failed. Please try again." |
| BookingForm.AfterResponse | frontend/src/pages/BookingForm.jsx:131-142 | a created booking shows the success message; a rejection shows the failure message |
| BookingForm.SubmittedFormIsAccepted | frontend/src/pages/BookingForm.jsx:103-129 | a form whose name, e-mail and phone pass is sent, and for a slot with a date and time its body passes the booking schema, keeps that slot's key and gets the default status |
| BookingForm.PassingFieldsNonEmpty | frontend/src/pages/BookingForm.jsx:91-101 | a form that passes has a non-empty name, e-mail and phone |
| BookingForm.PayloadAccepted | frontend/src/pages/BookingForm.jsx:123-129 | a body with non-empty name, e-mail and phone for a slot with a date and time passes the booking schema, with no status and that slot's key |
| MyBookings.SearchQuery | frontend/src/pages/MyBookings.jsx:38-44 | an empty e-mail sends nothing; otherwise the unencoded query, which the server reads as the e-mail with '+' as a space when it has no '&' or '#', and as typed when it also avoids '+' and '%' |
| MyBookings.EmailReadsBack | frontend/src/pages/MyBookings.jsx:44 | the server's reading of `email=<e-mail>`: one value, '+' read as a space, for an e-mail without '&' or '#' |
| MyBookings.ServerEmail | frontend/src/pages/MyBookings.jsx:44 | the e-mail the route receives: the typed one with '+' as a space when free of '&' and '#', exactly the typed one when also free of '+' and '%' |
| MyBookings.HandleSearch | frontend/src/pages/MyBookings.jsx:36-54 | with an empty e-mail nothing changes; a reply replaces the list and marks the search done; a failure keeps the list and shows the error |
| MyBookings.SearchShowsOwnBookings | frontend/src/pages/MyBookings.jsx:44-46 | a search for an e-mail free of '&', '#', '+' and '%', answered by the e-mail route, lists all and only that e-mail's bookings |
| MyBookings.PlusInAddressFindsNothing | frontend/src/pages/MyBookings.jsx:44 | an e-mail with a '+' reaches the route with a space instead, so unless someone booked with that other address the search lists nothing |
| MyBookings.PlusAddressAccepted | frontend/src/pages/BookingForm.jsx:65 | the booking form accepts "ann+x@mail.com", so such an address is stored as typed |
| MyBookings.PlusAddressMisread | frontend/src/pages/MyBookings.jsx:44 | "ann+x@mail.com" has no '&' or '#' but a '+', and the route reads it as "ann x@mail.com" |
| MyBookings.NoBookingsFor | backend/controllers/bookingController.js:47-49 | an e-mail no booking carries gets an empty list |
| MyBookings.FilteredBookings | frontend/src/pages/MyBookings.jsx:91-97 | a permutation of the bookings the filter passes, all of them, non-increasing by the date key for "desc" and non-decreasing otherwise |
| MyBookings.ChronologicalOrder | frontend/src/pages/MyBookings.jsx:93-97 | a list ordered by the comparator is non-increasing by the date key for "desc" and non-decreasing otherwise |
| MyBookings.AllKeepsEverything | frontend/src/pages/MyBookings.jsx:92 | the "all" filter lists every fetched booking |
| MyBookings.SortOrderKeepsContents | frontend/src/pages/MyBookings.jsx:93-97 | both sort orders list the same bookings |
| MyBookings.StatsOf | frontend/src/pages/MyBookings.jsx:99-104 | total is the number of bookings; pending + confirmed + completed is at most total, and equal when every status is in the enumeration |
| MyBookings.StatsAddUp | frontend/src/pages/MyBookings.jsx:99-104 | the three counts add up to the number of bookings whose status is in the enumeration |
| MyBookings.FilterMatchesStatCard | frontend/src/pages/MyBookings.jsx:91-104 | filtering by a status lists as many bookings as that status's card shows, and "all" as many as the total |
| MyBookings.StatusBadge | frontend/src/pages/MyBookings.jsx:56-89 | a known status gets its own style, an unknown one Pending's; the text is always the raw status |
| MyBookings.EnumStatusesStyled | frontend/src/pages/MyBookings.jsx:57-78 | every status the schema accepts has a style of its own, and the default is green |
| MyBookings.ProgressLabel | frontend/src/pages/MyBookings.jsx:319-321 | "Awaiting confirmation" iff Pending, "Session confirmed" iff Confirmed, "Session completed" for any other status |
| MyBookings.ProgressThirds | frontend/src/pages/MyBookings.jsx:307-321 | Pending fills one third in yellow, Confirmed two thirds in green, and every other status the whole bar in blue, matching the labels awaiting, confirmed and completed |
| MyBookings.CancelledShowsCompleted | frontend/src/pages/MyBookings.jsx:73-77 | a cancelled booking gets the red badge and yet a full bar labelled completed |
| MyBookings.SessionTitle | frontend/src/pages/MyBookings.jsx:252 | the expert's name when resolved and non-empty, otherwise "Expert Session" |
| MyBookings.EmptyMessage | frontend/src/pages/MyBookings.jsx:333-335 | with no bookings fetched, the no-bookings-for-this-e-mail message; otherwise a message starting "No " that names the filter |
| MyBookings.EmptyListMeansFilter | frontend/src/pages/MyBookings.jsx:329-344 | found bookings with an empty list means a status filter hides them; Clear Filter is offered and "all" lists them all |

## Left out

- The HTTP, Express and Socket.io wiring (`backend/server.js`, `frontend/src/App.jsx`, `frontend/src/socket.js`) is not part of this model. A broadcast is an event in a list, with no delivery, subscription or fan-out.
- `backend/seed.js` is not part of this model: it is a data-loading script.
- Network and browser effects are left out: axios, `localStorage`, `navigate`, the `setTimeout` redirect, the loading flags and React's state scheduling. Each handler is modelled as if its state updates apply at once.
- The listing's two requests after a handler (its own fetch and the effect's) are modelled in the order they are sent. Which answer arrives last, and so which list is shown, is left out: it depends on the network.
- The undefined `navigate` in the bookings page's "Browse Experts" button is left out. It is a UI runtime error with no state to model.
- Query parameters arrive as natural numbers. JavaScript's string-to-number coercion of `page` and `limit` is not modelled.
- ExpertController.Matches treats the search text as a literal substring. Regular-expression metacharacters in it are not interpreted.
- Text.Lower folds only ASCII letters, and strings are sequences of code points. JavaScript's full Unicode `toLowerCase` and its UTF-16 code-unit ordering are not modelled; string length is counted in UTF-16 code units only where the name rule needs it (Text.Utf16Length).
- MyBookings.FilteredBookings takes the sort key `new Date(date + ' ' + time)` as a parameter `when`. Date parsing, and comparisons against an invalid date (`NaN`), are not modelled.
- `experience` and `rating` are exact reals. Floating-point behaviour is not modelled.
- The creation timestamp is the clock `Env.now`. `updatedAt` and all other Mongoose bookkeeping fields are left out.
- In `createBooking`, an `expertId` that is not a valid ObjectId makes the probe throw a `CastError`; that failure is one of the injected faults of `Env`. Only `createBooking` takes an `Env`.
- ExpertController.GetExpertById treats an id as valid exactly when it is 24 hexadecimal digits, and reads stored `_id`s in their lower-case printed form. The 12-character binary form an ObjectId may also be cast from, and store failures other than the cast (also answered 500), are not modelled.
- BookingController.Probe compares the request's `expertId` with stored ids as written: the booking route's cast to an ObjectId (its case-insensitive hex, and its CastError) is not modelled there, so an upper-case spelling of a stored id is treated as naming no expert, where the source finds it.
- BookingController.CreateBooking keys a booking by `expertId` as written, so two spellings of one ObjectId that differ in letter case are two keys here, where the source's unique index sees one.
- BookingController.GetBookingsByEmail: a store failure, answered 500 with its message, is not modelled.
- BookingController.UpdateBookingStatus identifies a booking by its position in the ledger. A malformed id (a `CastError`) and store failures, both answered 500, are not modelled.
- QueryString.Read does not decode percent-escapes. A '%' in a typed value is treated as a character the value must avoid to arrive as typed, and no statement is made about values that hold one.
- ExpertListing.RequestOf answers None when a parameter name occurs more than once (search "x&page=2" repeats `page`). The array the parser then hands the controller is not modelled.
- BookingController.CreateBooking assumes that an injected insert fault means nothing was written. The case where a failed acknowledgement still committed the document is not modelled.
- The socket handler's `prev` being null (a broadcast arriving before the expert has loaded) is not modelled. The page view is always a loaded expert.
- MyBookings.StatusBadge covers statuses that are plain strings. A status naming an `Object.prototype` property (such as `toString`), which would break the lookup, is left out.
- A missing `email` query parameter or `status` body field is not modelled. Both are always strings here, and `undefined` is not distinguished.

=== FILE: base.dfy ===
/**
 Option and Result, and the few sequence functions the rest of the model is
 built from: first-match lookup (MongoDB `findOne`/`findById`, JavaScript
 `find`), order-preserving filtering (`Array.prototype.filter`, a query
 predicate) and counting.
 */
module Base {

  datatype Option<+T> = None | Some(value: T) {

    /** The value, or `default` when absent (JavaScript's `x ?? default`). */
    function GetOr(default: T): T
    {
      if Some? then value else default
    }
  }

  datatype Result<+R, +E> = Success(value: R) | Failure(error: E)

  /** Index of the first element satisfying `p`. */
  function FirstIndex<T>(xs: seq<T>, p: T -> bool): (r: Option<nat>)
    ensures r.Some? ==> r.value < |xs| && p(xs[r.value])
    ensures r.Some? ==> forall k :: 0 <= k < r.value ==> !p(xs[k])
    ensures r.None? <==> forall k :: 0 <= k < |xs| ==> !p(xs[k])
  {
    if |xs| == 0 then None
    else if p(xs[0]) then Some(0)
    else
      match FirstIndex(xs[1..], p)
      case None => None
      case Some(i) => Some(i + 1)
  }

  /** The elements of `xs` satisfying `p`, in their original order. */
  function Filter<T>(xs: seq<T>, p: T -> bool): (r: seq<T>)
    ensures |r| <= |xs|
    ensures forall k :: 0 <= k < |r| ==> p(r[k])
    ensures forall k :: 0 <= k < |xs| && p(xs[k]) ==> xs[k] in r
    ensures multiset(r) <= multiset(xs)
  {
    if |xs| == 0 then []
    else
      assert xs == [xs[0]] + xs[1..];
      (if p(xs[0]) then [xs[0]] else []) + Filter(xs[1..], p)
  }

  /** Filtering distributes over concatenation, which is what makes it order-preserving. */
  lemma {:induction false} FilterAppend<T>(a: seq<T>, b: seq<T>, p: T -> bool)
    ensures Filter(a + b, p) == Filter(a, p) + Filter(b, p)
  {
    if |a| == 0 {
      assert a + b == b;
    } else {
      assert (a + b)[1..] == a[1..] + b;
      FilterAppend(a[1..], b, p);
    }
  }

  /** Any rearrangement of a filter holds only `p`-elements, and every `p`-element of the source. */
  lemma PermutedFilter<T>(xs: seq<T>, p: T -> bool, ys: seq<T>)
    requires multiset(ys) == multiset(Filter(xs, p))
    ensures forall k :: 0 <= k < |ys| ==> p(ys[k])
    ensures forall k :: 0 <= k < |xs| && p(xs[k]) ==> xs[k] in ys
  {
    var f := Filter(xs, p);
    forall k | 0 <= k < |ys|
      ensures p(ys[k])
    {
      assert ys[k] in multiset(f);
      var m :| 0 <= m < |f| && f[m] == ys[k];
    }
    forall k | 0 <= k < |xs| && p(xs[k])
      ensures xs[k] in ys
    {
      assert xs[k] in multiset(f);
    }
  }

  /** Nothing passes a filter that no element satisfies. */
  lemma {:induction false} FilterNone<T>(xs: seq<T>, p: T -> bool)
    requires forall k :: 0 <= k < |xs| ==> !p(xs[k])
    ensures Filter(xs, p) == []
  {
    if |xs| > 0 {
      FilterNone(xs[1..], p);
    }
  }

  /** Number of elements satisfying `p` (`xs.filter(p).length`). */
  function Count<T>(xs: seq<T>, p: T -> bool): nat
  {
    |Filter(xs, p)|
  }

  function Not<T>(p: T -> bool): T -> bool
  {
    x => !p(x)
  }

  /** Counting peels off the first element. */
  lemma CountCons<T>(xs: seq<T>, p: T -> bool)
    requires |xs| > 0
    ensures Count(xs, p) == (if p(xs[0]) then 1 else 0) + Count(xs[1..], p)
  {
  }

  /** Every element satisfies exactly one of `p` and its negation. */
  lemma {:induction false} CountSplit<T>(xs: seq<T>, p: T -> bool)
    ensures Count(xs, p) + Count(xs, Not(p)) == |xs|
  {
    if |xs| > 0 {
      CountSplit(xs[1..], p);
    }
  }

  /** Counting by a disjunction of two exclusive predicates adds the counts. */
  lemma {:induction false} CountDisjoint<T>(xs: seq<T>, p: T -> bool, q: T -> bool, pq: T -> bool)
    requires forall x :: !(p(x) && q(x))
    requires forall x :: pq(x) <==> p(x) || q(x)
    ensures Count(xs, pq) == Count(xs, p) + Count(xs, q)
  {
    if |xs| > 0 {
      CountDisjoint(xs[1..], p, q, pq);
    }
  }

  predicate NoDups<T(==)>(xs: seq<T>)
  {
    forall i, j :: 0 <= i < j < |xs| ==> xs[i] != xs[j]
  }

  /** A sequence has no duplicates exactly when no element occurs twice in its multiset. */
  lemma {:induction false} NoDupsMultiset<T>(xs: seq<T>)
    ensures NoDups(xs) <==> forall x :: multiset(xs)[x] <= 1
  {
    if |xs| == 0 {
    } else {
      NoDupsMultiset(xs[1..]);
      assert xs == [xs[0]] + xs[1..];
      if NoDups(xs) {
        assert xs[0] !in xs[1..] by {
          forall k | 0 <= k < |xs[1..]|
            ensures xs[1..][k] != xs[0]
          {
            assert xs[1..][k] == xs[k + 1];
          }
        }
        assert NoDups(xs[1..]) by {
          forall i, j | 0 <= i < j < |xs[1..]|
            ensures xs[1..][i] != xs[1..][j]
          {
            assert xs[1..][i] == xs[i + 1] && xs[1..][j] == xs[j + 1];
          }
        }
      } else {
        var i, j :| 0 <= i < j < |xs| && xs[i] == xs[j];
        if i == 0 {
          assert xs[j] in xs[1..] by { assert xs[1..][j - 1] == xs[j]; }
          assert multiset(xs)[xs[0]] >= 2;
        } else {
          assert xs[1..][i - 1] == xs[i] && xs[1..][j - 1] == xs[j];
          assert !NoDups(xs[1..]);
          var x :| multiset(xs[1..])[x] > 1;
          assert multiset(xs)[x] == multiset([xs[0]])[x] + multiset(xs[1..])[x];
        }
      }
    }
  }
}

=== FILE: booking_controller.dfy ===
/**
 The booking routes (backend/controllers/bookingController.js) as pure
 transitions over an abstract store.

 `createBooking` runs four steps in order: an availability probe on the
 expert document, the ledger insert (whose unique index is the real guard
 against double booking), the slot update, and the `slotBooked` broadcast.
 The clock, the store's choice of array element for the positional `$`
 update, and infrastructure failures of each store call are parameters
 (`Env`); the broadcast is an event appended to the transition's output.
 */
module BookingController {
  import opened Base
  import opened Sorting
  import opened Schema
  import opened ExpertModel
  import opened BookingModel

  /** The expert collection, in natural order, and the booking collection. */
  datatype Store = Store(experts: seq<Expert>, ledger: seq<Booking>)

  /** The payload of the `slotBooked` broadcast. */
  datatype Event = SlotBooked(expertId: ExpertId, date: string, time: string)

  datatype Body =
    | Message(text: string)
    | Booked(text: string, booking: Booking)
    | Document(booking: Booking)
    | Null

  datatype Response = Response(code: nat, body: Body)

  /**
   What the environment decides during one request: the creation time, the
   slot index the positional update lands on (or none), and an error message
   for each store call that fails for a reason other than a duplicate key.
   */
  datatype Env = Env(
    now: nat,
    pick: Option<nat>,
    probeFault: Option<string>,
    insertFault: Option<string>,
    updateFault: Option<string>)

  datatype Transition = Transition(store: Store, response: Response, events: seq<Event>)

  const SlotUnavailable: string := "Slot already booked or does not exist."
  const SlotTaken: string := "This slot was just taken by another user."
  const BookingSuccessful: string := "Booking successful"

  // ---------------------------------------------------------------- store

  predicate UniqueIds(experts: seq<Expert>)
  {
    forall i, j :: 0 <= i < j < |experts| ==> experts[i].id != experts[j].id
  }

  /** Every booking's id is its position in the ledger. */
  predicate IdsArePositions(ledger: seq<Booking>)
  {
    forall k :: 0 <= k < |ledger| ==> ledger[k].id == k
  }

  /** What the store guarantees between requests: `_id` and the unique index. */
  predicate ValidStore(s: Store)
  {
    UniqueIds(s.experts) && UniqueKeys(s.ledger) && IdsArePositions(s.ledger)
  }

  function HasId(id: ExpertId): Expert -> bool
  {
    (e: Expert) => e.id == id
  }

  /** Lookup by `_id`. */
  function ExpertIndex(experts: seq<Expert>, id: ExpertId): Option<nat>
  {
    FirstIndex(experts, HasId(id))
  }

  /** Under `_id` uniqueness, the expert found for `id` is the one that has it. */
  lemma ExpertIndexUnique(experts: seq<Expert>, j: nat)
    requires UniqueIds(experts) && j < |experts|
    ensures ExpertIndex(experts, experts[j].id) == Some(j)
  {
  }

  // ---------------------------------------------------------------- probe

  /**
   The probe's conditions on the slot array, written with dot notation and no
   `$elemMatch`: each may be met by a different slot.
   */
  predicate ProbeMatches(slots: seq<Slot>, date: string, time: string)
  {
    && (exists a :: 0 <= a < |slots| && slots[a].date == date)
    && (exists b :: 0 <= b < |slots| && slots[b].time == time)
    && (exists c :: 0 <= c < |slots| && !slots[c].isBooked)
  }

  /** Step 1: `findOne({_id, "slots.date", "slots.time", "slots.isBooked": false})` finds a document. */
  predicate Probe(experts: seq<Expert>, d: BookingDraft)
  {
    && d.expertId.Some? && d.date.Some? && d.time.Some?
    && match ExpertIndex(experts, d.expertId.value)
       case None => false
       case Some(i) => ProbeMatches(experts[i].slots, d.date.value, d.time.value)
  }

  /** Sound direction: an unbooked slot with exactly the requested date and time lets the probe pass. */
  lemma ProbeSound(experts: seq<Expert>, d: BookingDraft, j: nat, k: nat)
    requires UniqueIds(experts) && j < |experts| && k < |experts[j].slots|
    requires d.expertId == Some(experts[j].id)
    requires experts[j].slots[k] == Slot(d.date.GetOr(""), d.time.GetOr(""), false)
    requires d.date.Some? && d.time.Some?
    ensures Probe(experts, d)
  {
    ExpertIndexUnique(experts, j);
    var s := experts[j].slots;
    assert s[k].date == d.date.value && s[k].time == d.time.value && !s[k].isBooked;
  }

  // ---------------------------------------------------------------- slot update

  /** The update's filter on the slot array: some slot has the date, some slot has the time. */
  predicate UpdateMatches(slots: seq<Slot>, date: string, time: string)
  {
    && (exists a :: 0 <= a < |slots| && slots[a].date == date)
    && (exists b :: 0 <= b < |slots| && slots[b].time == time)
  }

  /** Two versions of one expert differ at most in slot flags, and flags only go from false to true. */
  predicate ExpertGrows(before: Expert, after: Expert)
  {
    && after.(slots := []) == before.(slots := [])
    && |after.slots| == |before.slots|
    && forall k :: 0 <= k < |before.slots| ==>
         && after.slots[k].date == before.slots[k].date
         && after.slots[k].time == before.slots[k].time
         && (before.slots[k].isBooked ==> after.slots[k].isBooked)
  }

  predicate ExpertsGrow(before: seq<Expert>, after: seq<Expert>)
  {
    |after| == |before| && forall j :: 0 <= j < |before| ==> ExpertGrows(before[j], after[j])
  }

  /** Setting slot flags leaves every expert's id where it was. */
  lemma GrowingKeepsIds(before: seq<Expert>, after: seq<Expert>)
    requires ExpertsGrow(before, after) && UniqueIds(before)
    ensures UniqueIds(after)
  {
    forall j | 0 <= j < |before|
      ensures after[j].id == before[j].id
    {
      assert after[j].(slots := []) == before[j].(slots := []);
    }
  }

  /** Replacing one expert by a grown version of it grows the list. */
  lemma ReplaceGrows(experts: seq<Expert>, i: nat, marked: Expert)
    requires i < |experts| && ExpertGrows(experts[i], marked)
    ensures ExpertsGrow(experts, experts[i := marked])
    ensures forall j :: 0 <= j < |experts| && j != i ==> experts[i := marked][j] == experts[j]
  {
  }

  /**
   Step 3: `updateOne` with `"slots.$.isBooked": true`. Which element the
   positional `$` lands on is not determined by two independent array
   conditions, so the store's choice is `pick`; no choice means nothing is
   written.
   */
  function UpdateSlot(experts: seq<Expert>, id: ExpertId, date: string, time: string, pick: Option<nat>): (r: seq<Expert>)
    ensures ExpertsGrow(experts, r)
    ensures forall j :: 0 <= j < |experts| && experts[j].id != id ==> r[j] == experts[j]
    ensures forall j :: 0 <= j < |experts| ==>
      forall k :: 0 <= k < |experts[j].slots| && r[j].slots[k] != experts[j].slots[k] ==> Some(k) == pick
  {
    match ExpertIndex(experts, id)
    case None => experts
    case Some(i) =>
      var e := experts[i];
      if UpdateMatches(e.slots, date, time) && pick.Some? && pick.value < |e.slots| then
        var k := pick.value;
        var marked := e.(slots := e.slots[k := e.slots[k].(isBooked := true)]);
        assert e.id == id by {
          assert HasId(id)(e);
        }
        ReplaceGrows(experts, i, marked);
        experts[i := marked]
      else
        experts
  }

  // ---------------------------------------------------------------- createBooking

  /** The unique-index key a request asks for. */
  function RequestKey(d: BookingDraft): Key
    requires d.expertId.Some? && d.date.Some? && d.time.Some?
  {
    Key(d.expertId.value, d.date.value, d.time.value)
  }

  function Fail(s: Store, code: nat, text: string): Transition
  {
    Transition(s, Response(code, Message(text)), [])
  }

  /** `createBooking`: probe, insert, update, emit, respond. */
  function CreateBooking(s: Store, d: BookingDraft, env: Env): (t: Transition)
    // step 1 rejects without touching anything
    ensures env.probeFault.None? && !Probe(s.experts, d) ==> t == Fail(s, 400, SlotUnavailable)
    // the duplicate-key rejection, and exactly when it happens
    ensures t.response == Response(400, Message(SlotTaken)) <==>
      && env.probeFault.None? && Probe(s.experts, d)
      && RequiredPresent(d) && StatusAccepted(d) && env.insertFault.None?
      && KeyTaken(s.ledger, RequestKey(d))
    ensures t.response.code == 400 ==> t.store == s && t.events == []
    // success, and exactly when it happens
    ensures t.response.code == 201 <==>
      && env.probeFault.None? && Probe(s.experts, d)
      && RequiredPresent(d) && StatusAccepted(d) && env.insertFault.None?
      && !KeyTaken(s.ledger, RequestKey(d)) && env.updateFault.None?
    ensures t.response.code == 201 ==>
      && Probe(s.experts, d) && RequiredPresent(d) && StatusAccepted(d)
      && !KeyTaken(s.ledger, RequestKey(d))
      && t.response.body.Booked? && t.response.body.text == BookingSuccessful
      && t.store.ledger == s.ledger + [t.response.body.booking]
      && KeyOf(t.response.body.booking) == RequestKey(d)
      && ValidBooking(t.response.body.booking)
      && t.response.body.booking.createdAt == env.now
      && t.events == [SlotBooked(d.expertId.value, d.date.value, d.time.value)]
    // the internal errors before the insert, each with the message it carries
    ensures env.probeFault.Some? ==> t == Fail(s, 500, env.probeFault.value)
    ensures env.probeFault.None? && Probe(s.experts, d) && !(RequiredPresent(d) && StatusAccepted(d)) ==>
      t == Fail(s, 500, ValidationMessage("Booking", BookingErrors(d)))
    ensures env.probeFault.None? && Probe(s.experts, d) && RequiredPresent(d) && StatusAccepted(d) && env.insertFault.Some? ==>
      t == Fail(s, 500, env.insertFault.value)
    // every other outcome is an internal error that emits nothing
    ensures t.response.code in {201, 400, 500}
    ensures t.response.code != 201 ==> t.events == [] && t.store.experts == s.experts
  {
    if env.probeFault.Some? then Fail(s, 500, env.probeFault.value)
    else if !Probe(s.experts, d) then Fail(s, 400, SlotUnavailable)
    else
      match NewBooking(|s.ledger|, env.now, d)
      case Failure(msg) => Fail(s, 500, msg)
      case Success(b) =>
        if env.insertFault.Some? then Fail(s, 500, env.insertFault.value)
        else
          match Insert(s.ledger, b)
          // Insert only ever fails with the duplicate-key code; other store
          // errors arrive through `env.insertFault` above
          case Failure(_) => Fail(s, 400, SlotTaken)
          case Success(ledger) =>
            if env.updateFault.Some? then Fail(Store(s.experts, ledger), 500, env.updateFault.value)
            else
              var experts := UpdateSlot(s.experts, b.expertId, b.date, b.time, env.pick);
              Transition(
                Store(experts, ledger),
                Response(201, Booked(BookingSuccessful, b)),
                [SlotBooked(b.expertId, b.date, b.time)])
  }

  /**
   What one request may do to the ledger: add at most one booking at the end;
   a 500 after the ledger grew comes from the slot update.
   */
  lemma CreateBookingLedger(s: Store, d: BookingDraft, env: Env)
    ensures var t := CreateBooking(s, d, env);
      && s.ledger <= t.store.ledger && |t.store.ledger| <= |s.ledger| + 1
      && (t.response.code == 500 && |t.store.ledger| != |s.ledger| ==>
            env.updateFault.Some? && t.response.body == Message(env.updateFault.value))
  {
  }

  /**
   A store error in the slot update comes after the insert has succeeded: the
   booking stays in the ledger while every slot still shows as before, and the
   client gets a 500 and no broadcast.
   */
  lemma CreateBookingUpdateFault(s: Store, d: BookingDraft, env: Env)
    requires env.probeFault.None? && Probe(s.experts, d)
    requires RequiredPresent(d) && StatusAccepted(d) && env.insertFault.None?
    requires !KeyTaken(s.ledger, RequestKey(d)) && env.updateFault.Some?
    ensures var t := CreateBooking(s, d, env);
      && t.response == Response(500, Message(env.updateFault.value))
      && |t.store.ledger| == |s.ledger| + 1 && s.ledger <= t.store.ledger
      && KeyOf(t.store.ledger[|s.ledger|]) == RequestKey(d)
      && ValidBooking(t.store.ledger[|s.ledger|])
      && t.store.experts == s.experts && t.events == []
  {
  }

  /** What one request may do to the experts: set slot flags, and only on the requested expert. */
  lemma CreateBookingExperts(s: Store, d: BookingDraft, env: Env)
    ensures var t := CreateBooking(s, d, env);
      && ExpertsGrow(s.experts, t.store.experts)
      && (forall j :: 0 <= j < |s.experts| && Some(s.experts[j].id) != d.expertId ==>
            t.store.experts[j] == s.experts[j])
  {
    var t := CreateBooking(s, d, env);
    if t.store.experts == s.experts {
      GrowsReflexive(s.experts);
    }
  }

  lemma GrowsReflexive(experts: seq<Expert>)
    ensures ExpertsGrow(experts, experts)
  {
  }

  /** The store invariant (unique `_id`s, the unique index, ids by position) survives one request. */
  lemma CreateBookingKeepsStoreValid(s: Store, d: BookingDraft, env: Env)
    requires ValidStore(s)
    ensures ValidStore(CreateBooking(s, d, env).store)
  {
    CreateBookingExperts(s, d, env);
    GrowingKeepsIds(s.experts, CreateBooking(s, d, env).store.experts);
    CreateBookingLedger(s, d, env);
  }

  /**
   The probe does not tie date, time and availability to one slot: here the
   requested (date, time) names no slot at all, yet the probe passes and the
   booking is created.
   */
  lemma ProbeAdmitsPhantomSlot()
    ensures var e := Expert("e1", "Dr. Aristhotene", "Technology", 10.0, 4.8, None, None,
                            [Slot("2026-02-21", "10:00 AM", false), Slot("2026-02-22", "02:00 PM", false)]);
            var d := BookingDraft(Some("e1"), Some("Ann"), Some("ann@x.io"), Some("5550001111"),
                                  Some("2026-02-21"), Some("02:00 PM"), None, None);
            && (forall k :: 0 <= k < |e.slots| ==> !(e.slots[k].date == "2026-02-21" && e.slots[k].time == "02:00 PM"))
            && Probe([e], d)
            && CreateBooking(Store([e], []), d, Env(0, None, None, None, None)).response.code == 201
  {
    var e := Expert("e1", "Dr. Aristhotene", "Technology", 10.0, 4.8, None, None,
                    [Slot("2026-02-21", "10:00 AM", false), Slot("2026-02-22", "02:00 PM", false)]);
    assert e.slots[0].date == "2026-02-21" && e.slots[1].time == "02:00 PM" && !e.slots[0].isBooked;
    assert ExpertIndex([e], "e1") == Some(0) by {
      assert HasId("e1")(e);
    }
  }

  // ---------------------------------------------------------------- sequences of requests

  datatype Call = Call(body: BookingDraft, env: Env)

  /** Requests served one after another; returns the final store and each request's transition. */
  function Run(s: Store, calls: seq<Call>): (r: (Store, seq<Transition>))
    ensures |r.1| == |calls|
  {
    if |calls| == 0 then (s, [])
    else
      var prev := Run(s, calls[..|calls| - 1]);
      var t := CreateBooking(prev.0, calls[|calls| - 1].body, calls[|calls| - 1].env);
      (t.store, prev.1 + [t])
  }

  /** The store invariant, and with it the unique index, survives any sequence of requests. */
  lemma {:induction false} RunKeepsStoreValid(s: Store, calls: seq<Call>)
    requires ValidStore(s)
    ensures ValidStore(Run(s, calls).0)
    ensures UniqueKeys(Run(s, calls).0.ledger)
  {
    if |calls| > 0 {
      var init := calls[..|calls| - 1];
      RunKeepsStoreValid(s, init);
      CreateBookingKeepsStoreValid(Run(s, init).0, calls[|calls| - 1].body, calls[|calls| - 1].env);
    }
  }

  /** Running a prefix of the requests yields a prefix of the ledger and of the transitions. */
  lemma {:induction false} RunPrefix(s: Store, calls: seq<Call>, j: nat)
    requires j <= |calls|
    ensures Run(s, calls[..j]).0.ledger <= Run(s, calls).0.ledger
    ensures Run(s, calls[..j]).1 == Run(s, calls).1[..j]
  {
    if j < |calls| {
      var init := calls[..|calls| - 1];
      assert init[..j] == calls[..j];
      RunPrefix(s, init, j);
      CreateBookingLedger(Run(s, init).0, calls[|calls| - 1].body, calls[|calls| - 1].env);
    } else {
      assert calls[..j] == calls;
    }
  }

  /** Request `j` is served against the store the first `j` requests left behind. */
  lemma RunStep(s: Store, calls: seq<Call>, j: nat)
    requires j < |calls|
    ensures Run(s, calls).1[j] == CreateBooking(Run(s, calls[..j]).0, calls[j].body, calls[j].env)
  {
    var p := calls[..j + 1];
    assert p[..|p| - 1] == calls[..j];
    RunPrefix(s, calls, j + 1);
    assert Run(s, calls).1[j] == Run(s, p).1[j];
  }

  /** A booking, once in the ledger, keeps its key taken. */
  lemma KeyTakenGrows(a: seq<Booking>, b: seq<Booking>, k: Key)
    requires a <= b && KeyTaken(a, k)
    ensures KeyTaken(b, k)
  {
    var i :| 0 <= i < |a| && KeyOf(a[i]) == k;
    assert b[i] == a[i];
  }

  /** A successful request finds its key free and leaves it taken. */
  lemma SuccessTakesKey(s: Store, d: BookingDraft, env: Env)
    requires CreateBooking(s, d, env).response.code == 201
    ensures d.expertId.Some? && d.date.Some? && d.time.Some?
    ensures !KeyTaken(s.ledger, RequestKey(d))
    ensures KeyTaken(CreateBooking(s, d, env).store.ledger, RequestKey(d))
  {
    var t := CreateBooking(s, d, env);
    assert t.store.ledger[|s.ledger|] == t.response.body.booking;
  }

  /** The store after request `i` is the one request `i` produced. */
  lemma RunAfter(s: Store, calls: seq<Call>, i: nat)
    requires i < |calls|
    ensures Run(s, calls[..i + 1]).0 == CreateBooking(Run(s, calls[..i]).0, calls[i].body, calls[i].env).store
  {
    assert calls[..i + 1][..i] == calls[..i];
  }

  /** A request that succeeds found its key free in the store it was served against. */
  lemma StepFoundKeyFree(s: Store, calls: seq<Call>, i: nat)
    requires i < |calls|
    requires Run(s, calls).1[i].response.code == 201
    ensures calls[i].body.expertId.Some? && calls[i].body.date.Some? && calls[i].body.time.Some?
    ensures !KeyTaken(Run(s, calls[..i]).0.ledger, RequestKey(calls[i].body))
  {
    RunStep(s, calls, i);
    SuccessTakesKey(Run(s, calls[..i]).0, calls[i].body, calls[i].env);
  }

  /** A request that succeeds leaves its key taken in the store after it. */
  lemma StepTakesKey(s: Store, calls: seq<Call>, i: nat)
    requires i < |calls|
    requires Run(s, calls).1[i].response.code == 201
    ensures calls[i].body.expertId.Some? && calls[i].body.date.Some? && calls[i].body.time.Some?
    ensures KeyTaken(Run(s, calls[..i + 1]).0.ledger, RequestKey(calls[i].body))
  {
    RunStep(s, calls, i);
    SuccessTakesKey(Run(s, calls[..i]).0, calls[i].body, calls[i].env);
    RunAfter(s, calls, i);
  }

  /** Once request `i` has succeeded, its key stays taken in the store every later request sees. */
  lemma SuccessKeyStaysTaken(s: Store, calls: seq<Call>, i: nat, j: nat)
    requires i < j <= |calls|
    requires Run(s, calls).1[i].response.code == 201
    ensures calls[i].body.expertId.Some? && calls[i].body.date.Some? && calls[i].body.time.Some?
    ensures KeyTaken(Run(s, calls[..j]).0.ledger, RequestKey(calls[i].body))
  {
    StepTakesKey(s, calls, i);
    RunLedgerGrows(s, calls, i + 1, j);
    KeyTakenGrows(Run(s, calls[..i + 1]).0.ledger, Run(s, calls[..j]).0.ledger, RequestKey(calls[i].body));
  }

  /** The ledger after more requests extends the ledger after fewer. */
  lemma RunLedgerGrows(s: Store, calls: seq<Call>, i: nat, j: nat)
    requires i <= j <= |calls|
    ensures Run(s, calls[..i]).0.ledger <= Run(s, calls[..j]).0.ledger
  {
    var pre := calls[..j];
    assert pre[..i] == calls[..i];
    RunPrefix(s, pre, i);
  }

  /**
   Mutual exclusion: among any sequence of requests, no two succeed for the
   same (expertId, date, time).
   */
  lemma AtMostOneSuccessPerSlot(s: Store, calls: seq<Call>, i: nat, j: nat)
    requires i < j < |calls|
    requires Run(s, calls).1[i].response.code == 201
    requires Run(s, calls).1[j].response.code == 201
    ensures calls[i].body.expertId.Some? && calls[i].body.date.Some? && calls[i].body.time.Some?
    ensures calls[j].body.expertId.Some? && calls[j].body.date.Some? && calls[j].body.time.Some?
    ensures RequestKey(calls[i].body) != RequestKey(calls[j].body)
  {
    SuccessKeyStaysTaken(s, calls, i, j);
    StepFoundKeyFree(s, calls, j);
  }

  // ---------------------------------------------------------------- getBookingsByEmail

  /** A booking with its `expertId` reference resolved (`populate`); a dangling reference resolves to null. */
  datatype Populated = Populated(booking: Booking, expert: Option<Expert>)

  function EmailIs(email: string): Booking -> bool
  {
    (b: Booking) => b.userEmail == email
  }

  /** `sort({ createdAt: -1 })`. */
  function NewestFirst(): (Booking, Booking) -> bool
  {
    (a: Booking, b: Booking) => a.createdAt >= b.createdAt
  }

  lemma NewestFirstIsPreorder()
    ensures TotalPreorder(NewestFirst())
  {
  }

  function Resolve(experts: seq<Expert>, b: Booking): (p: Populated)
    ensures p.booking == b
    ensures p.expert.Some? <==> exists j :: 0 <= j < |experts| && experts[j].id == b.expertId
    ensures p.expert.Some? ==> p.expert.value.id == b.expertId
  {
    match ExpertIndex(experts, b.expertId)
    case None =>
      assert forall j :: 0 <= j < |experts| ==> experts[j].id != b.expertId by {
        forall j | 0 <= j < |experts|
          ensures experts[j].id != b.expertId
        {
          assert !HasId(b.expertId)(experts[j]);
        }
      }
      Populated(b, None)
    case Some(i) =>
      assert HasId(b.expertId)(experts[i]);
      Populated(b, Some(experts[i]))
  }

  function Bookings(r: seq<Populated>): seq<Booking>
  {
    seq(|r|, k requires 0 <= k < |r| => r[k].booking)
  }

  /** `populate('expertId')` over a list of bookings. */
  function ResolveAll(experts: seq<Expert>, bs: seq<Booking>): (r: seq<Populated>)
    ensures |r| == |bs| && Bookings(r) == bs
    ensures forall k :: 0 <= k < |r| ==> r[k] == Resolve(experts, bs[k])
  {
    var r := seq(|bs|, k requires 0 <= k < |bs| => Resolve(experts, bs[k]));
    assert Bookings(r) == bs;
    r
  }

  /** The bookings made with `email`, newest first. */
  function NewestBookingsOf(ledger: seq<Booking>, email: string): (r: seq<Booking>)
    ensures multiset(r) == multiset(Filter(ledger, EmailIs(email)))
    ensures forall k :: 0 <= k < |r| ==> r[k].userEmail == email
    ensures forall k :: 0 <= k < |ledger| && ledger[k].userEmail == email ==> ledger[k] in r
    ensures forall i, j :: 0 <= i < j < |r| ==> r[i].createdAt >= r[j].createdAt
  {
    NewestFirstIsPreorder();
    var sorted := SortBy(Filter(ledger, EmailIs(email)), NewestFirst());
    PermutedFilter(ledger, EmailIs(email), sorted);
    NewestFirstOrder(sorted);
    sorted
  }

  lemma NewestFirstOrder(r: seq<Booking>)
    requires SortedBy(r, NewestFirst())
    ensures forall i, j :: 0 <= i < j < |r| ==> r[i].createdAt >= r[j].createdAt
  {
    forall i, j | 0 <= i < j < |r|
      ensures r[i].createdAt >= r[j].createdAt
    {
      assert NewestFirst()(r[i], r[j]);
    }
  }

  /** `getBookingsByEmail`: the bookings made with `email`, newest first, experts resolved. */
  function GetBookingsByEmail(s: Store, email: string): (r: seq<Populated>)
    ensures Bookings(r) == NewestBookingsOf(s.ledger, email)
    ensures forall k :: 0 <= k < |r| ==>
      (r[k].expert.Some? <==> exists j :: 0 <= j < |s.experts| && s.experts[j].id == r[k].booking.expertId)
    ensures forall k :: 0 <= k < |r| && r[k].expert.Some? ==> r[k].expert.value.id == r[k].booking.expertId
  {
    var r := ResolveAll(s.experts, NewestBookingsOf(s.ledger, email));
    forall k | 0 <= k < |r|
      ensures r[k].expert.Some? <==> exists j :: 0 <= j < |s.experts| && s.experts[j].id == r[k].booking.expertId
      ensures r[k].expert.Some? ==> r[k].expert.value.id == r[k].booking.expertId
    {
      assert r[k] == Resolve(s.experts, r[k].booking);
    }
    r
  }

  // ---------------------------------------------------------------- updateBookingStatus

  function BookingIdIs(id: BookingId): Booking -> bool
  {
    (b: Booking) => b.id == id
  }

  /**
   `updateBookingStatus`: `findByIdAndUpdate` with `{ new: true }` and no
   validators, so any string is written. An unknown id answers 200 with a
   null body.
   */
  function UpdateBookingStatus(s: Store, id: BookingId, status: string): (r: (Store, Response))
    ensures r.1.code == 200
    ensures r.0.experts == s.experts && |r.0.ledger| == |s.ledger|
    ensures forall k :: 0 <= k < |s.ledger| ==>
      r.0.ledger[k] == s.ledger[k] || r.0.ledger[k] == s.ledger[k].(status := status)
    ensures (forall k :: 0 <= k < |s.ledger| ==> s.ledger[k].id != id) <==> r.1.body == Null
    ensures forall k :: 0 <= k < |s.ledger| && s.ledger[k].id != id ==> r.0.ledger[k] == s.ledger[k]
    ensures r.1.body == Null ==> r.0 == s
    ensures r.1.body != Null ==>
      && r.1.body.Document? && r.1.body.booking.id == id
      && r.1.body.booking.status == status && r.1.body.booking in r.0.ledger
    ensures r.1.body != Null ==>
      exists k :: 0 <= k < |s.ledger| && s.ledger[k].id == id
        && r.1.body.booking == s.ledger[k].(status := status)
        && r.0.ledger == s.ledger[k := r.1.body.booking]
  {
    match FirstIndex(s.ledger, BookingIdIs(id))
    case None =>
      assert forall k :: 0 <= k < |s.ledger| ==> s.ledger[k].id != id by {
        forall k | 0 <= k < |s.ledger|
          ensures s.ledger[k].id != id
        {
          assert !BookingIdIs(id)(s.ledger[k]);
        }
      }
      (s, Response(200, Null))
    case Some(k) =>
      assert s.ledger[k].id == id by {
        assert BookingIdIs(id)(s.ledger[k]);
      }
      var b := s.ledger[k].(status := status);
      var ledger := s.ledger[k := b];
      assert ledger[k] == b;
      (Store(s.experts, ledger), Response(200, Document(b)))
  }

  /** Rewriting one booking's status keeps every key and id where it was. */
  lemma StatusChangeKeepsStoreValid(s: Store, k: nat, status: string)
    requires k < |s.ledger| && ValidStore(s)
    ensures ValidStore(Store(s.experts, s.ledger[k := s.ledger[k].(status := status)]))
  {
    var ledger := s.ledger[k := s.ledger[k].(status := status)];
    assert forall m :: 0 <= m < |ledger| ==> KeyOf(ledger[m]) == KeyOf(s.ledger[m]) && ledger[m].id == s.ledger[m].id;
  }

  /** A status update keeps the unique index and the ids of the collection. */
  lemma UpdateBookingStatusKeepsStoreValid(s: Store, id: BookingId, status: string)
    requires ValidStore(s)
    ensures ValidStore(UpdateBookingStatus(s, id, status).0)
  {
    var r := UpdateBookingStatus(s, id, status);
    if r.1.body != Null {
      var k :| 0 <= k < |s.ledger| && s.ledger[k].id == id
        && r.1.body.booking == s.ledger[k].(status := status)
        && r.0.ledger == s.ledger[k := r.1.body.booking];
      StatusChangeKeepsStoreValid(s, k, status);
    }
  }

  /** The enumeration is not enforced on update: a status outside it is stored as given. */
  lemma StatusUpdateUnchecked(s: Store, k: nat)
    requires k < |s.ledger| && IdsArePositions(s.ledger)
    ensures var r := UpdateBookingStatus(s, k, "Cancelled");
      r.0.ledger[k].status == "Cancelled" && "Cancelled" !in Statuses
  {
    assert BookingIdIs(k)(s.ledger[k]);
  }
}

=== FILE: booking_form.dfy ===
/**
 The booking form (frontend/src/pages/BookingForm.jsx): field validation, the
 touched/blur bookkeeping, whole-form validation on submit, the request body
 sent to the booking route and the message shown afterwards.

 Form fields, errors and touched flags are objects keyed by field name, so
 they are maps here. The two regular expressions are written out as
 predicates over the characters of the value.
 */
module BookingForm {
  import opened Base
  import opened Text
  import opened ExpertModel
  import opened BookingModel

  const NameError: string := "Name must be at least 2 characters"
  const EmailError: string := "Please enter a valid email"
  const PhoneError: string := "Please enter a valid phone number"
  const FixErrors: string := "Please fix the errors in the form before submitting."
  const BookingFailed: string := "Booking failed. Please try again."
  const BookingConfirmed: string := "Booking confirmed successfully! Redirecting to your bookings..."

  // ---------------------------------------------------------------- e-mail

  /** A run of `[^\s@]`: no whitespace and no at-sign. */
  predicate Plain(x: string)
  {
    forall k :: 0 <= k < |x| ==> !IsWhitespace(x[k]) && x[k] != '@'
  }

  /**
   `s` reads as L '@' D '.' T with the at-sign at `at` and the dot at `dot`,
   L, D and T non-empty runs of `[^\s@]`: one way for `/^[^\s@]+@[^\s@]+\.[^\s@]+$/` to match.
   */
  predicate SplitsAt(s: string, at: int, dot: int)
  {
    && 0 < at && at + 1 < dot && dot + 1 < |s|
    && s[at] == '@' && s[dot] == '.'
    && Plain(s[..at]) && Plain(s[at + 1..dot]) && Plain(s[dot + 1..])
  }

  function IsAtSign(): char -> bool
  {
    (c: char) => c == '@'
  }

  /** A dot with at least one character on each side. */
  predicate InnerDot(x: string)
  {
    exists j :: 0 < j < |x| - 1 && x[j] == '.'
  }

  /**
   The e-mail test, computed the way a reader checks it: the first at-sign
   has something before it, nothing on either side is whitespace or another
   at-sign, and the part after it has an inner dot.
   */
  function IsEmail(s: string): (r: bool)
    ensures r <==> exists at, dot :: SplitsAt(s, at, dot)
  {
    match FirstIndex(s, IsAtSign())
    case None =>
      assert forall k :: 0 <= k < |s| ==> s[k] != '@' by {
        forall k | 0 <= k < |s|
          ensures s[k] != '@'
        {
          assert !IsAtSign()(s[k]);
        }
      }
      false
    case Some(a) =>
      var r := a > 0 && Plain(s[..a]) && Plain(s[a + 1..]) && InnerDot(s[a + 1..]);
      EmailSplit(s, a);
      r
  }

  /** Given the first at-sign at `a`, the computed test and the split agree. */
  lemma EmailSplit(s: string, a: nat)
    requires a < |s| && s[a] == '@' && forall k :: 0 <= k < a ==> s[k] != '@'
    ensures (a > 0 && Plain(s[..a]) && Plain(s[a + 1..]) && InnerDot(s[a + 1..]))
        <==> exists at, dot :: SplitsAt(s, at, dot)
  {
    var rest := s[a + 1..];
    if a > 0 && Plain(s[..a]) && Plain(rest) && InnerDot(rest) {
      var j :| 0 < j < |rest| - 1 && rest[j] == '.';
      assert s[a + 1..a + 1 + j] == rest[..j];
      assert s[a + 1 + j + 1..] == rest[j + 1..];
      assert SplitsAt(s, a, a + 1 + j);
    }
    if exists at, dot :: SplitsAt(s, at, dot) {
      var at, dot :| SplitsAt(s, at, dot);
      forall k | 0 <= k < at
        ensures s[k] != '@'
      {
        assert s[k] == s[..at][k];
      }
      assert at == a;
      assert InnerDot(rest) by {
        assert rest[dot - a - 1] == '.';
      }
      assert Plain(rest) by {
        forall k | 0 <= k < |rest|
          ensures !IsWhitespace(rest[k]) && rest[k] != '@'
        {
          if k < dot - a - 1 {
            assert rest[k] == s[a + 1..dot][k];
          } else if k > dot - a - 1 {
            assert rest[k] == s[dot + 1..][k - (dot - a)];
          }
        }
      }
    }
  }

  // ---------------------------------------------------------------- phone

  /** `[\d\s\+\-\(\)]`: an ASCII digit, whitespace, or one of `+ - ( )`. */
  predicate PhoneChar(c: char)
  {
    IsDigit(c) || IsWhitespace(c) || c == '+' || c == '-' || c == '(' || c == ')'
  }

  /** `/^[\d\s\+\-\(\)]{10,}$/`: ten or more phone characters and nothing else. */
  predicate IsPhone(s: string)
  {
    |s| >= 10 && forall k :: 0 <= k < |s| ==> PhoneChar(s[k])
  }

  // ---------------------------------------------------------------- fields

  /** `value.trim().length`, which counts UTF-16 code units. */
  function NameLength(value: string): nat
  {
    Utf16Length(Trim(value))
  }

  /** `validateField`: the error message for one field, or the empty string. */
  function ValidateField(name: string, value: string): (r: string)
    ensures name == "userName" ==> (r == NameError <==> NameLength(value) < 2) && (r == "" <==> NameLength(value) >= 2)
    ensures name == "userEmail" ==> (r == EmailError <==> !IsEmail(value)) && (r == "" <==> IsEmail(value))
    ensures name == "userPhone" ==> (r == PhoneError <==> !IsPhone(value)) && (r == "" <==> IsPhone(value))
    ensures name !in {"userName", "userEmail", "userPhone"} ==> r == ""
  {
    if name == "userName" then (if NameLength(value) < 2 then NameError else "")
    else if name == "userEmail" then (if !IsEmail(value) then EmailError else "")
    else if name == "userPhone" then (if !IsPhone(value) then PhoneError else "")
    else ""
  }

  predicate TwoVisible(s: string)
  {
    exists i, j :: 0 <= i < j < |s| && !IsWhitespace(s[i]) && !IsWhitespace(s[j])
  }

  /** Some character of `s` lies outside the Basic Multilingual Plane. */
  predicate HasAstral(s: string)
  {
    exists k :: 0 <= k < |s| && IsAstral(s[k])
  }

  /**
   A name passes exactly when it has two non-whitespace characters or one
   character that takes two UTF-16 code units (an emoji alone is a valid name).
   */
  lemma NameRule(s: string)
    ensures NameLength(s) >= 2 <==> TwoVisible(s) || HasAstral(s)
  {
    var t := Trim(s);
    if |t| >= 2 {
      TrimmedEndsVisible(s);
    } else if |t| == 1 && Utf16Length(t) == 2 {
      var i :| OccursAt(s, t, i);
      assert s[i] == t[0];
    }
    if TwoVisible(s) {
      var i, j :| 0 <= i < j < |s| && !IsWhitespace(s[i]) && !IsWhitespace(s[j]);
      TrimKeepsTwo(s, i, j);
    } else if HasAstral(s) {
      var k :| 0 <= k < |s| && IsAstral(s[k]);
      AstralIsVisible(s[k]);
      TrimKeeps(s, k);
      var m :| 0 <= m < |t| && t[m] == s[k];
      Utf16LengthAstral(t, m);
    }
  }

  /** A lone emoji is a valid name: one code point, but two UTF-16 code units. */
  lemma EmojiNamePasses()
    ensures ValidateField("userName", "\U{1F600}") == ""
  {
    var s := "\U{1F600}";
    assert IsAstral(s[0]);
    NameRule(s);
  }

  lemma TrimmedEndsVisible(s: string)
    requires |Trim(s)| >= 2
    ensures TwoVisible(s)
  {
    var r := Trim(s);
    var i :| OccursAt(s, r, i);
    assert s[i] == s[i..i + |r|][0];
    assert s[i + |r| - 1] == s[i..i + |r|][|r| - 1];
  }

  // ---------------------------------------------------------------- form state

  datatype Status = Status(kind: string, msg: string)

  datatype FormState = FormState(
    data: map<string, string>,
    errors: map<string, string>,
    touched: map<string, bool>,
    status: Status)

  function InitialForm(): FormState
  {
    FormState(map["userName" := "", "userEmail" := "", "userPhone" := "", "notes" := ""], map[], map[], Status("", ""))
  }

  predicate Touched(f: FormState, name: string)
  {
    name in f.touched && f.touched[name]
  }

  /** `handleChange`: store the value; revalidate it only if the field has been touched. */
  function HandleChange(f: FormState, name: string, value: string): (r: FormState)
    ensures r.data == f.data[name := value]
    ensures r.touched == f.touched && r.status == f.status
    ensures Touched(f, name) ==> r.errors == f.errors[name := ValidateField(name, value)]
    ensures !Touched(f, name) ==> r.errors == f.errors
  {
    var errors := if Touched(f, name) then f.errors[name := ValidateField(name, value)] else f.errors;
    f.(data := f.data[name := value], errors := errors)
  }

  /** `handleBlur`: mark the field touched and validate it. */
  function HandleBlur(f: FormState, name: string, value: string): (r: FormState)
    ensures Touched(r, name)
    ensures forall n :: n != name ==> (Touched(r, n) <==> Touched(f, n))
    ensures r.errors == f.errors[name := ValidateField(name, value)]
    ensures r.data == f.data
  {
    f.(touched := f.touched[name := true], errors := f.errors[name := ValidateField(name, value)])
  }

  /** Once a field has been left, every later edit of it is checked at once; before, edits never are. */
  lemma BlurThenChangeRevalidates(f: FormState, name: string, v1: string, v2: string)
    ensures HandleChange(HandleBlur(f, name, v1), name, v2).errors[name] == ValidateField(name, v2)
    ensures !Touched(f, name) ==> HandleChange(f, name, v2).errors == f.errors
  {
  }

  // ---------------------------------------------------------------- whole form

  datatype FormCheck = FormCheck(errors: map<string, string>, ok: bool)

  /** `validateForm`: the error of every field except `notes` that has one; fine when there are none. */
  function ValidateForm(data: map<string, string>): (r: FormCheck)
    ensures forall k :: k in r.errors <==> k in data && k != "notes" && ValidateField(k, data[k]) != ""
    ensures forall k :: k in r.errors ==> r.errors[k] == ValidateField(k, data[k])
    ensures r.ok <==> |r.errors| == 0
    ensures r.ok <==> forall k :: k in data && k != "notes" ==> ValidateField(k, data[k]) == ""
  {
    var errors := map k | k in data && k != "notes" && ValidateField(k, data[k]) != "" :: ValidateField(k, data[k]);
    assert (exists k :: k in errors) ==> |errors| > 0 by {
      if exists k :: k in errors {
        var k :| k in errors;
        MapNonEmpty(errors, k);
      }
    }
    FormCheck(errors, |errors| == 0)
  }

  lemma MapNonEmpty<K, V>(m: map<K, V>, k: K)
    requires k in m
    ensures |m| > 0
  {
    assert k in m.Keys;
  }

  /** The form object holds the four keys it starts with. */
  predicate HasFormFields(data: map<string, string>)
  {
    "userName" in data && "userEmail" in data && "userPhone" in data && "notes" in data
  }

  /** The form passes exactly when the name, e-mail and phone do; any other field never fails it. */
  lemma FormRule(data: map<string, string>)
    requires HasFormFields(data)
    ensures ValidateForm(data).ok
        <==> NameLength(data["userName"]) >= 2 && IsEmail(data["userEmail"]) && IsPhone(data["userPhone"])
  {
    if NameLength(data["userName"]) >= 2 && IsEmail(data["userEmail"]) && IsPhone(data["userPhone"]) {
      RequiredFieldsPass(data);
    } else if NameLength(data["userName"]) < 2 {
      FieldFails(data, "userName");
    } else if !IsEmail(data["userEmail"]) {
      FieldFails(data, "userEmail");
    } else {
      FieldFails(data, "userPhone");
    }
  }

  lemma RequiredFieldsPass(data: map<string, string>)
    requires "userName" in data && "userEmail" in data && "userPhone" in data
    requires NameLength(data["userName"]) >= 2 && IsEmail(data["userEmail"]) && IsPhone(data["userPhone"])
    ensures ValidateForm(data).ok
  {
    forall k | k in data && k != "notes"
      ensures ValidateField(k, data[k]) == ""
    {
      if k == "userName" {
      } else if k == "userEmail" {
      } else if k == "userPhone" {
      }
    }
  }

  lemma FieldFails(data: map<string, string>, k: string)
    requires k in data && k != "notes" && ValidateField(k, data[k]) != ""
    ensures !ValidateForm(data).ok
  {
  }

  lemma NotesNeverMatter(data: map<string, string>, notes: string)
    ensures ValidateForm(data[("notes") := notes]) == ValidateForm(data)
  {
    var d2 := data[("notes") := notes];
    ErrorsIgnoreNotes(data, d2, ValidateField);
    assert ValidateForm(d2).errors == ValidateForm(data).errors;
  }

  /** A per-field check that skips "notes" gives the same errors on two forms that agree on every other field. */
  lemma ErrorsIgnoreNotes(d1: map<string, string>, d2: map<string, string>, check: (string, string) -> string)
    requires forall k :: k != "notes" ==> (k in d1 <==> k in d2)
    requires forall k :: k != "notes" && k in d1 ==> d1[k] == d2[k]
    ensures (map k | k in d1 && k != "notes" && check(k, d1[k]) != "" :: check(k, d1[k]))
         == (map k | k in d2 && k != "notes" && check(k, d2[k]) != "" :: check(k, d2[k]))
  {
  }

  // ---------------------------------------------------------------- submission

  /** The request body: the form fields, then the expert's id and name and the chosen slot's date and time. */
  function Payload(data: map<string, string>, expert: Expert, slot: Slot): (p: map<string, string>)
    ensures "date" in p && "time" in p && "expertId" in p
    ensures p["date"] == slot.date && p["time"] == slot.time && p["expertId"] == expert.id
    ensures forall k :: k in data && k !in {"expertId", "expertName", "date", "time"} ==> k in p && p[k] == data[k]
  {
    data["expertId" := expert.id]["expertName" := expert.name]["date" := slot.date]["time" := slot.time]
  }

  /** `handleSubmit` up to the request: every field touched, then either the form error or a request body. */
  function HandleSubmit(f: FormState, expert: Expert, slot: Slot): (r: (FormState, Option<map<string, string>>))
    ensures forall k :: k in f.data ==> Touched(r.0, k)
    ensures r.0.errors == ValidateForm(f.data).errors && r.0.data == f.data
    ensures r.1.None? <==> !ValidateForm(f.data).ok
    ensures r.1.None? ==> r.0.status == Status("error", FixErrors)
    ensures r.1.Some? ==> r.1.value == Payload(f.data, expert, slot) && r.0.status == Status("", "")
  {
    var touched := map k | k in f.data :: true;
    var check := ValidateForm(f.data);
    var g := f.(touched := touched, errors := check.errors);
    if !check.ok then (g.(status := Status("error", FixErrors)), None)
    else (g.(status := Status("", "")), Some(Payload(f.data, expert, slot)))
  }

  /** Submitting the form as it first appears sends nothing and asks for corrections. */
  lemma BlankFormRejected(expert: Expert, slot: Slot)
    ensures HandleSubmit(InitialForm(), expert, slot).1.None?
    ensures HandleSubmit(InitialForm(), expert, slot).0.status == Status("error", FixErrors)
    ensures "userName" in HandleSubmit(InitialForm(), expert, slot).0.errors
  {
    FieldFails(InitialForm().data, "userName");
  }

  /** The server's answer as the page sees it: created, or an error carrying `message` when there is one. */
  datatype Outcome = Created | Rejected(message: Option<string>)

  /** `err.response?.data?.message || 'Booking failed. Please try again.'`. */
  function FailureMessage(message: Option<string>): (r: string)
    ensures message.Some? && |message.value| > 0 ==> r == message.value
    ensures message.None? || message.value == "" ==> r == BookingFailed
  {
    if message.Some? && |message.value| > 0 then message.value else BookingFailed
  }

  function AfterResponse(f: FormState, outcome: Outcome): (r: FormState)
    ensures outcome.Created? ==> r.status == Status("success", BookingConfirmed)
    ensures outcome.Rejected? ==> r.status == Status("error", FailureMessage(outcome.message))
    ensures r.data == f.data && r.errors == f.errors
  {
    match outcome
    case Created => f.(status := Status("success", BookingConfirmed))
    case Rejected(m) => f.(status := Status("error", FailureMessage(m)))
  }

  function Field(p: map<string, string>, k: string): Option<string>
  {
    if k in p then Some(p[k]) else None
  }

  /** The booking fields the server reads from a request body; `expertName` is not one of them. */
  function DraftOf(p: map<string, string>): BookingDraft
  {
    BookingDraft(
      Field(p, "expertId"), Field(p, "userName"), Field(p, "userEmail"), Field(p, "userPhone"),
      Field(p, "date"), Field(p, "time"), Field(p, "notes"), Field(p, "status"))
  }

  /**
   A form that passes validation produces a body the booking schema accepts,
   for the chosen slot, with the default status: the client's checks are at
   least as strict as the server's required paths.
   */
  lemma SubmittedFormIsAccepted(f: FormState, expert: Expert, slot: Slot, id: BookingId, now: nat)
    requires HasFormFields(f.data) && "status" !in f.data
    requires |expert.id| > 0 && |slot.date| > 0 && |slot.time| > 0
    requires NameLength(f.data["userName"]) >= 2 && IsEmail(f.data["userEmail"]) && IsPhone(f.data["userPhone"])
    ensures HandleSubmit(f, expert, slot).1.Some?
    ensures var b := NewBooking(id, now, DraftOf(HandleSubmit(f, expert, slot).1.value));
      && b.Success?
      && b.value.date == slot.date && b.value.time == slot.time && b.value.expertId == expert.id
      && b.value.status == DefaultStatus
  {
    FormRule(f.data);
    PassingFieldsNonEmpty(f.data);
    PayloadAccepted(f.data, expert, slot);
  }

  /** The body built from non-empty name, e-mail and phone and a chosen slot passes the schema's checks. */
  lemma PayloadAccepted(data: map<string, string>, expert: Expert, slot: Slot)
    requires HasFormFields(data) && "status" !in data
    requires |data["userName"]| > 0 && |data["userEmail"]| > 0 && |data["userPhone"]| > 0
    requires |expert.id| > 0 && |slot.date| > 0 && |slot.time| > 0
    ensures var d := DraftOf(Payload(data, expert, slot));
      && RequiredPresent(d) && StatusAccepted(d) && d.status.None?
      && d.expertId == Some(expert.id) && d.date == Some(slot.date) && d.time == Some(slot.time)
  {
    var p := Payload(data, expert, slot);
    assert p["userName"] == data["userName"] && p["userEmail"] == data["userEmail"] && p["userPhone"] == data["userPhone"];
    assert "status" !in p;
  }

  /** A form that passes validation has a non-empty name, e-mail and phone. */
  lemma PassingFieldsNonEmpty(data: map<string, string>)
    requires HasFormFields(data) && ValidateForm(data).ok
    ensures |data["userName"]| > 0 && |data["userEmail"]| > 0 && |data["userPhone"]| > 0
  {
    FormRule(data);
    var at, dot :| SplitsAt(data["userEmail"], at, dot);
  }
}

=== FILE: booking_interleaving.dfy ===
/**
 Concurrent `createBooking` requests (backend/controllers/bookingController.js).
 Each request awaits its probe, its insert and its slot update one after
 another, but nothing serialises different requests: a scheduler may run any
 request's next step at any time. Only the insert is atomic. The invariant
 below shows that this is enough: however the steps interleave, the ledger
 keeps its unique index and no two requests both get a booking for one slot.
 */
module BookingInterleaving {
  import opened Base
  import opened ExpertModel
  import opened BookingModel
  import opened BookingController

  /** Where one request is: before the probe, between the awaited steps, or answered. */
  datatype Phase =
    | Ready
    | Probed
    | Inserted(pos: nat, key: Key)
    | Done(pos: nat)
    | Rejected(response: Response)

  datatype System = System(store: Store, requests: seq<BookingDraft>, phases: seq<Phase>, events: seq<Event>)

  predicate HasTriple(d: BookingDraft)
  {
    d.expertId.Some? && d.date.Some? && d.time.Some?
  }

  function Holds(p: Phase): Option<nat>
  {
    match p
    case Inserted(pos, _) => Some(pos)
    case Done(pos) => Some(pos)
    case _ => None
  }

  /**
   Every request past its insert owns a distinct ledger position holding its
   own key, the store is valid, and every broadcast names a booked key.
   */
  ghost predicate Inv(sys: System)
  {
    && |sys.phases| == |sys.requests|
    && ValidStore(sys.store)
    && (forall r :: 0 <= r < |sys.phases| && Holds(sys.phases[r]).Some? ==>
          && HasTriple(sys.requests[r])
          && Holds(sys.phases[r]).value < |sys.store.ledger|
          && KeyOf(sys.store.ledger[Holds(sys.phases[r]).value]) == RequestKey(sys.requests[r]))
    && (forall r :: 0 <= r < |sys.phases| && sys.phases[r].Inserted? ==>
          HasTriple(sys.requests[r]) && sys.phases[r].key == RequestKey(sys.requests[r]))
    && (forall r1, r2 :: 0 <= r1 < r2 < |sys.phases| && Holds(sys.phases[r1]).Some? && Holds(sys.phases[r2]).Some? ==>
          Holds(sys.phases[r1]).value != Holds(sys.phases[r2]).value)
    && (forall e :: e in sys.events ==> KeyTaken(sys.store.ledger, Key(e.expertId, e.date, e.time)))
  }

  function Init(store: Store, requests: seq<BookingDraft>): System
  {
    System(store, requests, seq(|requests|, _ => Ready), [])
  }

  lemma InitValid(store: Store, requests: seq<BookingDraft>)
    requires ValidStore(store)
    ensures Inv(Init(store, requests))
  {
  }

  function Answer(sys: System, r: nat, code: nat, text: string): System
    requires r < |sys.phases|
  {
    sys.(phases := sys.phases[r := Rejected(Response(code, Message(text)))])
  }

  /** Runs the next awaited step of request `r`; an answered request stays as it is. */
  function Step(sys: System, r: nat, env: Env): (next: System)
    requires r < |sys.requests| && |sys.phases| == |sys.requests|
    ensures next.requests == sys.requests && |next.phases| == |sys.phases|
    ensures sys.store.ledger <= next.store.ledger
  {
    var d := sys.requests[r];
    var s := sys.store;
    match sys.phases[r]
    case Ready =>
      if env.probeFault.Some? then Answer(sys, r, 500, env.probeFault.value)
      else if Probe(s.experts, d) then sys.(phases := sys.phases[r := Probed])
      else Answer(sys, r, 400, SlotUnavailable)
    case Probed =>
      (match NewBooking(|s.ledger|, env.now, d)
       case Failure(msg) => Answer(sys, r, 500, msg)
       case Success(b) =>
         if env.insertFault.Some? then Answer(sys, r, 500, env.insertFault.value)
         else
           (match Insert(s.ledger, b)
            case Failure(_) => Answer(sys, r, 400, SlotTaken)
            case Success(ledger) =>
              sys.(store := s.(ledger := ledger), phases := sys.phases[r := Inserted(|s.ledger|, KeyOf(b))])))
    case Inserted(pos, k) =>
      if env.updateFault.Some? then Answer(sys, r, 500, env.updateFault.value)
      else
        System(
          s.(experts := UpdateSlot(s.experts, k.expertId, k.date, k.time, env.pick)),
          sys.requests,
          sys.phases[r := Done(pos)],
          sys.events + [SlotBooked(k.expertId, k.date, k.time)])
    case Done(_) => sys
    case Rejected(_) => sys
  }

  /**
   A step moves only request `r`: every other request keeps its phase, the
   ledger gains at most one booking, at most one broadcast goes out, and an
   answered request's step changes nothing.
   */
  lemma StepFrame(sys: System, r: nat, env: Env)
    requires r < |sys.requests| && |sys.phases| == |sys.requests|
    ensures var next := Step(sys, r, env);
      && |next.store.ledger| <= |sys.store.ledger| + 1
      && (forall q :: 0 <= q < |sys.phases| && q != r ==> next.phases[q] == sys.phases[q])
      && ((sys.phases[r].Done? || sys.phases[r].Rejected?) ==> next == sys)
      && |sys.events| <= |next.events| <= |sys.events| + 1
  {
    match sys.phases[r]
    case Ready =>
    case Probed =>
    case Inserted(_, _) =>
    case Done(_) =>
    case Rejected(_) =>
  }

  /** Answering a request drops whatever position it held, which the invariant tolerates. */
  lemma AnswerKeepsInv(sys: System, r: nat, code: nat, text: string)
    requires Inv(sys) && r < |sys.requests|
    ensures Inv(Answer(sys, r, code, text))
  {
    var next := Answer(sys, r, code, text);
    forall q | 0 <= q < |next.phases| && q != r
      ensures next.phases[q] == sys.phases[q]
    {
    }
    assert Holds(next.phases[r]).None? && !next.phases[r].Inserted?;
  }

  lemma ProbeStepKeepsInv(sys: System, r: nat)
    requires Inv(sys) && r < |sys.requests| && sys.phases[r].Ready?
    ensures Inv(sys.(phases := sys.phases[r := Probed]))
  {
  }

  /** A successful insert hands the request the fresh last position, which holds its key. */
  lemma InsertStepKeepsInv(sys: System, r: nat, b: Booking)
    requires Inv(sys) && r < |sys.requests| && sys.phases[r].Probed?
    requires NewBooking(|sys.store.ledger|, b.createdAt, sys.requests[r]) == Success(b)
    requires !KeyTaken(sys.store.ledger, KeyOf(b))
    ensures Inv(sys.(store := sys.store.(ledger := sys.store.ledger + [b]),
                     phases := sys.phases[r := Inserted(|sys.store.ledger|, KeyOf(b))]))
  {
    var s := sys.store;
    var ledger := s.ledger + [b];
    var next := sys.(store := s.(ledger := ledger), phases := sys.phases[r := Inserted(|s.ledger|, KeyOf(b))]);
    assert ledger[|s.ledger|] == b;
    assert UniqueKeys(ledger) by {
      forall i, j | 0 <= i < j < |ledger|
        ensures KeyOf(ledger[i]) != KeyOf(ledger[j])
      {
        if j == |s.ledger| {
          assert ledger[i] == s.ledger[i];
        }
      }
    }
    forall e | e in next.events
      ensures KeyTaken(ledger, Key(e.expertId, e.date, e.time))
    {
      KeyTakenGrows(s.ledger, ledger, Key(e.expertId, e.date, e.time));
    }
    forall r1 | 0 <= r1 < |next.phases| && Holds(next.phases[r1]).Some?
      ensures KeyOf(ledger[Holds(next.phases[r1]).value]) == RequestKey(next.requests[r1])
    {
      if r1 != r {
        assert ledger[Holds(sys.phases[r1]).value] == s.ledger[Holds(sys.phases[r1]).value];
      }
    }
  }

  /** The slot update and broadcast of a request past its insert. */
  lemma UpdateStepKeepsInv(sys: System, r: nat, env: Env)
    requires Inv(sys) && r < |sys.requests| && sys.phases[r].Inserted?
    ensures var k := sys.phases[r].key;
      Inv(System(
        sys.store.(experts := UpdateSlot(sys.store.experts, k.expertId, k.date, k.time, env.pick)),
        sys.requests,
        sys.phases[r := Done(sys.phases[r].pos)],
        sys.events + [SlotBooked(k.expertId, k.date, k.time)]))
  {
    var k := sys.phases[r].key;
    var experts := UpdateSlot(sys.store.experts, k.expertId, k.date, k.time, env.pick);
    GrowingKeepsIds(sys.store.experts, experts);
    FinishKeepsInv(sys, r, experts);
  }

  /** Finishing request `r` with any experts list that keeps `_id`s unique keeps the invariant. */
  lemma FinishKeepsInv(sys: System, r: nat, experts: seq<Expert>)
    requires Inv(sys) && r < |sys.requests| && sys.phases[r].Inserted?
    requires UniqueIds(experts)
    ensures var k := sys.phases[r].key;
      Inv(System(
        sys.store.(experts := experts),
        sys.requests,
        sys.phases[r := Done(sys.phases[r].pos)],
        sys.events + [SlotBooked(k.expertId, k.date, k.time)]))
  {
    var k := sys.phases[r].key;
    var next := System(
      sys.store.(experts := experts),
      sys.requests,
      sys.phases[r := Done(sys.phases[r].pos)],
      sys.events + [SlotBooked(k.expertId, k.date, k.time)]);
    assert ValidStore(next.store);
    assert forall q :: 0 <= q < |next.phases| ==> Holds(next.phases[q]) == Holds(sys.phases[q]);
    assert KeyTaken(sys.store.ledger, Key(k.expertId, k.date, k.time)) by {
      assert KeyOf(sys.store.ledger[sys.phases[r].pos]) == k;
    }
  }

  /** The invariant survives every step of every request. */
  lemma StepKeepsInv(sys: System, r: nat, env: Env)
    requires Inv(sys) && r < |sys.requests|
    ensures Inv(Step(sys, r, env))
  {
    var s := sys.store;
    var d := sys.requests[r];
    match sys.phases[r]
    case Ready =>
      if env.probeFault.Some? {
        AnswerKeepsInv(sys, r, 500, env.probeFault.value);
      } else if Probe(s.experts, d) {
        ProbeStepKeepsInv(sys, r);
      } else {
        AnswerKeepsInv(sys, r, 400, SlotUnavailable);
      }
    case Probed =>
      var nb := NewBooking(|s.ledger|, env.now, d);
      if nb.Failure? {
        AnswerKeepsInv(sys, r, 500, nb.error);
      } else if env.insertFault.Some? {
        AnswerKeepsInv(sys, r, 500, env.insertFault.value);
      } else if Insert(s.ledger, nb.value).Failure? {
        AnswerKeepsInv(sys, r, 400, SlotTaken);
      } else {
        InsertStepKeepsInv(sys, r, nb.value);
      }
    case Inserted(pos, k) =>
      if env.updateFault.Some? {
        AnswerKeepsInv(sys, r, 500, env.updateFault.value);
      } else {
        UpdateStepKeepsInv(sys, r, env);
      }
    case Done(_) =>
    case Rejected(_) =>
  }

  /** A schedule: which request moves next, and what the environment decides for that step. */
  datatype Move = Move(request: nat, env: Env)

  function Execute(sys: System, schedule: seq<Move>): System
    requires |sys.phases| == |sys.requests|
    ensures |Execute(sys, schedule).phases| == |sys.requests|
    ensures Execute(sys, schedule).requests == sys.requests
    decreases |schedule|
  {
    if |schedule| == 0 then sys
    else
      var m := schedule[0];
      var next := if m.request < |sys.requests| then Step(sys, m.request, m.env) else sys;
      Execute(next, schedule[1..])
  }

  lemma {:induction false} ExecuteKeepsInv(sys: System, schedule: seq<Move>)
    requires Inv(sys)
    ensures Inv(Execute(sys, schedule))
    decreases |schedule|
  {
    if |schedule| > 0 {
      var m := schedule[0];
      if m.request < |sys.requests| {
        StepKeepsInv(sys, m.request, m.env);
        ExecuteKeepsInv(Step(sys, m.request, m.env), schedule[1..]);
      } else {
        ExecuteKeepsInv(sys, schedule[1..]);
      }
    }
  }

  /**
   Mutual exclusion under any interleaving, starting from a valid store. Two
   requests that both still hold a ledger position (inserted, or finished)
   carry different (expertId, date, time) keys. A request whose slot update
   failed is answered and holds no position, but its booking stays in the
   ledger; the last clause covers it: no two ledger entries ever share a key.
   */
  lemma NoDoubleBooking(store: Store, requests: seq<BookingDraft>, schedule: seq<Move>, r1: nat, r2: nat)
    requires ValidStore(store)
    requires r1 < r2 < |requests|
    requires Holds(Execute(Init(store, requests), schedule).phases[r1]).Some?
    requires Holds(Execute(Init(store, requests), schedule).phases[r2]).Some?
    ensures HasTriple(requests[r1]) && HasTriple(requests[r2])
    ensures RequestKey(requests[r1]) != RequestKey(requests[r2])
    ensures UniqueKeys(Execute(Init(store, requests), schedule).store.ledger)
  {
    InitValid(store, requests);
    ExecuteKeepsInv(Init(store, requests), schedule);
  }
}

=== FILE: booking_model.dfy ===
/**
 The booking document (backend/models/Booking.js) and the collection it lives
 in. Six paths are required, `status` is an enumeration defaulting to
 "Confirmed", documents get a creation timestamp, and a unique index on
 (expertId, date, time) makes the collection reject a second booking of the
 same slot; that index is the only thing standing between concurrent
 requests and a double booking.
 */
module BookingModel {
  import opened Base
  import opened Schema
  import opened ExpertModel

  /** Bookings are numbered by their position in the collection, which only grows. */
  type BookingId = nat

  const Statuses: seq<string> := ["Pending", "Confirmed", "Completed"]
  const DefaultStatus: string := "Confirmed"
  /** The store's error code for a unique-index violation. */
  const DuplicateKeyCode: int := 11000

  /**
   A stored booking. `status` is a plain string: it is checked against the
   enumeration only on creation, and the status-update route writes without
   validation.
   */
  datatype Booking = Booking(
    id: BookingId,
    expertId: ExpertId,
    userName: string,
    userEmail: string,
    userPhone: string,
    date: string,
    time: string,
    notes: Option<string>,
    status: string,
    createdAt: nat)

  /** A request body: every field may be absent. */
  datatype BookingDraft = BookingDraft(
    expertId: Option<ExpertId>,
    userName: Option<string>,
    userEmail: Option<string>,
    userPhone: Option<string>,
    date: Option<string>,
    time: Option<string>,
    notes: Option<string>,
    status: Option<string>)

  /** What a freshly created booking satisfies. */
  predicate ValidBooking(b: Booking)
  {
    && |b.expertId| > 0 && |b.userName| > 0 && |b.userEmail| > 0 && |b.userPhone| > 0
    && |b.date| > 0 && |b.time| > 0
    && b.status in Statuses
  }

  predicate RequiredPresent(d: BookingDraft)
  {
    && HasText(d.expertId) && HasText(d.userName) && HasText(d.userEmail) && HasText(d.userPhone)
    && HasText(d.date) && HasText(d.time)
  }

  predicate StatusAccepted(d: BookingDraft)
  {
    d.status.None? || d.status.value in Statuses
  }

  /** The validation errors of a draft, in schema order. */
  function BookingErrors(d: BookingDraft): (errs: seq<FieldError>)
    ensures |errs| == 0 <==> RequiredPresent(d) && StatusAccepted(d)
  {
    CheckText("expertId", d.expertId)
    + CheckText("userName", d.userName)
    + CheckText("userEmail", d.userEmail)
    + CheckText("userPhone", d.userPhone)
    + CheckText("date", d.date)
    + CheckText("time", d.time)
    + (if StatusAccepted(d) then [] else [NotInEnum("status", d.status.value)])
  }

  /** `new Booking(body)`: validation, the `status` default and the creation timestamp `now`. */
  function NewBooking(id: BookingId, now: nat, d: BookingDraft): (r: Result<Booking, string>)
    ensures r.Success? <==> RequiredPresent(d) && StatusAccepted(d)
    ensures r.Success? ==> ValidBooking(r.value)
    ensures r.Success? ==>
      && r.value.id == id && r.value.createdAt == now
      && Some(r.value.expertId) == d.expertId && Some(r.value.userName) == d.userName
      && Some(r.value.userEmail) == d.userEmail && Some(r.value.userPhone) == d.userPhone
      && Some(r.value.date) == d.date && Some(r.value.time) == d.time
      && r.value.notes == d.notes
    ensures r.Success? && d.status.Some? ==> r.value.status == d.status.value
    ensures r.Success? && d.status.None? ==> r.value.status == "Confirmed"
    ensures r.Failure? ==> r.error == ValidationMessage("Booking", BookingErrors(d))
  {
    var errs := BookingErrors(d);
    if |errs| > 0 then Failure(ValidationMessage("Booking", errs))
    else
      Success(Booking(
        id, d.expertId.value, d.userName.value, d.userEmail.value, d.userPhone.value,
        d.date.value, d.time.value, d.notes, d.status.GetOr(DefaultStatus), now))
  }

  /** `notes` is optional: whatever it holds, it never decides whether creation succeeds. */
  lemma NotesNeverInvalidate(id: BookingId, now: nat, d: BookingDraft, notes: Option<string>)
    ensures NewBooking(id, now, d).Success? <==> NewBooking(id, now, d.(notes := notes)).Success?
  {
  }

  /** The identity of a slot across the collection: the fields of the unique index. */
  datatype Key = Key(expertId: ExpertId, date: string, time: string)

  function KeyOf(b: Booking): Key
  {
    Key(b.expertId, b.date, b.time)
  }

  /** The unique index holds: no two bookings share (expertId, date, time). */
  predicate UniqueKeys(ledger: seq<Booking>)
  {
    forall i, j :: 0 <= i < j < |ledger| ==> KeyOf(ledger[i]) != KeyOf(ledger[j])
  }

  /** Some booking in the collection has key `k`. */
  predicate KeyTaken(ledger: seq<Booking>, k: Key)
  {
    exists i :: 0 <= i < |ledger| && KeyOf(ledger[i]) == k
  }

  function HasKey(k: Key): Booking -> bool
  {
    b => KeyOf(b) == k
  }

  datatype InsertError = DuplicateKey(code: int)

  /** The insert behind `save()`: atomic, rejected with code 11000 when the key is already taken. */
  function Insert(ledger: seq<Booking>, b: Booking): (r: Result<seq<Booking>, InsertError>)
    ensures r.Failure? <==> KeyTaken(ledger, KeyOf(b))
    ensures r.Failure? ==> r.error.code == DuplicateKeyCode
    ensures r.Success? ==> r.value == ledger + [b]
    ensures UniqueKeys(ledger) && r.Success? ==> UniqueKeys(r.value)
  {
    match FirstIndex(ledger, HasKey(KeyOf(b)))
    case Some(_) => Failure(DuplicateKey(DuplicateKeyCode))
    case None =>
      assert forall i :: 0 <= i < |ledger| ==> KeyOf(ledger[i]) != KeyOf(b) by {
        forall i | 0 <= i < |ledger|
          ensures KeyOf(ledger[i]) != KeyOf(b)
        {
          assert !HasKey(KeyOf(b))(ledger[i]);
        }
      }
      Success(ledger + [b])
  }
}

=== FILE: expert_controller.dfy ===
/**
 The expert routes (backend/controllers/expertController.js): the filtered,
 paginated listing and the lookup by id.

 Query parameters arrive as numbers already (string coercion is not
 modelled). `limit` 0 reaches the store as "no limit" (and makes the skip
 `(page - 1) * 0`, which is never negative), while a `page` of 0 with a
 positive limit asks the store for a negative skip, which it refuses.
 */
module ExpertController {
  import opened Base
  import opened Text
  import opened ExpertModel
  import BookingController

  const DefaultPage: nat := 1
  const DefaultLimit: nat := 10
  const ExpertNotFound: string := "Expert not found"
  /** The store's refusal of a negative skip, answered with status 500. */
  const NegativeSkip: string := "skip value must be non-negative"

  datatype Query = Query(page: Option<nat>, limit: Option<nat>, category: Option<string>, search: Option<string>)

  /** The listing body. `totalPages` is null when the division is by zero. */
  datatype Listing = Listing(experts: seq<Expert>, totalPages: Option<nat>, currentPage: nat)

  /** What `findById` answers: the document, no document, or a failure to cast the id. */
  datatype Lookup = Found(expert: Expert) | NotFound(code: nat, message: string) | CastFailed(code: nat, message: string)

  /** A query parameter only filters when it is truthy, so the empty string filters nothing. */
  predicate Given(p: Option<string>)
  {
    p.Some? && |p.value| > 0
  }

  /** `{ category }` is an exact match; `{ name: { $regex: search, $options: 'i' } }` a case-insensitive substring. */
  predicate Matches(q: Query, e: Expert)
  {
    && (Given(q.category) ==> e.category == q.category.value)
    && (Given(q.search) ==> Contains(Lower(e.name), Lower(q.search.value)))
  }

  function MatchesQuery(q: Query): Expert -> bool
  {
    (e: Expert) => Matches(q, e)
  }

  /** The filtered collection, in collection order. */
  function Matching(experts: seq<Expert>, q: Query): (m: seq<Expert>)
    ensures forall k :: 0 <= k < |m| ==> Matches(q, m[k])
    ensures forall e :: e in experts && Matches(q, e) ==> e in m
    ensures multiset(m) <= multiset(experts)
  {
    var filter := Query(None, None, q.category, q.search);
    var m := Filter(experts, MatchesQuery(filter));
    assert forall k :: 0 <= k < |m| ==> MatchesQuery(filter)(m[k]);
    assert forall e :: e in experts && Matches(q, e) ==> MatchesQuery(filter)(e);
    m
  }

  /** The number of documents `.skip` passes over on page `page`. */
  function Skip(page: nat, limit: nat): nat
    requires page > 0
  {
    (page - 1) * limit
  }

  /** `Math.ceil(count / limit)`: the fewest pages of `limit` items that hold `count` items. */
  function CeilDiv(count: nat, limit: nat): (r: nat)
    requires limit > 0
    ensures r * limit >= count
    ensures r > 0 ==> (r - 1) * limit < count
  {
    var r := (count + limit - 1) / limit;
    DivBounds(count + limit - 1, limit);
    assert (r - 1) * limit == r * limit - limit;
    r
  }

  lemma DivBounds(n: nat, d: nat)
    requires d > 0
    ensures (n / d) * d <= n < (n / d) * d + d
  {
  }

  function Min(a: nat, b: nat): nat
  {
    if a <= b then a else b
  }

  /** What `.skip(skip).limit(limit)` returns from `m`. */
  function Window<T>(m: seq<T>, skip: nat, limit: nat): (r: seq<T>)
    ensures |r| <= limit
    ensures skip >= |m| ==> r == []
    ensures skip < |m| ==> r == m[skip..Min(skip + limit, |m|)]
  {
    m[Min(skip, |m|)..Min(skip + limit, |m|)]
  }

  /** `getExperts`: filter, skip `(page - 1) * limit`, take `limit`, and count the filtered set. */
  function GetExperts(experts: seq<Expert>, q: Query): (r: Result<Listing, string>)
    ensures r.Failure? <==> q.page.GetOr(DefaultPage) == 0 && q.limit.GetOr(DefaultLimit) > 0
    ensures r.Failure? ==> r.error == NegativeSkip
    ensures r.Success? ==>
      var matching := Matching(experts, q);
      var page := q.page.GetOr(DefaultPage);
      var limit := q.limit.GetOr(DefaultLimit);
      && r.value.currentPage == page
      && (forall k :: 0 <= k < |r.value.experts| ==> Matches(q, r.value.experts[k]))
      && (limit > 0 ==>
            && r.value.totalPages == Some(CeilDiv(|matching|, limit))
            && r.value.experts == Window(matching, Skip(page, limit), limit))
      && (limit == 0 ==> r.value.totalPages.None? && r.value.experts == matching)
  {
    var page := q.page.GetOr(DefaultPage);
    var limit := q.limit.GetOr(DefaultLimit);
    var matching := Matching(experts, q);
    // with no limit the skip is (page - 1) * 0, never negative
    if limit == 0 then Success(Listing(matching, None, page))
    else if page == 0 then Failure(NegativeSkip)
    else
      var shown := Window(matching, Skip(page, limit), limit);
      assert forall k :: 0 <= k < |shown| ==> shown[k] in matching;
      Success(Listing(shown, Some(CeilDiv(|matching|, limit)), page))
  }

  /** Pages past `totalPages` are empty, and `totalPages` does not depend on the page asked for. */
  lemma PageBeyondRangeIsEmpty(experts: seq<Expert>, q: Query, page: nat, limit: nat)
    requires q.limit == Some(limit) && limit > 0 && page > 0
    requires page > CeilDiv(|Matching(experts, q)|, limit)
    ensures GetExperts(experts, q.(page := Some(page))).value.experts == []
    ensures GetExperts(experts, q.(page := Some(page))).value.totalPages
         == GetExperts(experts, q.(page := Some(1))).value.totalPages
  {
    var m := Matching(experts, q);
    assert Matching(experts, q.(page := Some(page))) == m;
    assert Matching(experts, q.(page := Some(1))) == m;
    var c := CeilDiv(|m|, limit);
    MulMonotone(c, page - 1, limit);
    assert Skip(page, limit) >= |m|;
  }

  lemma MulMonotone(a: nat, b: nat, m: nat)
    requires a <= b
    ensures a * m <= b * m
  {
  }

  /** Consecutive pages are adjacent pieces of the filtered list. */
  lemma PagesAreAdjacent(experts: seq<Expert>, q: Query, limit: nat, page: nat)
    requires q.limit == Some(limit) && limit > 0 && page > 0
    ensures var m := Matching(experts, q);
      var here := GetExperts(experts, q.(page := Some(page))).value.experts;
      var next := GetExperts(experts, q.(page := Some(page + 1))).value.experts;
      here + next == Window(m, Skip(page, limit), 2 * limit)
  {
    var m := Matching(experts, q);
    var q1, q2 := q.(page := Some(page)), q.(page := Some(page + 1));
    assert Matching(experts, q1) == m && Matching(experts, q2) == m;
    var skip := Skip(page, limit);
    assert Skip(page + 1, limit) == skip + limit;
    var here, next := GetExperts(experts, q1), GetExperts(experts, q2);
    assert here.Success? && next.Success?;
    assert here.value.experts == Window(m, skip, limit);
    assert next.value.experts == Window(m, skip + limit, limit);
    WindowsAdjacent(m, skip, limit);
  }

  lemma WindowsAdjacent<T>(m: seq<T>, skip: nat, limit: nat)
    ensures Window(m, skip, limit) + Window(m, skip + limit, limit) == Window(m, skip, 2 * limit)
  {
    var a := Min(skip, |m|);
    var b := Min(skip + limit, |m|);
    var c := Min(skip + 2 * limit, |m|);
    assert m[a..b] + m[b..c] == m[a..c];
  }

  predicate IsHexDigit(c: char)
  {
    '0' <= c <= '9' || 'a' <= c <= 'f' || 'A' <= c <= 'F'
  }

  /** What the store can cast to an ObjectId: exactly 24 hexadecimal digits. */
  predicate IsObjectId(id: string)
  {
    |id| == 24 && forall k :: 0 <= k < |id| ==> IsHexDigit(id[k])
  }

  /** The message of the `CastError` raised for an id that is not an ObjectId. */
  function CastErrorMessage(id: string): string
  {
    "Cast to ObjectId failed for value \"" + id + "\" (type string) at path \"_id\" for model \"Expert\""
  }

  /**
   The string form of the ObjectId an id casts to. The cast reads hex digits
   in either case, and an ObjectId prints in lower case, which is how stored
   `_id`s read here.
   */
  function CastId(id: string): (r: string)
    requires IsObjectId(id)
    ensures IsObjectId(r) && |r| == |id|
    ensures forall k :: 0 <= k < |r| ==> !('A' <= r[k] <= 'Z')
    ensures forall k :: 0 <= k < |id| ==> ('a' <= id[k] <= 'f' || '0' <= id[k] <= '9' ==> r[k] == id[k])
  {
    Lower(id)
  }

  /**
   `getExpertById`: an id that is not an ObjectId fails to cast and is answered
   500 with the error's message; otherwise the expert whose `_id` is the cast
   id, or 404 "Expert not found".
   */
  function GetExpertById(experts: seq<Expert>, id: ExpertId): (r: Lookup)
    ensures r.CastFailed? <==> !IsObjectId(id)
    ensures r.CastFailed? ==> r.code == 500 && r.message == CastErrorMessage(id)
    ensures r.NotFound? <==> IsObjectId(id) && forall j :: 0 <= j < |experts| ==> experts[j].id != CastId(id)
    ensures r.NotFound? ==> r.code == 404 && r.message == ExpertNotFound
    ensures r.Found? ==> r.expert.id == CastId(id) && r.expert in experts
  {
    if !IsObjectId(id) then CastFailed(500, CastErrorMessage(id))
    else
      var oid := CastId(id);
      match BookingController.ExpertIndex(experts, oid)
      case None =>
        assert forall j :: 0 <= j < |experts| ==> experts[j].id != oid by {
          forall j | 0 <= j < |experts|
            ensures experts[j].id != oid
          {
            assert !BookingController.HasId(oid)(experts[j]);
          }
        }
        NotFound(404, ExpertNotFound)
      case Some(i) =>
        assert BookingController.HasId(oid)(experts[i]);
        Found(experts[i])
  }

  /**
   Under `_id` uniqueness, any spelling of a stored expert's id, in whatever
   case its hex digits are written, finds exactly that expert.
   */
  lemma FindsStoredExpert(experts: seq<Expert>, j: nat, id: ExpertId)
    requires BookingController.UniqueIds(experts) && j < |experts|
    requires IsObjectId(id) && experts[j].id == CastId(id)
    ensures GetExpertById(experts, id) == Found(experts[j])
  {
    BookingController.ExpertIndexUnique(experts, j);
  }

  /** The lookup ignores the case of the id's hex digits. */
  lemma {:induction false} LookupIgnoresCase(experts: seq<Expert>, a: ExpertId, b: ExpertId)
    requires IsObjectId(a) && IsObjectId(b) && Lower(a) == Lower(b)
    ensures GetExpertById(experts, a) == GetExpertById(experts, b)
  {
    assert CastId(a) == CastId(b);
  }
}

=== FILE: expert_detail.dfy ===
/**
 The expert page (frontend/src/pages/ExpertDetail.jsx): the local copy of
 one expert kept current by `slotBooked` broadcasts, the slots grouped by
 date, the sorted date tabs, the availability counts and the date selected
 on load.

 Both the grouping object and the date set keep their keys in first-appearance
 order (dates are never integer-like keys), so the two agree on which date
 comes first.
 */
module ExpertDetail {
  import opened Base
  import opened Sorting
  import opened Text
  import opened ExpertModel
  import BookingController

  // ---------------------------------------------------------------- slotBooked

  /** Whether a broadcast for (`date`, `time`) marks slot `s`. */
  predicate Hit(s: Slot, date: string, time: string)
  {
    s.date == date && s.time == time
  }

  /** `slots.map(...)`: every slot whose date and time both match becomes booked. */
  function MarkBooked(slots: seq<Slot>, date: string, time: string): (r: seq<Slot>)
    ensures |r| == |slots|
    ensures forall k :: 0 <= k < |r| ==> r[k].date == slots[k].date && r[k].time == slots[k].time
    ensures forall k :: 0 <= k < |r| ==> (r[k].isBooked <==> slots[k].isBooked || Hit(slots[k], date, time))
  {
    if |slots| == 0 then []
    else
      var s := slots[0];
      [if Hit(s, date, time) then s.(isBooked := true) else s] + MarkBooked(slots[1..], date, time)
  }

  /**
   The `slotBooked` listener of the page opened for `routeId`: a broadcast
   for another expert is ignored, otherwise the matching slots are marked.
   */
  function OnSlotBooked(routeId: ExpertId, view: Expert, ev: BookingController.Event): (r: Expert)
    ensures ev.expertId != routeId ==> r == view
    ensures BookingController.ExpertGrows(view, r)
    ensures forall k :: 0 <= k < |r.slots| ==>
      (r.slots[k].isBooked <==> view.slots[k].isBooked || (ev.expertId == routeId && Hit(view.slots[k], ev.date, ev.time)))
  {
    if ev.expertId == routeId then view.(slots := MarkBooked(view.slots, ev.date, ev.time))
    else view
  }

  /** Hearing the same broadcast twice changes nothing the first hearing did not. */
  lemma OnSlotBookedIdempotent(routeId: ExpertId, view: Expert, ev: BookingController.Event)
    ensures OnSlotBooked(routeId, OnSlotBooked(routeId, view, ev), ev) == OnSlotBooked(routeId, view, ev)
  {
    var once := OnSlotBooked(routeId, view, ev);
    var twice := OnSlotBooked(routeId, once, ev);
    assert twice.slots == once.slots;
  }

  /** Two broadcasts give the same view whichever arrives first. */
  lemma OnSlotBookedCommutes(routeId: ExpertId, view: Expert, e1: BookingController.Event, e2: BookingController.Event)
    ensures OnSlotBooked(routeId, OnSlotBooked(routeId, view, e1), e2)
         == OnSlotBooked(routeId, OnSlotBooked(routeId, view, e2), e1)
  {
    var a := OnSlotBooked(routeId, OnSlotBooked(routeId, view, e1), e2);
    var b := OnSlotBooked(routeId, OnSlotBooked(routeId, view, e2), e1);
    assert a.slots == b.slots;
  }

  /**
   Unlike the store, which books one element per request, the page books every
   slot sharing the broadcast's date and time: two identical slots both turn
   booked after a single booking.
   */
  lemma DuplicateSlotsBothMarked()
    ensures var s := Slot("2026-02-21", "10:00 AM", false);
      var e := Expert("e1", "Ada", "Tech", 5.0, 4.5, None, None, [s, s]);
      var v := OnSlotBooked("e1", e, BookingController.SlotBooked("e1", "2026-02-21", "10:00 AM"));
      v.slots[0].isBooked && v.slots[1].isBooked
  {
  }

  // ---------------------------------------------------------------- availability

  function Unbooked(): Slot -> bool
  {
    (s: Slot) => !s.isBooked
  }

  function HitUnbooked(date: string, time: string): Slot -> bool
  {
    (s: Slot) => !s.isBooked && Hit(s, date, time)
  }

  datatype Availability = Availability(total: nat, available: nat)

  /** `getAvailabilityStatus`: all slots, and the unbooked ones; zeros before the expert has loaded. */
  function GetAvailabilityStatus(view: Option<Expert>): (r: Availability)
    ensures r.available <= r.total
    ensures view.None? ==> r == Availability(0, 0)
    ensures view.Some? ==> r.total == |view.value.slots|
    ensures view.Some? ==> r.available + Count(view.value.slots, Not(Unbooked())) == r.total
  {
    match view
    case None => Availability(0, 0)
    case Some(e) =>
      CountSplit(e.slots, Unbooked());
      Availability(|e.slots|, Count(e.slots, Unbooked()))
  }

  /** Marking slots removes from the available count exactly the unbooked slots it hits. */
  lemma {:induction false} MarkBookedCount(slots: seq<Slot>, date: string, time: string)
    ensures Count(MarkBooked(slots, date, time), Unbooked()) + Count(slots, HitUnbooked(date, time))
         == Count(slots, Unbooked())
  {
    if |slots| > 0 {
      var r := MarkBooked(slots, date, time);
      assert r[1..] == MarkBooked(slots[1..], date, time);
      MarkBookedCount(slots[1..], date, time);
      CountCons(r, Unbooked());
      CountCons(slots, Unbooked());
      CountCons(slots, HitUnbooked(date, time));
    }
  }

  /**
   A broadcast never raises the available count, leaves the total alone, and
   lowers the count whenever it hits an unbooked slot of this expert.
   */
  lemma AvailabilityAfterBroadcast(routeId: ExpertId, view: Expert, ev: BookingController.Event, k: nat)
    ensures var before := GetAvailabilityStatus(Some(view));
      var after := GetAvailabilityStatus(Some(OnSlotBooked(routeId, view, ev)));
      after.total == before.total && after.available <= before.available
    ensures k < |view.slots| && ev.expertId == routeId && HitUnbooked(ev.date, ev.time)(view.slots[k]) ==>
      GetAvailabilityStatus(Some(OnSlotBooked(routeId, view, ev))).available
        < GetAvailabilityStatus(Some(view)).available
  {
    if ev.expertId == routeId {
      MarkBookedCount(view.slots, ev.date, ev.time);
      if k < |view.slots| && HitUnbooked(ev.date, ev.time)(view.slots[k]) {
        assert view.slots[k] in Filter(view.slots, HitUnbooked(ev.date, ev.time));
      }
    }
  }

  // ---------------------------------------------------------------- grouping by date

  datatype DateGroup = DateGroup(date: string, slots: seq<Slot>)

  function DateIs(date: string): Slot -> bool
  {
    (s: Slot) => s.date == date
  }

  function GroupIs(date: string): DateGroup -> bool
  {
    (g: DateGroup) => g.date == date
  }

  /** One step of the `reduce`: append to the slot's date group, opening it at the end if new. */
  function AddSlot(acc: seq<DateGroup>, s: Slot): (r: seq<DateGroup>)
  {
    match FirstIndex(acc, GroupIs(s.date))
    case Some(i) => Joined(acc, i, s)
    case None => Opened(acc, s)
  }

  /** `groupedSlots`: the `reduce` over the slots from left to right. */
  function GroupByDate(slots: seq<Slot>): seq<DateGroup>
  {
    if |slots| == 0 then []
    else AddSlot(GroupByDate(slots[..|slots| - 1]), slots[|slots| - 1])
  }

  /** `Object.keys(groupedSlots)`, in insertion order. */
  function Keys(groups: seq<DateGroup>): (r: seq<string>)
    ensures |r| == |groups|
    ensures forall i :: 0 <= i < |groups| ==> r[i] == groups[i].date
  {
    seq(|groups|, i requires 0 <= i < |groups| => groups[i].date)
  }

  function SumSizes(groups: seq<DateGroup>): int
  {
    if |groups| == 0 then 0
    else SumSizes(groups[..|groups| - 1]) + |groups[|groups| - 1].slots|
  }

  /** Each group holds the in-order subsequence of slots with its date. */
  predicate Filtered(groups: seq<DateGroup>, slots: seq<Slot>)
  {
    forall i :: 0 <= i < |groups| ==> groups[i].slots == Filter(slots, DateIs(groups[i].date))
  }

  /** Every slot's date has a group. */
  predicate Covers(groups: seq<DateGroup>, slots: seq<Slot>)
  {
    forall k :: 0 <= k < |slots| ==> slots[k].date in Keys(groups)
  }

  predicate NonEmpty(groups: seq<DateGroup>)
  {
    forall i :: 0 <= i < |groups| ==> |groups[i].slots| > 0
  }

  /**
   `groups` groups `slots` by date: one group per distinct date, each the
   in-order subsequence of slots with that date, sizes adding up to the whole,
   and the first group being the first slot's date.
   */
  predicate GroupsOf(groups: seq<DateGroup>, slots: seq<Slot>)
  {
    && NoDups(Keys(groups))
    && Filtered(groups, slots)
    && NonEmpty(groups)
    && Covers(groups, slots)
    && SumSizes(groups) == |slots|
    && (|slots| > 0 ==> |groups| > 0 && groups[0].date == slots[0].date)
  }

  /** Non-empty groups hold at least one slot each. */
  lemma {:induction false} SumSizesAtLeast(groups: seq<DateGroup>)
    requires NonEmpty(groups)
    ensures SumSizes(groups) >= |groups|
  {
    if |groups| > 0 {
      SumSizesAtLeast(groups[..|groups| - 1]);
    }
  }

  lemma {:induction false} SumSizesUpdate(groups: seq<DateGroup>, i: nat, g: DateGroup)
    requires i < |groups|
    ensures SumSizes(groups[i := g]) + |groups[i].slots| == SumSizes(groups) + |g.slots|
  {
    var n := |groups|;
    if i == n - 1 {
      assert groups[i := g][..n - 1] == groups[..n - 1];
    } else {
      assert groups[i := g][..n - 1] == groups[..n - 1][i := g];
      SumSizesUpdate(groups[..n - 1], i, g);
    }
  }

  /** Filtering the slots by a date none of them has gives nothing. */
  lemma FilterAbsentDate(slots: seq<Slot>, date: string)
    requires forall k :: 0 <= k < |slots| ==> slots[k].date != date
    ensures Filter(slots, DateIs(date)) == []
  {
  }

  /** Filtering one more slot by date: the old groups, plus the slot if its date is `date`. */
  lemma FilterSnoc(pre: seq<Slot>, x: Slot, date: string)
    ensures Filter(pre + [x], DateIs(date)) == Filter(pre, DateIs(date)) + (if x.date == date then [x] else [])
  {
    FilterAppend(pre, [x], DateIs(date));
    assert Filter([x], DateIs(date)) == (if x.date == date then [x] else []) by {
      assert [x][1..] == [];
      assert DateIs(date)(x) <==> x.date == date;
    }
  }

  function Joined(groups: seq<DateGroup>, i: nat, x: Slot): seq<DateGroup>
    requires i < |groups|
  {
    groups[i := DateGroup(x.date, groups[i].slots + [x])]
  }

  function Opened(groups: seq<DateGroup>, x: Slot): seq<DateGroup>
  {
    groups + [DateGroup(x.date, [x])]
  }

  lemma JoinedFiltered(groups: seq<DateGroup>, pre: seq<Slot>, x: Slot, i: nat)
    requires NoDups(Keys(groups)) && Filtered(groups, pre)
    requires i < |groups| && groups[i].date == x.date
    ensures Filtered(Joined(groups, i, x), pre + [x])
  {
    var r := Joined(groups, i, x);
    forall j | 0 <= j < |r|
      ensures r[j].slots == Filter(pre + [x], DateIs(r[j].date))
    {
      FilterSnoc(pre, x, r[j].date);
      if j != i {
        assert Keys(groups)[j] != Keys(groups)[i];
      }
    }
  }

  lemma JoinedCovers(groups: seq<DateGroup>, pre: seq<Slot>, x: Slot, i: nat)
    requires Covers(groups, pre)
    requires i < |groups| && groups[i].date == x.date
    ensures Covers(Joined(groups, i, x), pre + [x])
  {
    var r := Joined(groups, i, x);
    assert Keys(r) == Keys(groups);
    forall k | 0 <= k < |pre| + 1
      ensures (pre + [x])[k].date in Keys(r)
    {
      if k < |pre| {
        assert (pre + [x])[k] == pre[k];
      } else {
        assert Keys(r)[i] == x.date;
      }
    }
  }

  lemma JoinedShape(groups: seq<DateGroup>, pre: seq<Slot>, x: Slot, i: nat)
    requires NoDups(Keys(groups)) && NonEmpty(groups) && SumSizes(groups) == |pre|
    requires |pre| > 0 && groups[0].date == pre[0].date
    requires i < |groups| && groups[i].date == x.date
    ensures var r := Joined(groups, i, x);
      && NoDups(Keys(r)) && NonEmpty(r) && SumSizes(r) == |pre| + 1
      && |r| > 0 && r[0].date == (pre + [x])[0].date
  {
    var r := Joined(groups, i, x);
    assert Keys(r) == Keys(groups);
    SumSizesUpdate(groups, i, DateGroup(x.date, groups[i].slots + [x]));
  }

  /** A slot whose date already has a group joins the end of that group. */
  lemma AddToGroup(groups: seq<DateGroup>, pre: seq<Slot>, x: Slot, i: nat)
    requires GroupsOf(groups, pre)
    requires i < |groups| && groups[i].date == x.date
    ensures GroupsOf(Joined(groups, i, x), pre + [x])
  {
    SumSizesAtLeast(groups);
    JoinedShape(groups, pre, x, i);
    JoinedFiltered(groups, pre, x, i);
    JoinedCovers(groups, pre, x, i);
  }

  lemma OpenedFiltered(groups: seq<DateGroup>, pre: seq<Slot>, x: Slot)
    requires Filtered(groups, pre) && Covers(groups, pre)
    requires x.date !in Keys(groups)
    ensures Filtered(Opened(groups, x), pre + [x])
  {
    var r := Opened(groups, x);
    forall j | 0 <= j < |r|
      ensures r[j].slots == Filter(pre + [x], DateIs(r[j].date))
    {
      FilterSnoc(pre, x, r[j].date);
      if j == |groups| {
        forall k | 0 <= k < |pre|
          ensures pre[k].date != x.date
        {
          assert pre[k].date in Keys(groups);
        }
        FilterAbsentDate(pre, x.date);
      } else {
        assert r[j] == groups[j];
        assert Keys(groups)[j] != x.date;
      }
    }
  }

  lemma OpenedCovers(groups: seq<DateGroup>, pre: seq<Slot>, x: Slot)
    requires Covers(groups, pre)
    ensures Covers(Opened(groups, x), pre + [x])
  {
    var r := Opened(groups, x);
    assert Keys(r) == Keys(groups) + [x.date];
    forall k | 0 <= k < |pre| + 1
      ensures (pre + [x])[k].date in Keys(r)
    {
      if k < |pre| {
        assert (pre + [x])[k] == pre[k];
      }
    }
  }

  lemma OpenedShape(groups: seq<DateGroup>, pre: seq<Slot>, x: Slot)
    requires NoDups(Keys(groups)) && NonEmpty(groups) && SumSizes(groups) == |pre|
    requires |pre| > 0 ==> |groups| > 0 && groups[0].date == pre[0].date
    requires x.date !in Keys(groups)
    ensures var r := Opened(groups, x);
      && NoDups(Keys(r)) && NonEmpty(r) && SumSizes(r) == |pre| + 1
      && |r| > 0 && r[0].date == (pre + [x])[0].date
  {
    var r := Opened(groups, x);
    assert r[..|r| - 1] == groups;
    assert Keys(r) == Keys(groups) + [x.date];
    SumSizesAtLeast(groups);
  }

  /** A slot with a new date opens a group of its own at the end. */
  lemma OpenGroup(groups: seq<DateGroup>, pre: seq<Slot>, x: Slot)
    requires GroupsOf(groups, pre)
    requires x.date !in Keys(groups)
    ensures GroupsOf(Opened(groups, x), pre + [x])
  {
    OpenedShape(groups, pre, x);
    OpenedFiltered(groups, pre, x);
    OpenedCovers(groups, pre, x);
  }

  /** One more slot: the grouping of the longer prefix is one `AddSlot` away. */
  lemma AddSlotKeepsGroups(groups: seq<DateGroup>, pre: seq<Slot>, x: Slot)
    requires GroupsOf(groups, pre)
    ensures GroupsOf(AddSlot(groups, x), pre + [x])
  {
    match FirstIndex(groups, GroupIs(x.date))
    case Some(i) =>
      AddToGroup(groups, pre, x, i);
    case None =>
      assert x.date !in Keys(groups) by {
        forall i | 0 <= i < |groups|
          ensures Keys(groups)[i] != x.date
        {
          assert !GroupIs(x.date)(groups[i]);
        }
      }
      OpenGroup(groups, pre, x);
  }

  lemma {:induction false} GroupByDateCorrect(slots: seq<Slot>)
    ensures GroupsOf(GroupByDate(slots), slots)
  {
    if |slots| > 0 {
      var pre := slots[..|slots| - 1];
      var x := slots[|slots| - 1];
      assert slots == pre + [x];
      assert GroupByDate(slots) == AddSlot(GroupByDate(pre), x);
      GroupByDateCorrect(pre);
      AddSlotKeepsGroups(GroupByDate(pre), pre, x);
    }
  }

  // ---------------------------------------------------------------- date tabs

  /** JavaScript's default `sort()` comparison on strings. */
  function StringOrder(): (string, string) -> bool
  {
    (a: string, b: string) => LexLe(a, b)
  }

  lemma StringOrderIsPreorder()
    ensures TotalPreorder(StringOrder())
  {
    forall a, b
      ensures StringOrder()(a, b) || StringOrder()(b, a)
    {
      LexLeTotal(a, b);
    }
    forall a, b, c | StringOrder()(a, b) && StringOrder()(b, c)
      ensures StringOrder()(a, c)
    {
      LexLeTransitive(a, b, c);
    }
  }

  /** `availableDates`: the group keys sorted, or nothing before the expert has loaded. */
  function AvailableDates(view: Option<Expert>): (r: seq<string>)
    ensures forall i, j :: 0 <= i < j < |r| ==> LexLe(r[i], r[j])
    ensures NoDups(r)
    ensures forall d :: d in r <==> view.Some? && exists k :: 0 <= k < |view.value.slots| && view.value.slots[k].date == d
  {
    match view
    case None => []
    case Some(e) =>
      var keys := Keys(GroupByDate(e.slots));
      GroupByDateCorrect(e.slots);
      KeysAreDates(e.slots);
      StringOrderIsPreorder();
      var r := SortBy(keys, StringOrder());
      SortedDistinct(keys, r);
      r
  }

  /** Sorting distinct strings keeps them distinct and keeps the same members. */
  lemma SortedDistinct(keys: seq<string>, r: seq<string>)
    requires NoDups(keys) && multiset(r) == multiset(keys) && SortedBy(r, StringOrder())
    ensures forall i, j :: 0 <= i < j < |r| ==> LexLe(r[i], r[j])
    ensures NoDups(r)
    ensures forall d :: d in r <==> d in keys
  {
    NoDupsMultiset(keys);
    NoDupsMultiset(r);
    assert forall d :: d in r <==> d in multiset(keys);
    forall i, j | 0 <= i < j < |r|
      ensures LexLe(r[i], r[j])
    {
      assert StringOrder()(r[i], r[j]);
    }
  }

  /** The keys of groups that cover and partition the slots are exactly the slot dates. */
  lemma KeysOfGroups(groups: seq<DateGroup>, slots: seq<Slot>)
    requires Filtered(groups, slots) && NonEmpty(groups) && Covers(groups, slots)
    ensures forall d :: d in Keys(groups) <==> exists k :: 0 <= k < |slots| && slots[k].date == d
  {
    forall d | d in Keys(groups)
      ensures exists k :: 0 <= k < |slots| && slots[k].date == d
    {
      var i :| 0 <= i < |groups| && Keys(groups)[i] == d;
      var g := groups[i].slots;
      assert DateIs(d)(g[0]);
      assert g[0] in multiset(slots);
      var k :| 0 <= k < |slots| && slots[k] == g[0];
    }
  }

  /** The group keys are exactly the slot dates. */
  lemma KeysAreDates(slots: seq<Slot>)
    ensures forall d :: d in Keys(GroupByDate(slots)) <==> exists k :: 0 <= k < |slots| && slots[k].date == d
  {
    GroupByDateCorrect(slots);
    KeysOfGroups(GroupByDate(slots), slots);
  }

  /**
   The date selected on load: the first of `[...new Set(dates)]`, which is the
   first slot's date; with no slots nothing is selected.
   */
  function DefaultSelectedDate(slots: seq<Slot>): (r: Option<string>)
    ensures r.None? <==> |slots| == 0
    ensures r.Some? ==> r.value == slots[0].date
  {
    if |slots| == 0 then None
    else
      GroupByDateCorrect(slots);
      Some(Keys(GroupByDate(slots))[0])
  }

  /** The first date tab is the smallest slot date. */
  lemma FirstTabIsSmallest(e: Expert, k: nat)
    requires k < |e.slots|
    ensures |AvailableDates(Some(e))| > 0
    ensures LexLe(AvailableDates(Some(e))[0], e.slots[k].date)
    ensures exists j :: 0 <= j < |e.slots| && e.slots[j].date == AvailableDates(Some(e))[0]
  {
    var r := AvailableDates(Some(e));
    assert e.slots[k].date in r;
    var i :| 0 <= i < |r| && r[i] == e.slots[k].date;
    if i > 0 {
      assert LexLe(r[0], r[i]);
    } else {
      LexLeTotal(r[0], r[0]);
    }
    assert r[0] in r;
  }

  /**
   When some later slot's date sorts before the first slot's date, the date
   selected on load is not the first date tab.
   */
  lemma DefaultDateMissesFirstTab(e: Expert, k: nat)
    requires k < |e.slots| && !LexLe(e.slots[0].date, e.slots[k].date)
    ensures DefaultSelectedDate(e.slots) == Some(e.slots[0].date)
    ensures |AvailableDates(Some(e))| > 0 && AvailableDates(Some(e))[0] != e.slots[0].date
  {
    FirstTabIsSmallest(e, k);
  }

  /** The date selected on load need not be the first date tab: a later slot may have an earlier date. */
  lemma DefaultDateNotFirstTab(e: Expert, first: Slot, second: Slot)
    requires first == Slot("2026-02-22", "10:00 AM", false) && second == Slot("2026-02-21", "10:00 AM", false)
    requires e.slots == [first, second]
    ensures DefaultSelectedDate(e.slots) == Some(first.date)
    ensures |AvailableDates(Some(e))| > 0 && AvailableDates(Some(e))[0] == second.date != first.date
  {
    LaterDateSortsAfter(first.date, second.date);
    DefaultDateMissesFirstTab(e, 1);
    FirstTabIsSmallest(e, 1);
    var j :| 0 <= j < |e.slots| && e.slots[j].date == AvailableDates(Some(e))[0];
  }

  lemma LaterDateSortsAfter(later: string, earlier: string)
    requires later == "2026-02-22" && earlier == "2026-02-21"
    ensures !LexLe(later, earlier) && later != earlier
  {
    assert later[..9] == earlier[..9];
    assert later[9] > earlier[9];
    LexLeCommonPrefix(later, earlier, 9);
  }

  /** Strings that agree on their first `n` characters and differ at the next compare by that character. */
  lemma {:induction false} LexLeCommonPrefix(a: string, b: string, n: nat)
    requires n < |a| && n < |b| && a[..n] == b[..n]
    ensures LexLe(a, b) <==> a[n] < b[n] || (a[n] == b[n] && LexLe(a[n + 1..], b[n + 1..]))
  {
    if n > 0 {
      assert a[0] == a[..n][0] && b[0] == b[..n][0];
      assert a[1..][..n - 1] == a[..n][1..] && b[1..][..n - 1] == b[..n][1..];
      LexLeCommonPrefix(a[1..], b[1..], n - 1);
      assert a[1..][n - 1] == a[n] && b[1..][n - 1] == b[n];
      assert a[1..][n..] == a[n + 1..] && b[1..][n..] == b[n + 1..];
    }
  }
}

=== FILE: expert_listing.dfy ===
/**
 The expert listing page (frontend/src/pages/ExpertListing.jsx): the filter
 state and the request it sends, the category toggle, the pagination bar and
 its Previous/Next buttons, and the icon and colour shown for a category.
 */
module ExpertListing {
  import opened Base
  import opened Text
  import opened ExpertModel
  import opened QueryString
  import ExpertController

  // ---------------------------------------------------------------- filter state

  /** The page's filter and paging state; empty strings mean "no filter". */
  datatype ListingState = ListingState(search: string, category: string, page: nat, totalPages: nat)

  function InitialState(): ListingState
  {
    ListingState("", "", 1, 1)
  }

  /**
   The query part `fetchExperts` writes,
   `page=${page}&search=${search}&category=${category}`, with nothing encoded.
   */
  function ListingQuery(s: ListingState): string
  {
    "page" + "=" + Decimal(s.page) + "&" + "search" + "=" + s.search + "&" + "category" + "=" + s.category
  }

  /**
   What `getExperts` reads from that query. `limit` is never sent, so the
   store's default of 10 applies; search and category are what survives the
   fragment cut, '&' and '+'. A name that comes back repeated reaches the
   handler as an array, which the model does not follow: that request is None.
   */
  function RequestOf(s: ListingState): (r: Option<ExpertController.Query>)
    ensures r.Some? ==> r.value.limit.None? && r.value.page == Some(s.page)
    ensures Plain(s.search) && Plain(s.category) ==>
      r == Some(ExpertController.Query(Some(s.page), None, Some(s.category), Some(s.search)))
  {
    var q := ListingQuery(s);
    var search, category := Read(q, "search"), Read(q, "category");
    ListingReadsBack(s);
    if Read(q, "page").Repeated? || search.Repeated? || category.Repeated? then None
    else Some(ExpertController.Query(Some(s.page), None, AsOption(category), AsOption(search)))
  }

  /** Search and category free of '&', '#', '+' and '%' come back exactly as typed. */
  lemma ListingReadsBack(s: ListingState)
    ensures Plain(s.search) && Plain(s.category) ==>
      var q := ListingQuery(s);
      && Read(q, "page") == Single(Decimal(s.page))
      && Read(q, "search") == Single(s.search)
      && Read(q, "category") == Single(s.category)
  {
    if Plain(s.search) && Plain(s.category) {
      PlainReadsBack(s.search);
      PlainReadsBack(s.category);
      var d := Decimal(s.page);
      DigitsArePlain(d);
      assert PlainName("page") && PlainName("search") && PlainName("category");
      ReadThree("page", d, "search", s.search, "category", s.category);
    }
  }

  lemma DigitsArePlain(d: string)
    requires forall k :: 0 <= k < |d| ==> IsDigit(d[k])
    ensures Plain(d) && Decode(d) == d && '&' !in d && '#' !in d && '+' !in d
  {
    DecodeKeeps(d);
  }

  /**
   The page parameter comes first and holds only digits, so it is never
   absent, and when it comes back as one value that value is the page.
   */
  lemma PageReadsBack(s: ListingState)
    ensures var p := Read(ListingQuery(s), "page");
      !p.Absent? && (p.Single? ==> p.value == Decimal(s.page))
  {
    DigitsArePlain(Decimal(s.page));
    assert PlainName("page");
    var rest := "search" + "=" + s.search + "&" + "category" + "=" + s.category;
    assert ListingQuery(s) == "page" + "=" + Decimal(s.page) + "&" + rest;
    ReadFirst("page", Decimal(s.page), rest);
  }

  // ---------------------------------------------------------------- handlers

  /**
   What a handler leaves behind: the state after React applies its updates,
   and the listing requests sent, in order. None stands for a request whose
   parameters the model does not follow.
   */
  datatype Handled = Handled(state: ListingState, sent: seq<Option<ExpertController.Query>>)

  /** The effect on `[page, category]`: one request for the new state when either changed. */
  function EffectRequests(before: ListingState, after: ListingState): (r: seq<Option<ExpertController.Query>>)
    ensures |r| <= 1
    ensures |r| == 1 <==> before.page != after.page || before.category != after.category
    ensures |r| == 1 ==> r[0] == RequestOf(after)
  {
    if before.page != after.page || before.category != after.category then [RequestOf(after)] else []
  }

  /**
   `handleSearch`: go to page 1 and fetch. The handler's own fetch still sees
   the page it was rendered with; the effect fetches page 1 again only when
   the page changed.
   */
  function HandleSearch(s: ListingState): (r: Handled)
    ensures r.state == s.(page := 1)
    ensures |r.sent| == (if s.page == 1 then 1 else 2)
    ensures r.sent[0] == RequestOf(s)
    ensures r.sent[|r.sent| - 1] == RequestOf(r.state)
  {
    var t := s.(page := 1);
    Handled(t, [RequestOf(s)] + EffectRequests(s, t))
  }

  /**
   With search and category as typed, the search is sent with its filters:
   the last request asks for page 1 of exactly the typed search and category.
   */
  lemma SearchAsksPageOne(s: ListingState)
    requires Plain(s.search) && Plain(s.category)
    ensures var r := HandleSearch(s);
      r.sent[|r.sent| - 1] == Some(ExpertController.Query(Some(1), None, Some(s.category), Some(s.search)))
  {
  }

  /**
   `clearFilters`: empty search and category and go to page 1, then fetch with
   the state the handler was rendered with, so the first request still
   carries the old filters; only the effect, when page or category changed,
   asks for the cleared listing.
   */
  function ClearFilters(s: ListingState): (r: Handled)
    ensures r.state == s.(search := "", category := "", page := 1)
    ensures |r.sent| == (if s.page == 1 && s.category == "" then 1 else 2)
    ensures r.sent[0] == RequestOf(s)
    ensures |r.sent| == 2 ==> r.sent[1] == RequestOf(r.state)
  {
    var t := s.(search := "", category := "", page := 1);
    Handled(t, [RequestOf(s)] + EffectRequests(s, t))
  }

  /** When clearing moves the page or drops a category, the last request matches every expert. */
  lemma ClearedRequestMatchesAll(s: ListingState, e: Expert)
    requires s.page != 1 || s.category != ""
    ensures var r := ClearFilters(s);
      && r.sent[|r.sent| - 1] == Some(ExpertController.Query(Some(1), None, Some(""), Some("")))
      && ExpertController.Matches(r.sent[|r.sent| - 1].value, e)
  {
    ClearedRequest(ClearFilters(s).state);
  }

  /** A state with no filters on page 1 asks for page 1 with empty filters. */
  lemma ClearedRequest(t: ListingState)
    requires t.page == 1 && t.search == "" && t.category == ""
    ensures RequestOf(t) == Some(ExpertController.Query(Some(1), None, Some(""), Some("")))
  {
    assert Plain(t.search) && Plain(t.category);
  }

  /**
   Clearing a search typed on page 1 with no category sends one request, and
   it still carries the search: the list stays filtered while the box is empty.
   */
  lemma ClearKeepsSearch(s: ListingState)
    requires s.page == 1 && s.category == "" && |s.search| > 0 && Plain(s.search)
    ensures var r := ClearFilters(s);
      && r.state.search == ""
      && r.sent == [Some(ExpertController.Query(Some(1), None, Some(""), Some(s.search)))]
      && ExpertController.Given(r.sent[0].value.search)
  {
  }

  /** A category button: clicking the active category clears it, any other replaces it; both go to page 1. */
  function ToggleCategory(s: ListingState, clicked: string): (r: ListingState)
    ensures r.page == 1 && r.search == s.search
    ensures s.category == clicked ==> r.category == ""
    ensures s.category != clicked ==> r.category == clicked
  {
    s.(category := if s.category == clicked then "" else clicked, page := 1)
  }

  /** Clicking the same category button twice, starting with none selected, leaves none selected. */
  lemma ToggleTwiceClears(s: ListingState, clicked: string)
    requires s.category == ""
    ensures ToggleCategory(ToggleCategory(s, clicked), clicked).category == ""
  {
  }

  /**
   A category button (its name is never empty) always changes the category,
   so the effect sends exactly one request, for the toggled state.
   */
  lemma ToggleFetchesOnce(s: ListingState, clicked: string)
    requires |clicked| > 0
    ensures EffectRequests(s, ToggleCategory(s, clicked)) == [RequestOf(ToggleCategory(s, clicked))]
  {
  }

  // ---------------------------------------------------------------- pagination bar

  /** What the bar renders for one page number. */
  datatype PageItem = Button(number: nat, current: bool) | Ellipsis | Hidden

  function Distance(a: int, b: int): nat
  {
    if a <= b then b - a else a - b
  }

  /** The item for page number `p`: a button near the ends or the current page, an ellipsis two away, otherwise nothing. */
  function ItemAt(page: nat, totalPages: nat, p: nat): PageItem
  {
    if p == 1 || p == totalPages || Distance(p, page) <= 1 then Button(p, p == page)
    else if p + 2 == page || p == page + 2 then Ellipsis
    else Hidden
  }

  /** The items for page numbers 1 to `totalPages`, in order. */
  function PageBar(page: nat, totalPages: nat): (r: seq<PageItem>)
    ensures |r| == totalPages
    ensures forall i :: 0 <= i < |r| ==>
      (r[i].Button? <==> i + 1 == 1 || i + 1 == totalPages || Distance(i + 1, page) <= 1)
    ensures forall i :: 0 <= i < |r| ==> r[i].Button? ==> r[i].number == i + 1 && (r[i].current <==> i + 1 == page)
    ensures forall i :: 0 <= i < |r| ==>
      (r[i].Ellipsis? <==> !r[i].Button? && (i + 1 + 2 == page || i + 1 == page + 2))
  {
    seq(totalPages, i requires 0 <= i < totalPages => ItemAt(page, totalPages, i + 1))
  }

  /**
   With the current page in range, every page number the bar leaves out lies
   beyond an ellipsis: between the first page and the ellipsis two before the
   current page, or between the ellipsis two after it and the last page.
   */
  lemma HiddenBehindEllipsis(page: nat, totalPages: nat, i: nat)
    requires 1 <= page <= totalPages && i < totalPages
    requires PageBar(page, totalPages)[i].Hidden?
    ensures var bar := PageBar(page, totalPages);
      || (1 < i + 1 < page - 2 && bar[page - 3].Ellipsis?)
      || (page + 2 < i + 1 < totalPages && bar[page + 1].Ellipsis?)
  {
  }

  /** The bar is rendered only with more than one page, outside loading, and with experts to show. */
  predicate ShowPagination(totalPages: Option<nat>, loading: bool, shown: nat)
  {
    totalPages.Some? && totalPages.value > 1 && !loading && shown > 0
  }

  /**
   Whenever the bar is shown it has at least two pages, and its first and
   last items are distinct buttons: page 1 and page `totalPages`.
   */
  lemma ShownBarHasBothEnds(totalPages: Option<nat>, loading: bool, shown: nat, page: nat)
    requires ShowPagination(totalPages, loading, shown)
    ensures var bar := PageBar(page, totalPages.value);
      && |bar| >= 2
      && bar[0].Button? && bar[0].number == 1
      && bar[|bar| - 1].Button? && bar[|bar| - 1].number == totalPages.value
  {
  }

  /** `Math.max(1, p - 1)`. */
  function Previous(page: nat): (r: nat)
    ensures r >= 1
    ensures page > 1 ==> r + 1 == page
    ensures page <= 1 ==> r == 1
  {
    if page <= 1 then 1 else page - 1
  }

  /** `Math.min(totalPages, p + 1)`. */
  function Next(page: nat, totalPages: nat): (r: nat)
    ensures r <= totalPages
    ensures page < totalPages ==> r == page + 1
    ensures page >= totalPages ==> r == totalPages
  {
    if page + 1 <= totalPages then page + 1 else totalPages
  }

  /**
   Previous and Next keep an in-range page in range, the page they lead to is
   always one of the bar's buttons, and each button does nothing exactly when
   it is disabled (`page === 1`, `page === totalPages`).
   */
  lemma StepsStayInRange(page: nat, totalPages: nat)
    requires 1 <= page <= totalPages
    ensures 1 <= Previous(page) <= totalPages && 1 <= Next(page, totalPages) <= totalPages
    ensures PageBar(page, totalPages)[Previous(page) - 1].Button?
    ensures PageBar(page, totalPages)[Next(page, totalPages) - 1].Button?
    ensures Previous(page) == page <==> page == 1
    ensures Next(page, totalPages) == page <==> page == totalPages
  {
  }

  // ---------------------------------------------------------------- categories

  datatype Category = Category(id: string, name: string, icon: string, color: string)

  /** The six categories of the filter panel, with their emoji and colour classes. */
  const Categories: seq<Category> := [
    Category("technology", "Technology", "\U{1F4BB}", "bg-blue-100 text-blue-600"),
    Category("management", "Management", "\U{1F4CA}", "bg-purple-100 text-purple-600"),
    Category("marketing", "Marketing", "\U{1F4C8}", "bg-green-100 text-green-600"),
    Category("finance", "Finance", "\U{1F4B0}", "bg-emerald-100 text-emerald-600"),
    Category("design", "Design", "\U{1F3A8}", "bg-pink-100 text-pink-600"),
    Category("consulting", "Consulting", "\U{1F91D}", "bg-orange-100 text-orange-600")
  ]

  datatype Look = Look(icon: string, color: string)

  const Fallback: Look := Look("\U{1F527}", "bg-gray-100 text-gray-600")

  function SameName(catName: string): Category -> bool
  {
    (c: Category) => Lower(c.name) == Lower(catName)
  }

  /** No category is drawn with the fallback look, so the fallback always means "not found". */
  predicate DistinctFromFallback(cats: seq<Category>)
  {
    forall i :: 0 <= i < |cats| ==> cats[i].icon != Fallback.icon
  }

  /** The lookup over any category list whose looks differ from the fallback. */
  function LookIn(cats: seq<Category>, catName: Option<string>): (r: Look)
    requires DistinctFromFallback(cats)
    ensures catName.None? ==> r == Fallback
    ensures catName.Some? ==>
      (r == Fallback <==> forall i :: 0 <= i < |cats| ==> Lower(cats[i].name) != Lower(catName.value))
    ensures catName.Some? && r != Fallback ==>
      exists i :: 0 <= i < |cats| && Lower(cats[i].name) == Lower(catName.value)
        && (forall j :: 0 <= j < i ==> Lower(cats[j].name) != Lower(catName.value))
        && r == Look(cats[i].icon, cats[i].color)
  {
    match catName
    case None => Fallback
    case Some(n) =>
      match FirstIndex(cats, SameName(n))
      case None =>
        assert forall i :: 0 <= i < |cats| ==> Lower(cats[i].name) != Lower(n) by {
          forall i | 0 <= i < |cats|
            ensures Lower(cats[i].name) != Lower(n)
          {
            assert !SameName(n)(cats[i]);
          }
        }
        Fallback
      case Some(i) =>
        assert SameName(n)(cats[i]);
        assert forall j :: 0 <= j < i ==> Lower(cats[j].name) != Lower(n) by {
          forall j | 0 <= j < i
            ensures Lower(cats[j].name) != Lower(n)
          {
            assert !SameName(n)(cats[j]);
          }
        }
        Look(cats[i].icon, cats[i].color)
  }

  /**
   `getCategoryDetails`: the first category whose name equals `catName` up to
   letter case, otherwise the wrench and grey; an absent name finds nothing.
   */
  function CategoryDetails(catName: Option<string>): (r: Look)
    ensures catName.None? ==> r == Fallback
    ensures catName.Some? ==>
      (r == Fallback <==> forall i :: 0 <= i < |Categories| ==> Lower(Categories[i].name) != Lower(catName.value))
    ensures catName.Some? && r != Fallback ==>
      exists i :: 0 <= i < |Categories| && Lower(Categories[i].name) == Lower(catName.value)
        && (forall j :: 0 <= j < i ==> Lower(Categories[j].name) != Lower(catName.value))
        && r == Look(Categories[i].icon, Categories[i].color)
  {
    assert DistinctFromFallback(Categories);
    LookIn(Categories, catName)
  }

  lemma LowerIdempotent(s: string)
    ensures Lower(Lower(s)) == Lower(s)
  {
  }

  /** The lookup ignores letter case: a name and its lower-case form get the same look. */
  lemma CategoryDetailsIgnoresCase(name: string)
    ensures CategoryDetails(Some(name)) == CategoryDetails(Some(Lower(name)))
  {
    LowerIdempotent(name);
  }
}

=== FILE: expert_model.dfy ===
/**
 The expert document (backend/models/Expert.js): a profile with an embedded,
 ordered sequence of bookable slots. `rating` defaults to 0, a slot's
 `isBooked` defaults to false, and nothing makes a slot's (date, time) unique
 within one expert.
 */
module ExpertModel {
  import opened Base
  import opened Schema

  /** The document `_id`, as the hexadecimal string clients and routes carry. */
  type ExpertId = string

  datatype Slot = Slot(date: string, time: string, isBooked: bool)

  /**
   A stored expert. Numbers (`experience`, `rating`) are carried as exact
   reals; floating-point rounding plays no part in the model.
   */
  datatype Expert = Expert(
    id: ExpertId,
    name: string,
    category: string,
    experience: real,
    rating: real,
    description: Option<string>,
    profileImage: Option<string>,
    slots: seq<Slot>)

  /** A slot as supplied on creation; `isBooked` may be left out. */
  datatype SlotDraft = SlotDraft(date: string, time: string, isBooked: Option<bool>)

  /** An expert as supplied on creation: every field may be left out. */
  datatype ExpertDraft = ExpertDraft(
    name: Option<string>,
    category: Option<string>,
    experience: Option<real>,
    rating: Option<real>,
    description: Option<string>,
    profileImage: Option<string>,
    slots: seq<SlotDraft>)

  /** What every stored expert satisfies: the required String paths are non-empty. */
  predicate ValidExpert(e: Expert)
  {
    |e.name| > 0 && |e.category| > 0
  }

  /** Applies the `isBooked` default. */
  function NewSlot(d: SlotDraft): Slot
  {
    Slot(d.date, d.time, d.isBooked.GetOr(false))
  }

  /** The validation errors of a draft, in schema order (name, category, experience). */
  function ExpertErrors(d: ExpertDraft): (errs: seq<FieldError>)
    ensures |errs| == 0 <==> HasText(d.name) && HasText(d.category) && d.experience.Some?
  {
    CheckText("name", d.name)
    + CheckText("category", d.category)
    + (if d.experience.Some? then [] else [Required("experience")])
  }

  /** Creating an expert document: validation, then the schema defaults. */
  function CreateExpert(id: ExpertId, d: ExpertDraft): (r: Result<Expert, string>)
    ensures r.Success? <==> HasText(d.name) && HasText(d.category) && d.experience.Some?
    ensures r.Success? ==> ValidExpert(r.value) && r.value.id == id
    ensures r.Success? ==>
      && r.value.name == d.name.value && r.value.category == d.category.value
      && r.value.experience == d.experience.value
      && r.value.description == d.description && r.value.profileImage == d.profileImage
    ensures r.Success? ==> r.value.rating == (if d.rating.Some? then d.rating.value else 0.0)
    ensures r.Success? ==> |r.value.slots| == |d.slots|
    ensures r.Success? ==> forall k :: 0 <= k < |d.slots| ==>
      r.value.slots[k].date == d.slots[k].date && r.value.slots[k].time == d.slots[k].time
    ensures r.Success? ==> forall k :: 0 <= k < |d.slots| && d.slots[k].isBooked.Some? ==>
      r.value.slots[k].isBooked == d.slots[k].isBooked.value
    ensures r.Success? ==> forall k :: 0 <= k < |d.slots| && d.slots[k].isBooked.None? ==> !r.value.slots[k].isBooked
    ensures r.Failure? ==> r.error == ValidationMessage("Expert", ExpertErrors(d))
  {
    var errs := ExpertErrors(d);
    if |errs| > 0 then Failure(ValidationMessage("Expert", errs))
    else
      Success(Expert(
        id, d.name.value, d.category.value, d.experience.value, d.rating.GetOr(0.0),
        d.description, d.profileImage,
        seq(|d.slots|, k requires 0 <= k < |d.slots| => NewSlot(d.slots[k]))))
  }

  /** `description` and `profileImage` are optional: they never decide whether creation succeeds. */
  lemma OptionalFieldsNeverInvalidate(id: ExpertId, d: ExpertDraft, description: Option<string>, profileImage: Option<string>)
    ensures CreateExpert(id, d).Success?
        <==> CreateExpert(id, d.(description := description, profileImage := profileImage)).Success?
    ensures CreateExpert(id, d.(description := None, profileImage := None)).Success? ==>
          var e := CreateExpert(id, d.(description := None, profileImage := None)).value;
          e.description.None? && e.profileImage.None?
  {
  }
}

=== FILE: my_bookings.dfy ===
/**
 The bookings page (frontend/src/pages/MyBookings.jsx): the e-mail search, the
 status filter and date sort of the list, the four stat cards, the status
 badge, the progress label and the empty state.

 The page holds what the e-mail route returns: bookings with their expert
 populated. The sort key `new Date(date + ' ' + time)` is a parameter `when`
 mapping a booking to a number; date parsing is not modelled.
 */
module MyBookings {
  import opened Base
  import opened Sorting
  import opened Text
  import opened ExpertModel
  import opened BookingModel
  import opened BookingController
  import opened QueryString
  import BookingForm

  const FetchFailed: string := "Failed to fetch bookings. Please try again."
  const AllStatuses: string := "all"
  const Descending: string := "desc"
  const UntitledSession: string := "Expert Session"

  datatype Page = Page(
    email: string,
    bookings: seq<Populated>,
    hasSearched: bool,
    error: string,
    filterStatus: string,
    sortOrder: string)

  function InitialPage(savedEmail: string): Page
  {
    Page(savedEmail, [], false, "", AllStatuses, Descending)
  }

  // ---------------------------------------------------------------- search

  /**
   The query part `handleSearch` writes, `email=${email}` with no encoding; an
   empty box sends nothing. The route reads the e-mail back as typed only
   when it avoids '&', '#', '+' and '%'; with no '&' or '#' it still reads
   every '+' as a space.
   */
  function SearchQuery(email: string): (r: Option<string>)
    ensures r.None? <==> |email| == 0
    ensures r.Some? && '&' !in email && '#' !in email ==> Read(r.value, "email") == Single(Decode(email))
    ensures r.Some? && Plain(email) ==> Read(r.value, "email") == Single(email)
  {
    if |email| == 0 then None
    else
      EmailReadsBack(email);
      Some("email=" + email)
  }

  lemma EmailReadsBack(email: string)
    ensures '&' !in email && '#' !in email ==> Read("email=" + email, "email") == Single(Decode(email))
    ensures Plain(email) ==> Read("email=" + email, "email") == Single(email)
  {
    var name := "email";
    assert name + "=" + email == "email=" + email;
    assert '=' !in name && '&' !in name && '#' !in name && '+' !in name;
    if '&' !in email && '#' !in email {
      ReadOne(name, email);
    }
    if Plain(email) {
      PlainReadsBack(email);
    }
  }

  /** The e-mail the bookings route receives for a non-empty box, when it receives one string. */
  function ServerEmail(email: string): (r: Option<string>)
    requires |email| > 0
    ensures '&' !in email && '#' !in email ==> r == Some(Decode(email))
    ensures Plain(email) ==> r == Some(email)
  {
    var p := Read(SearchQuery(email).value, "email");
    if p.Single? then Some(p.value) else None
  }

  /** The answer to the request: the list, or an error. */
  datatype Reply = Listed(bookings: seq<Populated>) | Failed

  /** `handleSearch` once the request has settled; with an empty box there is no request and nothing changes. */
  function HandleSearch(p: Page, reply: Reply): (r: Page)
    ensures SearchQuery(p.email).None? ==> r == p
    ensures SearchQuery(p.email).Some? && reply.Listed? ==>
      r.bookings == reply.bookings && r.hasSearched && r.error == ""
    ensures SearchQuery(p.email).Some? && reply.Failed? ==>
      r.bookings == p.bookings && r.hasSearched == p.hasSearched && r.error == FetchFailed
    ensures r.email == p.email && r.filterStatus == p.filterStatus && r.sortOrder == p.sortOrder
  {
    match SearchQuery(p.email)
    case None => p
    case Some(_) =>
      match reply
      case Listed(bs) => p.(bookings := bs, hasSearched := true, error := "")
      case Failed => p.(error := FetchFailed)
  }

  /**
   A search for an e-mail free of '&', '#', '+' and '%', answered by the
   e-mail route, shows exactly that e-mail's bookings, newest first.
   */
  lemma SearchShowsOwnBookings(p: Page, s: Store)
    requires |p.email| > 0 && Plain(p.email)
    ensures ServerEmail(p.email) == Some(p.email)
    ensures var r := HandleSearch(p, Listed(GetBookingsByEmail(s, ServerEmail(p.email).value)));
      && r.hasSearched
      && (forall k :: 0 <= k < |r.bookings| ==> r.bookings[k].booking.userEmail == p.email)
      && (forall k :: 0 <= k < |s.ledger| && s.ledger[k].userEmail == p.email ==> s.ledger[k] in Bookings(r.bookings))
  {
    var bs := GetBookingsByEmail(s, p.email);
    assert Bookings(bs) == NewestBookingsOf(s.ledger, p.email);
    forall k | 0 <= k < |bs|
      ensures bs[k].booking.userEmail == p.email
    {
      assert Bookings(bs)[k] == bs[k].booking;
    }
  }

  /**
   An address holding a '+' (and no '&' or '#') is read back by the route
   with a space in its place: unless some booking was made with that other
   address, the search lists nothing, not even the bookings made with the
   address as typed.
   */
  lemma PlusInAddressFindsNothing(s: Store, email: string)
    requires |email| > 0 && '&' !in email && '#' !in email && '+' in email
    requires forall k :: 0 <= k < |s.ledger| ==> s.ledger[k].userEmail != Decode(email)
    ensures ServerEmail(email) == Some(Decode(email)) && Decode(email) != email
    ensures GetBookingsByEmail(s, ServerEmail(email).value) == []
  {
    DecodeKeeps(email);
    NoBookingsFor(s, Decode(email));
  }

  /** Such an address passes the booking form's e-mail rule, so it is stored as typed. */
  lemma PlusAddressAccepted()
    ensures BookingForm.IsEmail("ann+x@mail.com")
  {
    var e := "ann+x@mail.com";
    assert BookingForm.SplitsAt(e, 5, 10) by {
      assert e[..5] == "ann+x" && e[6..10] == "mail" && e[11..] == "com";
    }
  }

  /** The same address holds a '+' and neither '&' nor '#', so the route reads it as "ann x@mail.com". */
  lemma PlusAddressMisread()
    ensures '+' in "ann+x@mail.com" && '&' !in "ann+x@mail.com" && '#' !in "ann+x@mail.com"
    ensures Decode("ann+x@mail.com") == "ann x@mail.com"
  {
    var e := "ann+x@mail.com";
    assert e[3] == '+';
    var d := Decode(e);
    assert |d| == 14;
    assert forall k :: 0 <= k < 14 ==> d[k] == "ann x@mail.com"[k];
  }

  /** An address no booking was made with lists nothing. */
  lemma NoBookingsFor(s: Store, email: string)
    requires forall k :: 0 <= k < |s.ledger| ==> s.ledger[k].userEmail != email
    ensures GetBookingsByEmail(s, email) == []
  {
    assert forall k :: 0 <= k < |s.ledger| ==> !EmailIs(email)(s.ledger[k]);
    FilterNone(s.ledger, EmailIs(email));
    var r := NewestBookingsOf(s.ledger, email);
    assert |r| == |multiset(r)| == 0;
    assert |Bookings(GetBookingsByEmail(s, email))| == 0;
  }

  // ---------------------------------------------------------------- filter and sort

  /** The filter select: `'all'` passes everything, any other value only that status. */
  function Shown(filterStatus: string): Populated -> bool
  {
    (p: Populated) => filterStatus == AllStatuses || p.booking.status == filterStatus
  }

  /** The comparator `dateB - dateA` for `'desc'` and `dateA - dateB` otherwise, as an ordering. */
  function Chronological(when: Booking -> int, sortOrder: string): (Populated, Populated) -> bool
  {
    if sortOrder == Descending then (a: Populated, b: Populated) => when(a.booking) >= when(b.booking)
    else (a: Populated, b: Populated) => when(a.booking) <= when(b.booking)
  }

  lemma ChronologicalIsPreorder(when: Booking -> int, sortOrder: string)
    ensures TotalPreorder(Chronological(when, sortOrder))
  {
  }

  /** `filteredBookings`: the bookings the filter passes, ordered by date and time. */
  function FilteredBookings(bookings: seq<Populated>, filterStatus: string, sortOrder: string, when: Booking -> int): (r: seq<Populated>)
    ensures multiset(r) == multiset(Filter(bookings, Shown(filterStatus)))
    ensures forall k :: 0 <= k < |r| ==> filterStatus == AllStatuses || r[k].booking.status == filterStatus
    ensures forall k :: 0 <= k < |bookings| && Shown(filterStatus)(bookings[k]) ==> bookings[k] in r
    ensures sortOrder == Descending ==> forall i, j :: 0 <= i < j < |r| ==> when(r[i].booking) >= when(r[j].booking)
    ensures sortOrder != Descending ==> forall i, j :: 0 <= i < j < |r| ==> when(r[i].booking) <= when(r[j].booking)
  {
    var le := Chronological(when, sortOrder);
    var shown := Shown(filterStatus);
    ChronologicalIsPreorder(when, sortOrder);
    var r := SortBy(Filter(bookings, shown), le);
    PermutedFilter(bookings, shown, r);
    ChronologicalOrder(r, when, sortOrder);
    r
  }

  lemma ChronologicalOrder(r: seq<Populated>, when: Booking -> int, sortOrder: string)
    requires SortedBy(r, Chronological(when, sortOrder))
    ensures sortOrder == Descending ==> forall i, j :: 0 <= i < j < |r| ==> when(r[i].booking) >= when(r[j].booking)
    ensures sortOrder != Descending ==> forall i, j :: 0 <= i < j < |r| ==> when(r[i].booking) <= when(r[j].booking)
  {
    forall i, j | 0 <= i < j < |r|
      ensures sortOrder == Descending ==> when(r[i].booking) >= when(r[j].booking)
      ensures sortOrder != Descending ==> when(r[i].booking) <= when(r[j].booking)
    {
      assert Chronological(when, sortOrder)(r[i], r[j]);
    }
  }

  /** `'all'` passes every booking: the list is a reordering of everything fetched. */
  lemma AllKeepsEverything(bookings: seq<Populated>, sortOrder: string, when: Booking -> int)
    ensures multiset(FilteredBookings(bookings, AllStatuses, sortOrder, when)) == multiset(bookings)
  {
    FilterKeepsAll(bookings, Shown(AllStatuses));
  }

  lemma {:induction false} FilterKeepsAll<T>(xs: seq<T>, p: T -> bool)
    requires forall k :: 0 <= k < |xs| ==> p(xs[k])
    ensures Filter(xs, p) == xs
  {
    if |xs| > 0 {
      FilterKeepsAll(xs[1..], p);
    }
  }

  /** The two sort orders show the same bookings. */
  lemma SortOrderKeepsContents(bookings: seq<Populated>, filterStatus: string, when: Booking -> int)
    ensures multiset(FilteredBookings(bookings, filterStatus, Descending, when))
         == multiset(FilteredBookings(bookings, filterStatus, "asc", when))
  {
  }

  // ---------------------------------------------------------------- stats

  datatype Stats = Stats(total: nat, pending: nat, confirmed: nat, completed: nat)

  /** The stat cards count every fetched booking, whatever the filter. */
  function StatsOf(bookings: seq<Populated>): (r: Stats)
    ensures r.total == |bookings|
    ensures r.pending + r.confirmed + r.completed <= r.total
    ensures (forall k :: 0 <= k < |bookings| ==> bookings[k].booking.status in Statuses)
      ==> r.pending + r.confirmed + r.completed == r.total
  {
    var r := Stats(|bookings|,
      Count(bookings, Shown("Pending")), Count(bookings, Shown("Confirmed")), Count(bookings, Shown("Completed")));
    StatsAddUp(bookings);
    r
  }

  function InEnum(): Populated -> bool
  {
    (p: Populated) => p.booking.status in Statuses
  }

  function PendingOrConfirmed(): Populated -> bool
  {
    (p: Populated) => p.booking.status == "Pending" || p.booking.status == "Confirmed"
  }

  /** The three counts add up to the number of bookings whose status is in the enumeration. */
  lemma StatsAddUp(bookings: seq<Populated>)
    ensures Count(bookings, Shown("Pending")) + Count(bookings, Shown("Confirmed")) + Count(bookings, Shown("Completed"))
         == Count(bookings, InEnum())
    ensures Count(bookings, InEnum()) <= |bookings|
    ensures (forall k :: 0 <= k < |bookings| ==> bookings[k].booking.status in Statuses)
      ==> Count(bookings, InEnum()) == |bookings|
  {
    CountDisjoint(bookings, Shown("Pending"), Shown("Confirmed"), PendingOrConfirmed());
    assert forall x :: InEnum()(x) <==> PendingOrConfirmed()(x) || Shown("Completed")(x);
    CountDisjoint(bookings, PendingOrConfirmed(), Shown("Completed"), InEnum());
    CountSplit(bookings, InEnum());
    if forall k :: 0 <= k < |bookings| ==> bookings[k].booking.status in Statuses {
      FilterKeepsAll(bookings, InEnum());
    }
  }

  /** Choosing a status in the filter lists exactly as many bookings as that status's stat card shows. */
  lemma FilterMatchesStatCard(bookings: seq<Populated>, sortOrder: string, when: Booking -> int)
    ensures |FilteredBookings(bookings, "Pending", sortOrder, when)| == StatsOf(bookings).pending
    ensures |FilteredBookings(bookings, "Confirmed", sortOrder, when)| == StatsOf(bookings).confirmed
    ensures |FilteredBookings(bookings, "Completed", sortOrder, when)| == StatsOf(bookings).completed
    ensures |FilteredBookings(bookings, AllStatuses, sortOrder, when)| == StatsOf(bookings).total
  {
    AllKeepsEverything(bookings, sortOrder, when);
    var all := FilteredBookings(bookings, AllStatuses, sortOrder, when);
    assert |all| == |multiset(all)| == |multiset(bookings)|;
    var r1 := FilteredBookings(bookings, "Pending", sortOrder, when);
    assert |r1| == |multiset(r1)|;
    var r2 := FilteredBookings(bookings, "Confirmed", sortOrder, when);
    assert |r2| == |multiset(r2)|;
    var r3 := FilteredBookings(bookings, "Completed", sortOrder, when);
    assert |r3| == |multiset(r3)|;
  }

  // ---------------------------------------------------------------- badge and progress

  datatype Icon = PendingIcon | CheckCircle | XCircle

  datatype Style = Style(icon: Icon, color: string, iconColor: string)

  /** `statusConfig`: the four styled statuses. `Cancelled` has a style though no route accepts it on creation. */
  datatype StatusStyle = StatusStyle(status: string, style: Style)

  const StatusStyles: seq<StatusStyle> := [
    StatusStyle("Pending", Style(PendingIcon, "bg-yellow-50 text-yellow-700 border-yellow-200", "text-yellow-500")),
    StatusStyle("Confirmed", Style(CheckCircle, "bg-green-50 text-green-700 border-green-200", "text-green-500")),
    StatusStyle("Completed", Style(CheckCircle, "bg-blue-50 text-blue-700 border-blue-200", "text-blue-500")),
    StatusStyle("Cancelled", Style(XCircle, "bg-red-50 text-red-700 border-red-200", "text-red-500"))
  ]

  function StyleNamed(status: string): StatusStyle -> bool
  {
    (e: StatusStyle) => e.status == status
  }

  datatype Badge = Badge(style: Style, text: string)

  /** `getStatusBadge`: the status's own style, or Pending's for any other value; the text is always the raw status. */
  function StatusBadge(status: string): (r: Badge)
    ensures r.text == status
    ensures (forall i :: 0 <= i < |StatusStyles| ==> StatusStyles[i].status != status) ==> r.style == StatusStyles[0].style
    ensures forall i :: 0 <= i < |StatusStyles| && StatusStyles[i].status == status ==> r.style == StatusStyles[i].style
  {
    match FirstIndex(StatusStyles, StyleNamed(status))
    case None =>
      assert forall i :: 0 <= i < |StatusStyles| ==> StatusStyles[i].status != status by {
        forall i | 0 <= i < |StatusStyles|
          ensures StatusStyles[i].status != status
        {
          assert !StyleNamed(status)(StatusStyles[i]);
        }
      }
      Badge(StatusStyles[0].style, status)
    case Some(i) =>
      assert StyleNamed(status)(StatusStyles[i]);
      Badge(StatusStyles[i].style, status)
  }

  /** Every status the creation route can store gets a style of its own, and `Confirmed`, the default, is green. */
  lemma EnumStatusesStyled(status: string)
    requires status in Statuses
    ensures exists i :: 0 <= i < |StatusStyles| && StatusStyles[i].status == status
    ensures status == DefaultStatus ==> StatusBadge(status).style.color == "bg-green-50 text-green-700 border-green-200"
  {
    if status == "Pending" {
      assert StatusStyles[0].status == status;
    } else if status == "Confirmed" {
      assert StatusStyles[1].status == status;
    } else {
      assert StatusStyles[2].status == status;
    }
  }

  /** The text under the progress bar. */
  function ProgressLabel(status: string): (r: string)
    ensures r == "Awaiting confirmation" <==> status == "Pending"
    ensures r == "Session confirmed" <==> status == "Confirmed"
    ensures r == "Session completed" <==> status != "Pending" && status != "Confirmed"
  {
    if status == "Pending" then "Awaiting confirmation"
    else if status == "Confirmed" then "Session confirmed"
    else "Session completed"
  }

  /** The bar's filled share, in thirds, and its colour family. */
  function ProgressThirds(status: string): (r: (nat, string))
    ensures 1 <= r.0 <= 3
    ensures r.0 == 1 <==> status == "Pending"
    ensures r.0 == 2 <==> status == "Confirmed"
    ensures r.0 == 1 <==> ProgressLabel(status) == "Awaiting confirmation"
    ensures r.0 == 2 <==> ProgressLabel(status) == "Session confirmed"
    ensures r.0 == 3 <==> ProgressLabel(status) == "Session completed"
    ensures (r.1 == "yellow" <==> r.0 == 1) && (r.1 == "green" <==> r.0 == 2) && (r.1 == "blue" <==> r.0 == 3)
  {
    if status == "Pending" then (1, "yellow")
    else if status == "Confirmed" then (2, "green")
    else (3, "blue")
  }

  /**
   A cancelled booking, which only the unvalidated status route can produce,
   gets the red Cancelled badge and yet a full bar labelled as completed.
   */
  lemma CancelledShowsCompleted()
    ensures StatusBadge("Cancelled").style.icon == XCircle
    ensures ProgressLabel("Cancelled") == "Session completed" && ProgressThirds("Cancelled").0 == 3
  {
    assert StatusStyles[3].status == "Cancelled";
  }

  /** `booking.expertId?.name || "Expert Session"`. */
  function SessionTitle(p: Populated): (r: string)
    ensures p.expert.Some? && |p.expert.value.name| > 0 ==> r == p.expert.value.name
    ensures p.expert.None? || |p.expert.value.name| == 0 ==> r == UntitledSession
  {
    if p.expert.Some? && |p.expert.value.name| > 0 then p.expert.value.name else UntitledSession
  }

  // ---------------------------------------------------------------- empty state

  const NoBookingsForEmail: string := "We couldn't find any bookings for this email address."

  /**
   The message under "No bookings found": with bookings fetched, the filter
   that hides them, by name; otherwise that the address has none.
   */
  function EmptyMessage(bookings: seq<Populated>, filterStatus: string): (r: string)
    ensures |bookings| == 0 ==> r == NoBookingsForEmail
    ensures |bookings| > 0 ==> |r| >= 3 && r[..3] == "No " && Contains(r, filterStatus)
  {
    if |bookings| > 0 then
      var r := "No " + filterStatus + " bookings match your filter.";
      assert OccursAt(r, filterStatus, 3) by {
        assert r[3..3 + |filterStatus|] == filterStatus;
      }
      r
    else NoBookingsForEmail
  }

  predicate ShowsClearFilter(bookings: seq<Populated>, filterStatus: string)
  {
    |bookings| > 0 && filterStatus != AllStatuses
  }

  /**
   When bookings were found but none is listed, a status filter is hiding
   them, the "Clear Filter" button is offered, and pressing it lists them all.
   */
  lemma EmptyListMeansFilter(bookings: seq<Populated>, filterStatus: string, sortOrder: string, when: Booking -> int)
    requires |bookings| > 0 && |FilteredBookings(bookings, filterStatus, sortOrder, when)| == 0
    ensures filterStatus != AllStatuses && ShowsClearFilter(bookings, filterStatus)
    ensures EmptyMessage(bookings, filterStatus) == "No " + filterStatus + " bookings match your filter."
    ensures |FilteredBookings(bookings, AllStatuses, sortOrder, when)| == |bookings|
  {
    FilterMatchesStatCard(bookings, sortOrder, when);
    assert bookings[0] !in FilteredBookings(bookings, filterStatus, sortOrder, when);
    assert !Shown(filterStatus)(bookings[0]);
  }
}

=== FILE: query_string.dfy ===
/**
 How a query string the pages build by plain interpolation comes back out of
 the server's query parser. The browser sends nothing from the first '#' on
 (it starts the fragment); the parser splits the rest at '&' into pieces,
 splits each piece at its first '=' into a name and a value, and reads '+'
 as a space; a name given more than once reaches the handler as an array.
 Percent-escapes are not modelled, so '%' counts among the characters a
 value must avoid to arrive as typed.
 */
module QueryString {
  import opened Base
  import opened Text

  /** A parameter as the handler finds it in `req.query`. */
  datatype Param = Absent | Single(value: string) | Repeated(values: seq<string>)

  /**
   A value interpolation cannot hurt: no '&' (ends the parameter), '#' (starts
   the fragment), '+' (reads as a space) or '%' (starts an escape).
   */
  predicate Plain(v: string)
  {
    forall k :: 0 <= k < |v| ==> v[k] != '&' && v[k] != '#' && v[k] != '+' && v[k] != '%'
  }

  function CharIs(c: char): char -> bool
  {
    (x: char) => x == c
  }

  /** Where `c` first occurs in `s`, if it does. */
  function IndexOf(s: string, c: char): (r: Option<nat>)
    ensures r.None? <==> c !in s
    ensures r.Some? ==> r.value < |s| && s[r.value] == c
    ensures r.Some? ==> forall k :: 0 <= k < r.value ==> s[k] != c
  {
    var r := FirstIndex(s, CharIs(c));
    if r.None? then
      assert c !in s by {
        forall k | 0 <= k < |s|
          ensures s[k] != c
        {
          assert !CharIs(c)(s[k]);
        }
      }
      r
    else
      assert CharIs(c)(s[r.value]);
      assert forall k :: 0 <= k < r.value ==> s[k] != c by {
        forall k | 0 <= k < r.value
          ensures s[k] != c
        {
          assert !CharIs(c)(s[k]);
        }
      }
      r
  }

  /** The first occurrence of `c` in `a + [c] + b`, when `a` has none, is right after `a`. */
  lemma IndexAfter(a: string, c: char, b: string)
    requires c !in a
    ensures IndexOf(a + [c] + b, c) == Some(|a|)
  {
    var s := a + [c] + b;
    assert s[|a|] == c;
    assert forall k :: 0 <= k < |a| ==> s[k] == a[k];
  }

  /** What the browser sends of a URL: everything before the first '#'. */
  function BeforeFragment(url: string): (r: string)
    ensures r <= url && '#' !in r
    ensures r == url <==> '#' !in url
  {
    match IndexOf(url, '#')
    case None => url
    case Some(i) =>
      assert forall k :: 0 <= k < i ==> url[..i][k] == url[k];
      url[..i]
  }

  /** A prefix free of '#' survives the cut. */
  lemma BeforeFragmentAppend(a: string, b: string)
    requires '#' !in a
    ensures BeforeFragment(a + b) == a + BeforeFragment(b)
  {
    var s := a + b;
    match IndexOf(b, '#')
    case None =>
      assert '#' !in s;
    case Some(i) =>
      assert b == b[..i] + ['#'] + b[i + 1..];
      assert s == (a + b[..i]) + ['#'] + b[i + 1..];
      assert '#' !in a + b[..i];
      IndexAfter(a + b[..i], '#', b[i + 1..]);
      assert s[..|a| + i] == a + b[..i];
  }

  /** `s.split(sep)`. */
  function Split(s: string, sep: char): (r: seq<string>)
    ensures |r| > 0
    ensures forall k :: 0 <= k < |r| ==> sep !in r[k]
    decreases |s|
  {
    match IndexOf(s, sep)
    case None => [s]
    case Some(i) => [s[..i]] + Split(s[i + 1..], sep)
  }

  /** `a + sep + b` splits into `a` and the pieces of `b`. */
  lemma SplitAfter(a: string, sep: char, b: string)
    requires sep !in a
    ensures Split(a + [sep] + b, sep) == [a] + Split(b, sep)
  {
    var s := a + [sep] + b;
    IndexAfter(a, sep, b);
    assert s[..|a|] == a && s[|a| + 1..] == b;
  }

  /** `v.replace(/\+/g, ' ')`: the parser's reading of a name or value. */
  function Decode(v: string): (r: string)
    ensures |r| == |v|
    ensures forall k :: 0 <= k < |v| ==> (v[k] == '+' ==> r[k] == ' ') && (v[k] != '+' ==> r[k] == v[k])
  {
    seq(|v|, k requires 0 <= k < |v| => if v[k] == '+' then ' ' else v[k])
  }

  /** A value comes back unchanged exactly when it has no '+'. */
  lemma DecodeKeeps(v: string)
    ensures Decode(v) == v <==> '+' !in v
  {
    if '+' in v {
      var k :| 0 <= k < |v| && v[k] == '+';
      assert Decode(v)[k] == ' ';
    }
  }

  /** One piece, cut at its first '='; a piece without one is a name with an empty value. */
  function Pair(piece: string): (r: (string, string))
    ensures '=' !in piece ==> r == (Decode(piece), "")
  {
    match IndexOf(piece, '=')
    case None => (Decode(piece), "")
    case Some(i) => (Decode(piece[..i]), Decode(piece[i + 1..]))
  }

  /** A piece written as `name=value`, with no '=' in the name, cuts back into that name and value. */
  lemma PairOf(n: string, v: string)
    requires '=' !in n
    ensures Pair(n + "=" + v) == (Decode(n), Decode(v))
  {
    var piece := n + "=" + v;
    assert piece == n + ['='] + v;
    IndexAfter(n, '=', v);
    assert piece[..|n|] == n && piece[|n| + 1..] == v;
  }

  /** The value a piece gives for `name`, if it names it. */
  function ValueIf(piece: string, name: string): seq<string>
  {
    if Pair(piece).0 == name then [Pair(piece).1] else []
  }

  /** The values given for `name`, in order of the pieces. */
  function ValuesOf(pieces: seq<string>, name: string): (r: seq<string>)
    ensures |r| <= |pieces|
  {
    if |pieces| == 0 then [] else ValueIf(pieces[0], name) + ValuesOf(pieces[1..], name)
  }

  /** `req.query[name]` for the query part of a URL as the page wrote it. */
  function Read(query: string, name: string): (r: Param)
    ensures r.Absent? <==> ValuesOf(Split(BeforeFragment(query), '&'), name) == []
    ensures r.Single? <==> |ValuesOf(Split(BeforeFragment(query), '&'), name)| == 1
    ensures r.Single? ==> r.value == ValuesOf(Split(BeforeFragment(query), '&'), name)[0]
  {
    var vs := ValuesOf(Split(BeforeFragment(query), '&'), name);
    if |vs| == 0 then Absent
    else if |vs| == 1 then Single(vs[0])
    else Repeated(vs)
  }

  /** A parameter that only the handler's destructuring sees: absent is undefined, a single value a string. */
  function AsOption(p: Param): (r: Option<string>)
    requires !p.Repeated?
    ensures r.None? <==> p.Absent?
    ensures p.Single? ==> r == Some(p.value)
  {
    if p.Single? then Some(p.value) else None
  }

  /**
   One parameter written as `name=value`: when the value has no '&' or '#', it
   comes back as the one value of that name, read with '+' as a space.
   */
  lemma {:induction false} ReadOne(name: string, v: string)
    requires '=' !in name && '&' !in name && '#' !in name && '+' !in name
    requires '&' !in v && '#' !in v
    ensures Read(name + "=" + v, name) == Single(Decode(v))
  {
    var q := name + "=" + v;
    assert '#' !in q;
    assert '&' !in q;
    assert Split(q, '&') == [q];
    DecodeKeeps(name);
    PairOf(name, v);
    assert ValuesOf([q], name) == ValueIf(q, name) + ValuesOf([], name);
  }

  /** A name the parser reads as written: no '=', '&', '#' or '+'. */
  predicate PlainName(n: string)
  {
    '=' !in n && '&' !in n && '#' !in n && '+' !in n
  }

  /**
   The first parameter of a query, `name=value&rest`, with a value free of
   '&', '#' and '+': its name is never absent, and when it comes back as one
   value that value is the one written first.
   */
  lemma {:induction false} ReadFirst(name: string, v: string, rest: string)
    requires PlainName(name) && '&' !in v && '#' !in v && '+' !in v
    ensures var p := Read(name + "=" + v + "&" + rest, name);
      !p.Absent? && (p.Single? ==> p.value == v)
  {
    var a := name + "=" + v;
    assert '#' !in a + "&";
    assert name + "=" + v + "&" + rest == (a + "&") + rest;
    BeforeFragmentAppend(a + "&", rest);
    assert BeforeFragment(name + "=" + v + "&" + rest) == a + ['&'] + BeforeFragment(rest);
    assert '&' !in a;
    SplitAfter(a, '&', BeforeFragment(rest));
    DecodeKeeps(name);
    DecodeKeeps(v);
    PairOf(name, v);
    var pieces := [a] + Split(BeforeFragment(rest), '&');
    assert pieces[1..] == Split(BeforeFragment(rest), '&');
    assert ValuesOf(pieces, name) == ValueIf(a, name) + ValuesOf(pieces[1..], name);
  }

  /**
   Three parameters with distinct plain names and values free of '&' and '#'
   come back as one value each, read with '+' as a space.
   */
  lemma {:induction false} ReadThree(n1: string, v1: string, n2: string, v2: string, n3: string, v3: string)
    requires PlainName(n1) && PlainName(n2) && PlainName(n3)
    requires n1 != n2 && n2 != n3 && n1 != n3
    requires '&' !in v1 && '#' !in v1 && '&' !in v2 && '#' !in v2 && '&' !in v3 && '#' !in v3
    ensures var q := n1 + "=" + v1 + "&" + n2 + "=" + v2 + "&" + n3 + "=" + v3;
      && Read(q, n1) == Single(Decode(v1))
      && Read(q, n2) == Single(Decode(v2))
      && Read(q, n3) == Single(Decode(v3))
  {
    var a, b, c := n1 + "=" + v1, n2 + "=" + v2, n3 + "=" + v3;
    var q := n1 + "=" + v1 + "&" + n2 + "=" + v2 + "&" + n3 + "=" + v3;
    assert q == a + ['&'] + (b + ['&'] + c);
    assert '#' !in q;
    DecodeKeeps(n1);
    DecodeKeeps(n2);
    DecodeKeeps(n3);
    PairOf(n1, v1);
    PairOf(n2, v2);
    PairOf(n3, v3);
    ReadPieces(q, a, b, c, n1);
    ReadPieces(q, a, b, c, n2);
    ReadPieces(q, a, b, c, n3);
  }

  /** The values of a query with no fragment made of three pieces. */
  lemma ReadPieces(q: string, a: string, b: string, c: string, name: string)
    requires '#' !in q && '&' !in a && '&' !in b && '&' !in c
    requires q == a + ['&'] + (b + ['&'] + c)
    ensures ValuesOf(Split(BeforeFragment(q), '&'), name) == ValueIf(a, name) + ValueIf(b, name) + ValueIf(c, name)
  {
    SplitThree(a, b, c);
    ValuesOfThree(a, b, c, name);
  }

  lemma SplitThree(a: string, b: string, c: string)
    requires '&' !in a && '&' !in b && '&' !in c
    ensures Split(a + ['&'] + (b + ['&'] + c), '&') == [a, b, c]
  {
    assert Split(c, '&') == [c];
    SplitAfter(b, '&', c);
    SplitAfter(a, '&', b + ['&'] + c);
  }

  lemma ValuesOfThree(a: string, b: string, c: string, name: string)
    ensures ValuesOf([a, b, c], name) == ValueIf(a, name) + ValueIf(b, name) + ValueIf(c, name)
  {
    assert [a, b, c][1..] == [b, c] && [b, c][1..] == [c] && [c][1..] == [];
    assert ValuesOf([c], name) == ValueIf(c, name) + ValuesOf([], name);
    assert ValuesOf([b, c], name) == ValueIf(b, name) + ValuesOf([c], name);
  }

  /** A value free of '+' reads back as itself. */
  lemma PlainReadsBack(v: string)
    requires Plain(v)
    ensures Decode(v) == v && '&' !in v && '#' !in v
  {
    DecodeKeeps(v);
  }
}

=== FILE: schema.dfy ===
/**
 The two pieces of document validation both schemas rely on: what `required`
 accepts, and how a failed validation is reported (the message of a
 `ValidationError`, which the booking controller passes back verbatim).
 */
module Schema {
  import opened Base

  /** `required` on a String path: the value is present and is not the empty string. */
  predicate HasText(v: Option<string>)
  {
    v.Some? && |v.value| > 0
  }

  datatype FieldError = Required(path: string) | NotInEnum(path: string, value: string)

  function Describe(e: FieldError): string
  {
    match e
    case Required(p) => p + ": Path `" + p + "` is required."
    case NotInEnum(p, v) => p + ": `" + v + "` is not a valid enum value for path `" + p + "`."
  }

  /** The per-path descriptions, separated by ", ", in schema order. */
  function DescribeAll(errs: seq<FieldError>): string
  {
    if |errs| == 0 then ""
    else if |errs| == 1 then Describe(errs[0])
    else Describe(errs[0]) + ", " + DescribeAll(errs[1..])
  }

  /** The message of the `ValidationError` raised when a document of `model` fails validation. */
  function ValidationMessage(model: string, errs: seq<FieldError>): string
  {
    model + " validation failed: " + DescribeAll(errs)
  }

  /** The error a `required` String path contributes. */
  function CheckText(path: string, v: Option<string>): (errs: seq<FieldError>)
    ensures |errs| == 0 <==> HasText(v)
    ensures |errs| <= 1
  {
    if HasText(v) then [] else [Required(path)]
  }
}

=== FILE: sorting.dfy ===
/**
 Stable insertion sort over a caller-supplied comparison, used for every
 ordering in the system: MongoDB's `sort({ createdAt: -1 })`, JavaScript's
 default string `sort()` and the comparator sort of the bookings page.
 */
module Sorting {

  /** `le` is total and transitive, which is what a sort comparator must be. */
  ghost predicate TotalPreorder<T(!new)>(le: (T, T) -> bool)
  {
    && (forall a, b :: le(a, b) || le(b, a))
    && (forall a, b, c :: le(a, b) && le(b, c) ==> le(a, c))
  }

  predicate SortedBy<T>(xs: seq<T>, le: (T, T) -> bool)
  {
    forall i, j :: 0 <= i < j < |xs| ==> le(xs[i], xs[j])
  }

  /** Places `x` in front of the first element it does not follow. */
  function InsertSorted<T(!new)>(x: T, xs: seq<T>, le: (T, T) -> bool): (r: seq<T>)
    requires TotalPreorder(le)
    requires SortedBy(xs, le)
    ensures SortedBy(r, le)
    ensures multiset(r) == multiset(xs) + multiset{x}
    ensures |r| == |xs| + 1
  {
    if |xs| == 0 then [x]
    else if le(x, xs[0]) then
      [x] + xs
    else
      assert xs == [xs[0]] + xs[1..];
      var rest := InsertSorted(x, xs[1..], le);
      var pool := xs[1..] + [x];
      assert forall k :: 0 <= k < |pool| ==> le(xs[0], pool[k]) by {
        forall k | 0 <= k < |pool|
          ensures le(xs[0], pool[k])
        {
          if k < |xs| - 1 {
            assert pool[k] == xs[k + 1];
          }
        }
      }
      BoundSurvivesPermutation(xs[0], pool, rest, le);
      [xs[0]] + rest
  }

  /** A lower bound of every element of `xs` bounds every element of a permutation of `xs`. */
  lemma BoundSurvivesPermutation<T>(h: T, xs: seq<T>, ys: seq<T>, le: (T, T) -> bool)
    requires forall k :: 0 <= k < |xs| ==> le(h, xs[k])
    requires multiset(ys) == multiset(xs)
    ensures forall k :: 0 <= k < |ys| ==> le(h, ys[k])
  {
    forall k | 0 <= k < |ys|
      ensures le(h, ys[k])
    {
      assert ys[k] in multiset(xs);
      var j :| 0 <= j < |xs| && xs[j] == ys[k];
    }
  }

  /** A permutation of `xs` ordered by `le`. */
  function SortBy<T(!new)>(xs: seq<T>, le: (T, T) -> bool): (r: seq<T>)
    requires TotalPreorder(le)
    ensures SortedBy(r, le)
    ensures multiset(r) == multiset(xs)
    ensures |r| == |xs|
  {
    if |xs| == 0 then []
    else
      assert xs == [xs[0]] + xs[1..];
      InsertSorted(xs[0], SortBy(xs[1..], le), le)
  }
}

=== FILE: text.dfy ===
/**
 The string operations the pages and the store rely on: JavaScript's
 whitespace class (`\s`, which is also what `trim()` strips), trimming,
 lower-casing, literal substring search, and a code-point ordering that
 stands in for the code-unit ordering of the default `Array.prototype.sort`.
 */
module Text {

  /** JavaScript's `\s`: the WhiteSpace and LineTerminator code points. */
  predicate IsWhitespace(c: char)
  {
    var n := c as int;
    || n == 0x09 || n == 0x0A || n == 0x0B || n == 0x0C || n == 0x0D || n == 0x20
    || n == 0xA0 || n == 0x1680 || (0x2000 <= n <= 0x200A)
    || n == 0x2028 || n == 0x2029 || n == 0x202F || n == 0x205F || n == 0x3000 || n == 0xFEFF
  }

  predicate IsDigit(c: char)
  {
    '0' <= c <= '9'
  }

  function DigitChar(d: nat): (c: char)
    requires d < 10
    ensures IsDigit(c)
  {
    ('0' as int + d) as char
  }

  /** `String(n)` for a natural number: its decimal digits. */
  function Decimal(n: nat): (r: string)
    ensures |r| > 0
    ensures forall k :: 0 <= k < |r| ==> IsDigit(r[k])
  {
    if n < 10 then [DigitChar(n)] else Decimal(n / 10) + [DigitChar(n % 10)]
  }

  /** A code point outside the Basic Multilingual Plane, which UTF-16 writes as a surrogate pair. */
  predicate IsAstral(c: char)
  {
    c as int >= 0x1_0000
  }

  /** `s.length` in JavaScript: the number of UTF-16 code units. */
  function Utf16Length(s: string): (r: nat)
    ensures |s| <= r <= 2 * |s|
    ensures |s| == 1 ==> (r == 2 <==> IsAstral(s[0]))
  {
    if |s| == 0 then 0 else (if IsAstral(s[0]) then 2 else 1) + Utf16Length(s[1..])
  }

  /** A string holding a code point outside the Basic Multilingual Plane is longer in code units than in code points. */
  lemma {:induction false} Utf16LengthAstral(s: string, k: nat)
    requires k < |s| && IsAstral(s[k])
    ensures Utf16Length(s) >= |s| + 1
  {
    if k > 0 {
      Utf16LengthAstral(s[1..], k - 1);
    }
  }

  /** No whitespace code point lies outside the Basic Multilingual Plane. */
  lemma AstralIsVisible(c: char)
    requires IsAstral(c)
    ensures !IsWhitespace(c)
  {
  }

  /** Drops leading whitespace. */
  function TrimStart(s: string): (r: string)
    ensures |r| <= |s| && r == s[|s| - |r|..]
    ensures forall k :: 0 <= k < |s| - |r| ==> IsWhitespace(s[k])
    ensures |r| > 0 ==> !IsWhitespace(r[0])
  {
    if |s| > 0 && IsWhitespace(s[0]) then TrimStart(s[1..]) else s
  }

  /** Drops trailing whitespace. */
  function TrimEnd(s: string): (r: string)
    ensures |r| <= |s| && r == s[..|r|]
    ensures forall k :: |r| <= k < |s| ==> IsWhitespace(s[k])
    ensures |r| > 0 ==> !IsWhitespace(r[|r| - 1])
  {
    if |s| > 0 && IsWhitespace(s[|s| - 1]) then TrimEnd(s[..|s| - 1]) else s
  }

  /** `String.prototype.trim`: the stretch from the first to the last non-whitespace character. */
  function Trim(s: string): (r: string)
    ensures |r| <= |s|
    ensures |r| == 0 <==> forall k :: 0 <= k < |s| ==> IsWhitespace(s[k])
    ensures |r| > 0 ==> !IsWhitespace(r[0]) && !IsWhitespace(r[|r| - 1])
    ensures exists i :: OccursAt(s, r, i)
  {
    var a := TrimStart(s);
    TrimEndOfSuffix(s, a);
    TrimEnd(a)
  }

  /** What trimming the end of a whitespace-stripped suffix of `s` says about `s` itself. */
  lemma TrimEndOfSuffix(s: string, a: string)
    requires |a| <= |s| && a == s[|s| - |a|..]
    requires forall k :: 0 <= k < |s| - |a| ==> IsWhitespace(s[k])
    requires |a| > 0 ==> !IsWhitespace(a[0])
    ensures |TrimEnd(a)| <= |s|
    ensures |TrimEnd(a)| == 0 <==> forall k :: 0 <= k < |s| ==> IsWhitespace(s[k])
    ensures |TrimEnd(a)| > 0 ==> !IsWhitespace(TrimEnd(a)[0]) && !IsWhitespace(TrimEnd(a)[|TrimEnd(a)| - 1])
    ensures exists i :: OccursAt(s, TrimEnd(a), i)
  {
    var r := TrimEnd(a);
    if |r| == 0 {
      assert |a| == 0;
    } else {
      assert r[0] == a[0];
      assert !IsWhitespace(s[|s| - |a|]);
    }
    assert s[|s| - |a|..|s| - |a| + |r|] == r;
    assert OccursAt(s, r, |s| - |a|);
  }

  lemma TrimBothEnds(s: string)
    ensures Trim(s) == TrimEnd(TrimStart(s))
  {
  }

  /** A visible character survives `TrimStart`, at its offset in the result. */
  lemma TrimStartKeeps(s: string, m: nat)
    requires m < |s| && !IsWhitespace(s[m])
    ensures |s| - |TrimStart(s)| <= m
    ensures TrimStart(s)[m - (|s| - |TrimStart(s)|)] == s[m]
    ensures !IsWhitespace(TrimStart(s)[m - (|s| - |TrimStart(s)|)])
  {
  }

  /** A visible character survives `TrimEnd`. */
  lemma TrimEndKeeps(s: string, m: nat)
    requires m < |s| && !IsWhitespace(s[m])
    ensures m < |TrimEnd(s)|
  {
  }

  /** Two non-whitespace characters both survive `trim`, so at least two remain. */
  lemma TrimKeepsTwo(s: string, i: nat, j: nat)
    requires i < j < |s| && !IsWhitespace(s[i]) && !IsWhitespace(s[j])
    ensures |Trim(s)| >= 2
  {
    var a := TrimStart(s);
    TrimStartKeeps(s, i);
    TrimStartKeeps(s, j);
    TrimEndKeepsLate(a, j - (|s| - |a|));
    TrimBothEnds(s);
  }

  /** A non-whitespace character after the first survives `TrimEnd`, so at least two remain. */
  lemma TrimEndKeepsLate(a: string, m: nat)
    requires 1 <= m < |a| && !IsWhitespace(a[m])
    ensures |TrimEnd(a)| >= 2
  {
    TrimEndKeeps(a, m);
  }

  /** A non-whitespace character survives `trim`. */
  lemma TrimKeeps(s: string, m: nat)
    requires m < |s| && !IsWhitespace(s[m])
    ensures s[m] in Trim(s)
  {
    var a := TrimStart(s);
    TrimStartKeeps(s, m);
    var n := m - (|s| - |a|);
    TrimEndKeeps(a, n);
    TrimBothEnds(s);
    assert TrimEnd(a)[n] == a[n];
  }

  /** Lower-cases the ASCII letters and leaves every other character alone. */
  function LowerChar(c: char): char
  {
    if 'A' <= c <= 'Z' then (c as int + 32) as char else c
  }

  function Lower(s: string): (r: string)
    ensures |r| == |s|
    ensures forall k :: 0 <= k < |s| ==> r[k] == LowerChar(s[k])
  {
    seq(|s|, k requires 0 <= k < |s| => LowerChar(s[k]))
  }

  /** `needle` occurs in `hay` starting at position `i`. */
  predicate OccursAt(hay: string, needle: string, i: int)
  {
    0 <= i && i + |needle| <= |hay| && hay[i..i + |needle|] == needle
  }

  /** Literal substring search, scanning left to right. */
  function Contains(hay: string, needle: string): (r: bool)
    ensures r <==> exists i :: OccursAt(hay, needle, i)
    decreases |hay|
  {
    if |needle| > |hay| then
      assert forall i :: !OccursAt(hay, needle, i);
      false
    else if hay[..|needle|] == needle then
      assert OccursAt(hay, needle, 0);
      true
    else
      var r := Contains(hay[1..], needle);
      assert r ==> exists i :: OccursAt(hay, needle, i) by {
        if r {
          var i :| OccursAt(hay[1..], needle, i);
          assert hay[1..][i..i + |needle|] == hay[i + 1..i + 1 + |needle|];
          assert OccursAt(hay, needle, i + 1);
        }
      }
      assert (exists i :: OccursAt(hay, needle, i)) ==> r by {
        if exists i :: OccursAt(hay, needle, i) {
          var i :| OccursAt(hay, needle, i);
          assert i != 0;
          assert hay[1..][i - 1..i - 1 + |needle|] == hay[i..i + |needle|];
          assert OccursAt(hay[1..], needle, i - 1);
        }
      }
      r
  }

  /** Lexicographic order on strings, character by character (a prefix comes first). */
  predicate LexLe(a: string, b: string)
  {
    |a| == 0 || (|b| > 0 && (a[0] < b[0] || (a[0] == b[0] && LexLe(a[1..], b[1..]))))
  }

  lemma {:induction false} LexLeTotal(a: string, b: string)
    ensures LexLe(a, b) || LexLe(b, a)
  {
    if |a| > 0 && |b| > 0 && a[0] == b[0] {
      LexLeTotal(a[1..], b[1..]);
    }
  }

  lemma {:induction false} LexLeTransitive(a: string, b: string, c: string)
    requires LexLe(a, b) && LexLe(b, c)
    ensures LexLe(a, c)
  {
    if |a| > 0 && a[0] == b[0] && b[0] == c[0] {
      LexLeTransitive(a[1..], b[1..], c[1..]);
    }
  }
}
